=== FILE: README.md ===
# Multimodal study-notes tutor: the decision logic, in Dafny

The system answers Spanish-language questions about course notes. It retrieves PDF text chunks and slide images from two vector collections and two BM25 indexes. It then fuses, reranks and filters the candidates, and streams an answer from a language model as newline-delimited JSON events. A chat front end and two evaluation scripts read that stream. Two ingestion scripts fill the collections.

This project models the pure decisions under that glue. Every outside service is an input to the model:

- the vector stores' answers;
- the BM25 top-n lists;
- reranker logits and confidence percentages;
- the language models' replies;
- the disk;
- the HTTP transport.

The model is organised by component.

- **Shared helpers.**
  - `Common`: options, dedup, filter, count.
  - `Text`: `strip`, `lower`, containment, `join`.
  - `Decimal`: `str(int)`.
  - `Paths`: `split(os.sep)`, `basename`, `os.path.join`, walk entries.
  - `PyDict`: insertion-ordered dicts.
  - `Ranking`: Python's stable `sorted(..., reverse=True)` and top-k.
- **Live server (`src/api/api.py`).**
  - `Documents`: store answers become candidates.
  - `Fusion`: Reciprocal Rank Fusion.
  - `QueryRewrite`: the contextual rewrite and its fallback.
  - `Confidence`: certainty percentages.
  - `Evidence`: the text and image selection.
  - `Assembly`: the metadata fields, the context block, persona and prompt messages.
  - `Events`: the NDJSON event lines.
  - `Server`: the `/ask` endpoint and the order of its stream.
- **Older non-streaming server (`src/COPIAS/api.py`).** `LegacyServer` covers its prefix- and path-keyed candidate dicts, the 20% confidence floor, and the JSON reply.
- **Stream consumers.**
  - `ChatApp`: image path repair, the sent history, the NDJSON reading loop and one chat turn.
  - `RagasEval`: the answer/context fold and the lockstep dataset columns.
  - `RetrievalEval`: the reported sources, the hit test and the hit rate.
- **Retrieval metrics.** `Benchmark` covers the top-3 sources, the first-match index, hits and reciprocal-rank sums.
- **Ingestion.**
  - `Layout`: subject and topic from the relative path.
  - `ImageIngest`: extension filter, unique ids, parallel lists.
  - `PdfIngest`: page stamping, batches of 50 and `pdf_<k>` ids.

Fusion scores, reranker scores and percentages are `real`. A JSON line that fails to decode is `None` in a `seq<Option<Event>>`. A 200 reply whose body raises while it is read is a `Broken` response carrying the lines read before the break. The live and older servers' `calcular_certeza` take the sigmoid percentage as their input.

## Model

| member | source | states |
|---|---|---|
| Fusion.Weight | src/api/api.py:133 | one appearance at rank r adds 1/(60+r), a positive amount at most 1/60 |
| Fusion.FusionKey | src/api/api.py:130 | the identity is the metadata path when truthy, otherwise the first 100 characters of the text |
| Fusion.Fuse | src/api/api.py:123-135 | the output is sorted by non-increasing score and is a permutation of the accumulated dict's values |
| Fusion.AddHit | src/api/api.py:131-133 | one appearance adds its key at the end of the dict only when the key is new |
| Fusion.AddHitsGet | src/api/api.py:127-133 | after both loops a key maps to an entry exactly when it appeared; the entry holds the first appearance's text and metadata and the sum of its weights |
| Fusion.AddHitsKeys | src/api/api.py:127-133 | the dict's keys are the appearing keys, each once, in order of first appearance |
| Fusion.AccumulateEntries | src/api/api.py:127-133 | every dict entry is its key's reference entry, and keys are distinct |
| Fusion.FuseDistinct | src/api/api.py:127-135 | the fused output holds each identity key once |
| Fusion.FuseEntries | src/api/api.py:127-135 | each fused entry is the reference entry of its key: first text and metadata, summed weights |
| Fusion.FuseComplete | src/api/api.py:127-135 | every key that appears in some list has an entry in the output |
| Fusion.PathlessPrefixMerges | src/api/api.py:127-133 | two pathless candidates whose texts share their first 100 characters become one entry holding the first one's text: the later text is lost |
| Fusion.FuseStable | src/api/api.py:135 | entries with equal scores keep first-appearance order |
| Fusion.HitSumAppend | src/api/api.py:128-133 | a key's score over two lists is the sum of its scores over each |
| Fusion.ScoreSymmetric | src/api/api.py:128-133 | swapping the vector and BM25 lists leaves every key's score unchanged |
| Fusion.TopOfBoth | src/api/api.py:128-133 | a key at rank 0 in both lists, and nowhere else, scores 2/60 |
| Fusion.TopOfOne | src/api/api.py:128-133 | a key at rank 0 of one list only scores 1/60, less than 2/60 |
| QueryRewrite.RecentHistory | src/api/api.py:142 | the rewrite sees the last min(4, n) turns of the history, in order |
| QueryRewrite.PromptIgnoresOlder | src/api/api.py:142-143 | turns older than the last four never change the rewrite prompt |
| QueryRewrite.Rewrite | src/api/api.py:137-154 | the original query when the call raised or the stripped reply is shorter than 2 characters, else the stripped reply |
| QueryRewrite.RewriteChanged | src/api/api.py:149-152 | a result different from the query is a stripped reply of at least two characters |
| QueryRewrite.RewriteIgnoresPadding | src/api/api.py:149 | surrounding whitespace of the reply never changes the result |
| Confidence.Round1 | src/api/api.py:121 | round(x, 1) lies within 0.05 of x |
| Confidence.Round1Monotone | src/api/api.py:121 | rounding preserves order |
| Confidence.Round1Positive | src/api/api.py:121 | a non-negative percentage rounds above zero exactly when it is at least 0.05 |
| Confidence.LiveCertainty | src/api/api.py:112-121 | the live certainty is the rounded percentage with no floor |
| Confidence.FlooredCertainty | src/COPIAS/api.py:53-56 | below 20 the result is 0.0, otherwise the rounded percentage, so every result is 0.0 or at least 20 |
| Confidence.FlooredSurvivors | src/COPIAS/api.py:53-56 | a floored certainty is positive exactly when the raw percentage is at least 20 |
| Documents.VectorCandidates | src/api/api.py:231-240 | each returned document is paired with the metadata at its index; a raised query gives nothing |
| Documents.Bm25Candidates | src/api/api.py:242-251 | each hit takes the metadata at its first index in the corpus; the first unresolvable hit ends the list |
| Documents.Bm25Complete | src/api/api.py:246-249 | when the corpus carries metadata for every document, every hit is kept |
| Evidence.TextCandidates | src/api/api.py:253-261 | the reranked pool is the first 15 fused candidates paired with their scores |
| Evidence.SelectText | src/api/api.py:253-262 | final text is the best min(4, pool) of the pool, by non-increasing score, with no threshold |
| Evidence.SelectTextKeepsBest | src/api/api.py:261-262 | every pooled candidate is kept or outscored by four kept ones |
| Evidence.RateImages | src/api/api.py:299-303 | each pooled image is paired with its rounded certainty |
| Evidence.ImageCandidates | src/api/api.py:292-309 | the passed images are those pooled images, paired with their rounded certainty, whose certainty is above 0.0, kept in pool order; every pooled image whose raw percentage reaches 0.05 passes |
| Evidence.SelectImages | src/api/api.py:310 | final images are the best min(3, passed) of the passed ones, by non-increasing score |
| Evidence.SelectImagesPositive | src/api/api.py:307-310 | every final image has a percentage above zero |
| Evidence.SelectImagesFromPool | src/api/api.py:292-310 | every final image is one of the first ten fused candidates, carrying the rounded certainty of its own percentage |
| Evidence.SelectImagesKeepsBest | src/api/api.py:295-310 | a pooled image reaching 0.05 is kept or outscored by three kept ones |
| Evidence.SelectImagesDropsZero | src/api/api.py:303-307 | an image whose raw percentage is below 0.05 is never shown |
| Assembly.ContextLines | src/api/api.py:318-326 | text lines `[TEXTO - subject]: doc` come first, then image lines `[IMAGEN - source]: doc` |
| Assembly.RagasContext | src/api/api.py:318-327 | the evaluation context holds the text documents, then each image document prefixed `Img: ` |
| Assembly.ContextAgrees | src/api/api.py:318-328 | the context block and the evaluation context hold one entry per chosen document, the i-th of each ending with the same document, and each image line names the file of the matching image reference |
| Assembly.ImageRefs | src/api/api.py:328 | one image reference per final image, in order, with path, filename and score |
| Assembly.TextSources | src/api/api.py:318-332 | the reported sources are exactly the final text's sources, each once |
| Assembly.ContextFallback | src/api/api.py:340 | the fallback sentence stands in exactly when no evidence was chosen, otherwise the lines joined by newlines |
| Assembly.VisualFor | src/api/api.py:342-346 | the image instruction is chosen exactly when an image reference is sent |
| Assembly.VisualMatchesContext | src/api/api.py:324-346 | the image instruction is chosen exactly when the context block holds an image line |
| Assembly.PersonaAsWrittenIsAlwaysArIA | src/api/api.py:349-391 | the persona test as written selects ArIA for every persona string |
| Assembly.SelectPersona | src/api/api.py:349-371 | the corrected test selects LexIA exactly when the lowered field is `lexia` |
| Assembly.LlmMessages | src/api/api.py:425-427 | the messages are the system prompt, the whole history in order, then the user query |
| Events.DeltasSkipsNone | src/app/app.py:410-411 | an undecodable line adds nothing to the answer |
| Events.FirstMetadata | src/07_eval_retrieval.py:59-71 | the index of the first metadata line, with no metadata line before it |
| Server.Retrieve | src/api/api.py:214-316 | the stores are searched with the rewritten query (the original, or a rewrite of at least two characters) and the first 15 fused texts are pooled; a raising text reranker stops with nothing chosen and no image search; otherwise the final text is the best four of the pool by reranker score, the first 10 fused images are pooled, and the final images are the best three passing ones unless the image scorer raised |
| Server.RetrieveSearchesRewritten | src/api/api.py:214-290 | only the stores' answers to the rewritten query matter: two worlds that rewrite alike and answer that query alike retrieve alike |
| Server.RetrievalLogs | src/api/api.py:212-316 | everything emitted before the metadata event is a progress log |
| Server.PromptIsAlwaysArIA | src/api/api.py:349-391 | the live system prompt is ArIA's for every persona field, as the test is written |
| Server.ContentEvents | src/api/api.py:434-438 | every content event carries non-empty text |
| Server.ContentEventsPerChunk | src/api/api.py:434-438 | exactly one content event per chunk that carries text, in provider order, each carrying its chunk: chunks are neither merged nor split |
| Server.ContentEventsCarryText | src/api/api.py:434-438 | the content events' deltas spell the model's text in provider order |
| Server.ErrorEvent | src/api/api.py:442-451 | the terminal error carries the quota message exactly when the exception text contains `429` |
| Server.AssembleOrder | src/api/api.py:330-451 | logs, then one metadata event before any content, and an error only as the last event, present exactly when the model raised |
| Server.AssembleAnswer | src/api/api.py:330-451 | reading back the deltas gives the model's text |
| Server.StreamOrder | src/api/api.py:203-451 | when neither reranker call raises, the live stream is logs, then one metadata event before any content, and an error only as the last event, present exactly when the model raised |
| Server.RespondOrder | src/api/api.py:330-451 | the same for any retrieval outcome in which no reranker call raised |
| Server.StreamCut | src/api/api.py:256-300 | a raising reranker call ends the stream with progress messages only: no metadata event and no error event, the last line announcing the call that raised |
| Server.RespondCut | src/api/api.py:256-300 | the same for any retrieval outcome cut by a reranker call on a non-empty pool |
| Server.StreamAnswer | src/api/api.py:203-451 | the deltas of the live stream's lines are the model's text exactly when no reranker call raised; when one did, the lines sent carry no text |
| Server.RespondAnswer | src/api/api.py:330-451 | the same for any retrieval outcome |
| Server.DeliveredReads | src/api/api.py:256-451 | the client's body breaks exactly when a reranker call raised, and then before any metadata and with no answer text; otherwise it is a whole 200 body that reads back as the model's text |
| Server.Ask | src/api/api.py:462-467 | the reply is 503 exactly when the reranker is not loaded |
| Server.AskUnloadedIgnoresWorld | src/api/api.py:462-463 | the 503 reply comes before any retrieval: it depends on no store or model |
| LegacyServer.StoreAllGet | src/COPIAS/api.py:114-116 | after the vector loop a key holds its last vector hit; other keys are untouched |
| LegacyServer.StoreNewGet | src/COPIAS/api.py:124-128 | after the BM25 loop a present key keeps its value, and a new key holds its first BM25 hit |
| LegacyServer.MergeGet | src/COPIAS/api.py:108-130 | a key found by the vector search holds its last vector hit, otherwise its first BM25 hit, otherwise nothing |
| LegacyServer.SelectText | src/COPIAS/api.py:132-141 | final text is min(4, n) of the merged candidates paired with their scores, by non-increasing score |
| LegacyServer.SelectTextKeepsBest | src/COPIAS/api.py:132-141 | every scored candidate is kept, or outscored by four kept ones |
| LegacyServer.RateImages | src/COPIAS/api.py:173-191 | the rated images are, in dict order, merged images paired with their floored certainty, all reaching the 20% floor; every image whose raw percentage reaches 20 is rated |
| LegacyServer.SelectImages | src/COPIAS/api.py:193-194 | final images are exactly min(3, rated) of the rated images, by non-increasing score |
| LegacyServer.SelectImagesKeepsBest | src/COPIAS/api.py:173-194 | an image whose raw percentage reaches 20 is kept, or outscored by three kept ones |
| LegacyServer.SelectImagesAboveCutoff | src/COPIAS/api.py:184-194 | every final image's percentage is at least 20 |
| LegacyServer.ContextParts | src/COPIAS/api.py:207-222 | text lines come first, then image lines, with `Gral` for a missing subject |
| LegacyServer.RagasContext | src/COPIAS/api.py:207-224 | the text documents, then each image document tagged `[IMG source]` |
| LegacyServer.ContextAgrees | src/COPIAS/api.py:207-224 | the context parts and the evaluation context hold one entry per chosen document, the i-th of each ending with the same document |
| LegacyServer.Sources | src/COPIAS/api.py:275 | the reported sources are exactly the labels `source (subject)` of the final text, each once |
| LegacyServer.ImagesInfo | src/COPIAS/api.py:226-233 | image info is empty exactly when no final image has a non-empty path |
| LegacyServer.ImagesInfoFrom | src/COPIAS/api.py:226-233 | every image info entry describes a final image with a non-empty path |
| LegacyServer.ContextFallback | src/COPIAS/api.py:235 | the context is `Sin información.` exactly when nothing was chosen |
| LegacyServer.Messages | src/COPIAS/api.py:265-269 | system prompt, the history in order, the user query, then the reminder |
| LegacyServer.PromptFor | src/COPIAS/api.py:238-242 | the image instruction is chosen exactly when image info is non-empty |
| LegacyServer.Ask | src/COPIAS/api.py:93-288 | 503 when not loaded; 500 with the exception text when the model raises; otherwise the content, sources, image info and evaluation context of the chosen evidence |
| ChatApp.FirstListing | src/app/app.py:68-70 | the first walked directory that lists the file |
| ChatApp.RepairPath | src/app/app.py:51-72 | no lookup for an empty filename; a missing stored path raises; otherwise the stored path when it exists, else the file in the image folder when it exists, else the file in the first walked directory listing it, else nothing |
| ChatApp.RepairPrefersStored | src/app/app.py:63 | an existing stored path wins over the folder and the walk |
| ChatApp.RepairFindsListed | src/app/app.py:65-70 | a file the walk lists is always found |
| ChatApp.SentHistoryAsWritten | src/app/app.py:347 | the sent history is the prefix of length max(0, n-4) |
| ChatApp.SentHistoryDropsLastAnswer | src/app/app.py:344-347 | the newest two messages of a session are never sent with the question, and a session of up to four messages sends no history at all |
| ChatApp.SentHistory | src/app/app.py:347 | the corrected history is the last min(3, n-1) messages before the question, as the earlier front ends sent it |
| ChatApp.SentHistoryKeepsLastAnswer | src/app/app.py:347 | the corrected history ends with the message just before the question |
| ChatApp.PersonaFieldSelects | src/app/app.py:357 | the lowered mode selects the matching tutor under the corrected test, and ArIA under the test as written |
| ChatApp.ShowImages | src/app/app.py:390-399 | only images scoring above 37.9 are shown, in order; the loop raises exactly when a shown image's lookup raises |
| ChatApp.ShowImagesOne | src/app/app.py:390-399 | one image: hidden or not on disk shows nothing, a raising lookup raises, a found file is shown with the image's score |
| ChatApp.ShowImagesAppend | src/app/app.py:390-399 | two runs of images raise exactly when one does, and otherwise show the first run's pictures, then the second's |
| ChatApp.Consume | src/app/app.py:364-413 | the loop raises exactly when some line's lookup raises; otherwise the answer is the deltas in order, and pictures, source lists and errors are each line's contribution in order |
| ChatApp.Greeted | src/app/app.py:325-330 | an empty session gains the greeting; a non-empty one is unchanged |
| ChatApp.Request | src/app/app.py:344-347 | after the question is appended, the request carries the session's oldest max(0, n-3) messages: all but the newest three and the question itself |
| ChatApp.Turn | src/app/app.py:342-420 | the assistant message is appended exactly on a whole 200 reply whose reading does not raise; a body that breaks shows what it carried, then the connection error, and stores nothing; otherwise the HTTP or connection error is shown |
| RagasEval.Context | src/08_ragas.py:150-152 | the recorded context is never empty |
| RagasEval.ReadSpec | src/08_ragas.py:130-145 | the answer is the deltas in order, and the context is the last metadata event's |
| RagasEval.ContextOfLastMetadata | src/08_ragas.py:138-152 | the recorded context is the last metadata's, or `Sin contexto recuperado.` when that is empty or absent |
| RagasEval.Collect | src/08_ragas.py:113-170 | the four columns have equal length, one row per question answered with a whole 200 body; a body that breaks adds no row |
| RagasEval.CollectPrefix | src/08_ragas.py:122-161 | collecting more questions only extends the columns |
| RagasEval.CollectRow | src/08_ragas.py:147-154 | an answered question's question, answer, context and truth sit at the same row |
| RagasEval.Main | src/08_ragas.py:172-186 | nothing is judged when no question was answered; two workers for groq, one otherwise |
| RetrievalEval.MetadataSources | src/07_eval_retrieval.py:65-71 | the text sources, then the image file names |
| RetrievalEval.ReportedSourcesEmpty | src/07_eval_retrieval.py:53-80 | no sources on another status, a connection error, or a stream without metadata |
| RetrievalEval.ReportedSourcesIgnoresRest | src/07_eval_retrieval.py:59-71 | lines after the first metadata event are never read |
| RetrievalEval.ReportedSourcesBroken | src/07_eval_retrieval.py:59-80 | a body that breaks after its first metadata line reports what the whole body would; one that breaks before it reports nothing |
| RetrievalEval.HitTest | src/07_eval_retrieval.py:108 | with all sources present, a hit exactly when one contains the expected name, ignoring the case of ASCII and Latin-1 letters; a `None` source reached first crashes |
| RetrievalEval.MatchesIgnoresCase | src/07_eval_retrieval.py:108 | lowering either string first never changes the match |
| Text.LowerIdempotent | src/07_eval_retrieval.py:108 | lowering twice is lowering once, and a string is unchanged by lowering exactly when it holds no capital |
| RetrievalEval.HitBeforeNone | src/07_eval_retrieval.py:108 | a match before the first `None` decides a hit |
| RetrievalEval.TopThree | src/07_eval_retrieval.py:123 | the join of the first three sources succeeds exactly when none of them is `None` |
| RetrievalEval.HitRate | src/07_eval_retrieval.py:129-130 | hits over cases, between 0 and 1, and 0 without cases |
| RetrievalEval.Judge | src/07_eval_retrieval.py:96-124 | a row exactly when the case does not crash, whose verdict is the hit test's and whose total is the number of sources |
| RetrievalEval.Evaluate | src/07_eval_retrieval.py:92-124 | the run completes exactly when no case crashes, with one row per case and hits counted over the rows |
| RetrievalEval.CountHitsFound | src/07_eval_retrieval.py:110-111 | the hit count of the rows equals the number of cases that are hits |
| Benchmark.TopSources | src/09_evaluar_metricas.py:144-156 | the first three sources in query order, or with the reranker the first three after a stable descending sort |
| Benchmark.RerankedOrder | src/09_evaluar_metricas.py:148-154 | reranked sources come in non-increasing score order, each from a query result |
| Benchmark.FoundAt | src/09_evaluar_metricas.py:158-164 | the first position whose base name contains the target, or -1 exactly when none does |
| Benchmark.Reciprocal | src/09_evaluar_metricas.py:168 | a found position adds 1, 1/2 or 1/3 |
| Benchmark.Gain | src/09_evaluar_metricas.py:158-168 | a found case adds between 1/3 and 1 to the sum, a missed case nothing |
| Benchmark.MrrSumBounds | src/09_evaluar_metricas.py:158-168 | the reference sum lies between a third of the hits and the hits |
| Benchmark.Accumulate | src/09_evaluar_metricas.py:130-168 | hits and the reciprocal-rank sum equal the reference count and sum over all cases, a skipped query adding nothing, with hits/3 ≤ sum ≤ hits ≤ cases |
| Benchmark.Evaluate | src/09_evaluar_metricas.py:102-179 | a missing folder or failed setup runs no query; a run with folder, resources and cases always gives rates: the hit rate is found cases over all cases and the MRR the reciprocal-rank sum over all cases, with 0 ≤ MRR ≤ hit rate ≤ 1 |
| ImageIngest.IsImageFileIgnoresCase | src/01_multimodal_ingest_smart.py:121 | the extension filter ignores case |
| ImageIngest.FolderImages | src/01_multimodal_ingest_smart.py:119-140 | every collected file is an image, and every image of the folder is collected |
| ImageIngest.Collect | src/01_multimodal_ingest_smart.py:119-140 | the same over the whole walk |
| ImageIngest.AlternativesBound | src/01_multimodal_ingest_smart.py:156-158 | the suffix loop cannot run longer than the number of seen ids |
| ImageIngest.NextId | src/01_multimodal_ingest_smart.py:152-158 | the id is unseen: `img_<f>` when free, else `img_<f>_<n>` for the smallest free n ≥ 1 |
| ImageIngest.ImageMeta | src/01_multimodal_ingest_smart.py:170-176 | stored metadata has type image, source the file name and path the full path |
| ImageIngest.Ingest | src/01_multimodal_ingest_smart.py:142-188 | no images means no store; the four lists stay equal in length, ids are distinct, reserved and start with `img_<source>`; every found image reserves one id, even when embedding it fails; each stored row holds its own image's embedding and description; every embeddable image is stored |
| Layout.SubjectTopic | src/01_multimodal_ingest_smart.py:124-133 | subject is the first directory when there is one, topic the second when there are two, else `general` |
| PdfIngest.Stamp | src/02_ingest_pdfs.py:77-91 | every page gets the file name, type text, the relative path, subject and topic |
| PdfIngest.Stamped | src/02_ingest_pdfs.py:86-91 | stamping keeps each page's content and replaces its metadata |
| PdfIngest.LoadFolder | src/02_ingest_pdfs.py:71-98 | the file count is the number of listed PDFs whose loader answers; every loaded page is typed text |
| PdfIngest.LoadFolderStamped | src/02_ingest_pdfs.py:71-98 | every page loaded from one listing carries the stamp of a listed PDF whose loader answers |
| PdfIngest.Load | src/02_ingest_pdfs.py:71-100 | no file is counted exactly when no directory of the walk lists a PDF whose loader answers; every loaded page is typed text |
| PdfIngest.LoadStamped | src/02_ingest_pdfs.py:71-100 | the page at any index of the whole load carries the stamp of such a file in some directory of the walk |
| PdfIngest.BatchAt | src/02_ingest_pdfs.py:138-143 | a batch is the next at most 50 splits, numbered from its start |
| PdfIngest.BatchesPartition | src/02_ingest_pdfs.py:138-143 | the batches partition the splits in order, each of 1 to 50, with ids `pdf_0` to `pdf_{n-1}` |
| PdfIngest.IdsDistinct | src/02_ingest_pdfs.py:143 | all batch ids are distinct |
| PdfIngest.TotalBatchesAsWrittenOvercounts | src/02_ingest_pdfs.py:134 | `n//50 + 1` is never below the batch count and is one more exactly when 50 divides n |
| PdfIngest.TotalBatchesExact | src/02_ingest_pdfs.py:134-138 | the corrected count equals the number of batches |
| PdfIngest.Main | src/02_ingest_pdfs.py:58-152 | no folder, no PDFs, or every split stored in order in batches with ids `pdf_0` onward, after announcing `n//50 + 1` batches: one more than stored exactly when 50 divides n |

## Left out

- I/O: HTTP, the stores, model loading, logging and timing are left out. Their results are inputs: a function from the request to the answer, or an `Option` for a raised call.
- The sigmoid in `calcular_certeza` is floating point. Percentages are inputs. `round(x, 1)` is modelled on reals with halves rounding up, which differs from binary floats at ties.
- BM25 scoring, tokenisation and vector similarity are left out. Top-n lists and query results are inputs.
- The `debug_info` fields and the debug expander of the chat front end are diagnostics only.
- The fixed wording of the system prompts is left out. The prompts are modelled by the parts that vary: persona, image instruction and context text.
- UI rendering, CSS, avatars and column layout are left out. `ChatApp.Screen` keeps only what is shown: answer, pictures, source lists and errors.
- The text splitter and PDF page extraction are library code. Pages and splits are inputs.
- Assembly.TextSources: `list(set(...))` has an unspecified order. The model lists sources by first occurrence, and the contract states only membership and distinctness. `LegacyServer.Sources` does the same.
- LegacyServer.SelectText: the older server indexes the merged values by the reranker's score list. A score list longer than the values would raise `IndexError`; the model pairs up to the shorter length.
- LegacyServer.RateImages: the older server walks the scorer's list and reads the merged images at each index. A score list longer than the merged images would raise `IndexError`; the model rates up to the shorter length.
- LegacyServer.Ask: a reranker exception inside the older server would also become a 500. The model takes the reranker as a total function.
- Server.Retrieve: the `try` blocks around the store queries log a failure and go on; the model gives such a query no candidates. A raising reranker call is modelled by the cut it causes and by the broken body the client reads (`Server.Delivered`), not as the exception itself.
- Benchmark.TopSources: `m.get("source", "").lower()` raises on a stored `None` source. The model reads a missing or `None` source as the empty string.
- Benchmark.Evaluate: "no documents" is the input `None`. The model does not re-derive it from the nested result lists. The `Hit Rate @3` percentage string and `round(..., 2)` of the MRR are formatting and are not modelled.
- Text.Lower: Python's `str.lower` folds every cased script, and some capitals lower to two characters. The model folds the ASCII and Latin-1 capitals only, one character each. `RetrievalEval.HitTest` and `Benchmark.TopSources` inherit this.
- Events.Encode: `json.dumps` and `json.loads` are not modelled. An emitted event reaches the client as itself, so the model does not prove that serialising and parsing an event round-trips.
- Fusion.FusionKey: a stored metadata of `None` makes the key lookup at src/api/api.py:130 raise. `Meta` is always a mapping in the model, so that failure is not expressed.
- RetrievalEval.ReportedSources carries no postcondition. What it returns is stated by `MetadataSources`, `ReportedSourcesEmpty`, `ReportedSourcesIgnoresRest` and `ReportedSourcesBroken`.
- ChatApp.Turn: the `TypeError` text shown after a failed path lookup is not modelled. The model shows only that the turn stores no answer.
- `src/config.py`, the interactive inspection scripts and the t-SNE plots are not part of this model.

## Findings

The end-to-end members `Server.Stream`, `ChatApp.Request` and `PdfIngest.Main` follow each line as written. Each corrected definition is proved beside its as-written twin.

| source | as written | input that shows it | evidently intended | confidence | as-written member | corrected member |
|---|---|---|---|---|---|---|
| src/api/api.py:349 | `persona.lower() == "LEXIA"` compares a lowered string with a capitalised literal | persona `lexia` (what the front end sends) gives ArIA | LexIA when the lowered field is `lexia` | high, not executed | Assembly.PersonaAsWrittenIsAlwaysArIA | Assembly.SelectPersona |
| src/02_ingest_pdfs.py:134 | `total_batches = n // 50 + 1` | n = 100 announces 3 batches, but `range(0, 100, 50)` gives 2 | ceil(n / 50) | high, not executed | PdfIngest.TotalBatchesAsWrittenOvercounts | PdfIngest.TotalBatchesExact |
| src/app/app.py:347 | `messages[:-4]` sends all but the last four messages | session [greeting, q1, a1, q2] sends no history with q2, so the rewrite cannot see a1 | the last three messages before the question, as `messages[:-1][-3:]` in the earlier front ends | medium, not executed | ChatApp.SentHistoryDropsLastAnswer | ChatApp.SentHistoryKeepsLastAnswer |

=== FILE: assembly.dfy ===
/** What the live server builds from the chosen evidence: the metadata event's fields,
    the context block of the prompt, the persona, and the messages sent to the model. */
module Assembly {
  import opened Common
  import opened Text
  import opened Ranking
  import opened Documents
  import opened Fusion
  import opened Events
  import opened QueryRewrite

  /** A text line of the context block: `[TEXTO - <asignatura>]: <doc>`. */
  function TextLine(x: Scored<Fused>): string {
    "[TEXTO - " + Show(x.item.meta.subject) + "]: " + x.item.doc
  }

  /** An image line of the context block: `[IMAGEN - <source>]: <doc>`. */
  function ImageLine(x: Scored<Fused>): string {
    "[IMAGEN - " + Show(x.item.meta.source) + "]: " + x.item.doc
  }

  /** `context_list`: every text line, then every image line. */
  function ContextLines(text: seq<Scored<Fused>>, images: seq<Scored<Fused>>): (r: seq<string>)
    ensures |r| == |text| + |images|
    ensures forall i :: 0 <= i < |text| ==> r[i] == TextLine(text[i])
    ensures forall j :: 0 <= j < |images| ==> r[|text| + j] == ImageLine(images[j])
  {
    seq(|text|, i requires 0 <= i < |text| => TextLine(text[i]))
      + seq(|images|, j requires 0 <= j < |images| => ImageLine(images[j]))
  }

  /** `contexto_ragas`: the text documents, then each image document marked `Img: `. */
  function RagasContext(text: seq<Scored<Fused>>, images: seq<Scored<Fused>>): (r: seq<string>)
    ensures |r| == |text| + |images|
    ensures forall i :: 0 <= i < |text| ==> r[i] == text[i].item.doc
    ensures forall j :: 0 <= j < |images| ==> r[|text| + j] == "Img: " + images[j].item.doc
  {
    seq(|text|, i requires 0 <= i < |text| => text[i].item.doc)
      + seq(|images|, j requires 0 <= j < |images| => "Img: " + images[j].item.doc)
  }

  /** `imgs_out`: one reference per chosen image, in order. */
  function ImageRefs(images: seq<Scored<Fused>>): (r: seq<ImageRef>)
    ensures |r| == |images|
    ensures forall j :: 0 <= j < |images| ==>
      r[j] == ImageRef(images[j].item.meta.path, images[j].item.meta.source, images[j].score)
  {
    seq(|images|, j requires 0 <= j < |images| =>
      ImageRef(images[j].item.meta.path, images[j].item.meta.source, images[j].score))
  }

  /** `list(set(fuentes))`: the sources of the chosen text, each once. Python leaves the
      order of a set unspecified; this model lists them by first occurrence. */
  function TextSources(text: seq<Scored<Fused>>): (r: seq<string>)
    ensures forall i :: 0 <= i < |text| ==> Show(text[i].item.meta.source) in r
    ensures forall s :: s in r ==> exists i :: 0 <= i < |text| && Show(text[i].item.meta.source) == s
    ensures forall i, j :: 0 <= i < j < |r| ==> r[i] != r[j]
  {
    var all := seq(|text|, i requires 0 <= i < |text| => Show(text[i].item.meta.source));
    var r := Dedup(all);
    assert forall s :: s in r ==> s in all;
    forall i | 0 <= i < |text|
      ensures Show(text[i].item.meta.source) in r
    {
      assert all[i] == Show(text[i].item.meta.source);
    }
    r
  }

  /** The document behind position `i` of the assembled lists: text first, then images. */
  function DocAt(text: seq<Scored<Fused>>, images: seq<Scored<Fused>>, i: nat): string
    requires i < |text| + |images|
  {
    if i < |text| then text[i].item.doc else images[i - |text|].item.doc
  }

  /** The context block, the evaluation context and the image references describe the
      same evidence: the lines of the first two end with the same document at every
      position, and each image line names the file its reference names. */
  lemma ContextAgrees(text: seq<Scored<Fused>>, images: seq<Scored<Fused>>)
    ensures var lines := ContextLines(text, images);
      var ragas := RagasContext(text, images);
      var refs := ImageRefs(images);
      && |lines| == |ragas| == |text| + |images|
      && (forall i :: 0 <= i < |lines| ==>
            EndsWith(lines[i], DocAt(text, images, i)) && EndsWith(ragas[i], DocAt(text, images, i)))
      && (forall j :: 0 <= j < |refs| ==>
            StartsWith(lines[|text| + j], "[IMAGEN - " + Show(refs[j].filename) + "]: "))
  {
    var lines := ContextLines(text, images);
    var ragas := RagasContext(text, images);
    forall i | 0 <= i < |lines|
      ensures EndsWith(lines[i], DocAt(text, images, i)) && EndsWith(ragas[i], DocAt(text, images, i))
    {
      if i < |text| {
        EndsWithConcat("[TEXTO - " + Show(text[i].item.meta.subject) + "]: ", text[i].item.doc);
        EndsWithConcat("", text[i].item.doc);
        assert "" + text[i].item.doc == text[i].item.doc;
      } else {
        var x := images[i - |text|];
        assert lines[i] == lines[|text| + (i - |text|)];
        EndsWithConcat("[IMAGEN - " + Show(x.item.meta.source) + "]: ", x.item.doc);
        EndsWithConcat("Img: ", x.item.doc);
      }
    }
    forall j | 0 <= j < |images|
      ensures StartsWith(lines[|text| + j], "[IMAGEN - " + Show(ImageRefs(images)[j].filename) + "]: ")
    {
      var head := "[IMAGEN - " + Show(images[j].item.meta.source) + "]: ";
      assert (head + images[j].item.doc)[..|head|] == head;
    }
  }

  /** An image line is recognisable by its tag; a text line never carries it. */
  predicate IsImageLine(line: string) {
    StartsWith(line, "[IMAGEN")
  }

  /** The image instruction is given exactly when the context block holds an image line. */
  lemma VisualMatchesContext(text: seq<Scored<Fused>>, images: seq<Scored<Fused>>)
    ensures var lines := ContextLines(text, images);
      VisualFor(ImageRefs(images)) == ImagesAvailable <==> exists i :: 0 <= i < |lines| && IsImageLine(lines[i])
  {
    var lines := ContextLines(text, images);
    forall i | 0 <= i < |text|
      ensures !IsImageLine(lines[i])
    {
      assert lines[i][1] == 'T';
    }
    if |images| > 0 {
      var head := "[IMAGEN - " + Show(images[0].item.meta.source) + "]: ";
      assert lines[|text| + 0] == head + images[0].item.doc;
      assert (head + images[0].item.doc)[..7] == "[IMAGEN";
      assert IsImageLine(lines[|text| + 0]);
    }
  }

  const NoContext: string := "Sin información relevante en la base de datos."

  /** `"\n".join(lines) or <fallback>`. */
  function ContextText(lines: seq<string>): string {
    var joined := Join(lines, "\n");
    if joined == "" then NoContext else joined
  }

  /** The fallback text stands in exactly when no evidence was chosen; otherwise the
      context block is the lines joined by newlines. */
  lemma ContextFallback(text: seq<Scored<Fused>>, images: seq<Scored<Fused>>)
    ensures var lines := ContextLines(text, images);
      ContextText(lines) == if |text| + |images| == 0 then NoContext else Join(lines, "\n")
  {
    var lines := ContextLines(text, images);
    if |lines| > 0 {
      JoinStartsWithFirst(lines, "\n");
      if |text| > 0 {
        assert lines[0] == TextLine(text[0]);
      } else {
        assert lines[0] == lines[|text| + 0] == ImageLine(images[0]);
      }
      assert Join(lines, "\n")[0] == lines[0][0] == '[';
    }
  }

  /** The third instruction of the system prompt. */
  datatype Visual = ImagesAvailable | NoImages

  function VisualText(v: Visual): string {
    match v
    case ImagesAvailable =>
      "3. Tienes acceso a imágenes marcadas como [IMAGEN]. Úsalas activamente para explicar puntos visuales."
    case NoImages =>
      "3. No hay imágenes disponibles para esta consulta. Ignora referencias visuales del texto."
  }

  /** `inst_visual`, chosen on whether any image reference is sent to the client. */
  function VisualFor(refs: seq<ImageRef>): (v: Visual)
    ensures v == ImagesAvailable <==> |refs| > 0
  {
    if |refs| > 0 then ImagesAvailable else NoImages
  }

  /** The two tutor personalities. */
  datatype Persona = ArIA | LexIA

  function Name(p: Persona): string {
    match p
    case ArIA => "ArIA"
    case LexIA => "LexIA"
  }

  /** The sentence the model must answer with when the context does not cover a question. */
  function FallbackSentence(p: Persona): string {
    match p
    case ArIA =>
      "[ERROR 404: DATA_UNAVAILABLE] >> La consulta solicitada no tiene coincidencia en los vectores de la base de conocimiento local."
    case LexIA =>
      "He revisado minuciosamente mis apuntes y la bibliografía del curso, y me temo que esa información no aparece en el material docente actual. ✨ ¿Te gustaría que repasemos otro concepto?"
  }

  /** The persona test as the server writes it: the lowered request field is compared
      with an upper-case literal. */
  function PersonaAsWritten(persona: string): Persona {
    if Lower(persona) == "LEXIA" then LexIA else ArIA
  }

  lemma LowerHasNoCapitals(s: string, i: nat)
    requires i < |s|
    ensures !('A' <= Lower(s)[i] <= 'Z')
  {
    LowerCharFolds(s[i]);
  }

  /** The comparison never holds: whatever the client asks for, it gets ArIA. */
  lemma PersonaAsWrittenIsAlwaysArIA(persona: string)
    ensures PersonaAsWritten(persona) == ArIA
  {
    if Lower(persona) == "LEXIA" {
      LowerHasNoCapitals(persona, 0);
      assert false;
    }
  }

  /** The persona test with the literal lowered, as the client's `tutor_mode.lower()`
      sends it. */
  function SelectPersona(persona: string): (p: Persona)
    ensures p == LexIA <==> Lower(persona) == "lexia"
  {
    if Lower(persona) == "lexia" then LexIA else ArIA
  }

  /** The system prompt, by the parts that vary between requests: the persona (its
      role definition, name and fallback sentence), the visual instruction and the
      context block. The fixed wording around them is not reproduced. */
  datatype SystemPrompt = SystemPrompt(persona: Persona, visual: Visual, context: string)

  /** A message sent to the model: the structured live system prompt, a literal system
      text, or a chat turn. */
  datatype Outgoing = SystemMsg(prompt: SystemPrompt) | SystemText(text: string) | Chat(turn: Message)

  function ChatTurns(history: seq<Message>): (r: seq<Outgoing>)
    ensures |r| == |history|
    ensures forall i :: 0 <= i < |history| ==> r[i] == Chat(history[i])
  {
    seq(|history|, i requires 0 <= i < |history| => Chat(history[i]))
  }

  /** `msgs`: the system prompt, the whole history in order, then the original query. */
  function LlmMessages(prompt: SystemPrompt, history: seq<Message>, query: string): (r: seq<Outgoing>)
    ensures |r| == |history| + 2
    ensures r[0] == SystemMsg(prompt)
    ensures forall i :: 0 <= i < |history| ==> r[i + 1] == Chat(history[i])
    ensures r[|r| - 1] == Chat(Message("user", query))
  {
    [SystemMsg(prompt)] + ChatTurns(history) + [Chat(Message("user", query))]
  }
}

=== FILE: benchmark.dfy ===
/** The retrieval benchmark: for each reference question it takes the top three sources
    of a vector query, optionally reordered by a reranker, and scores the position of the
    expected file as a hit and a reciprocal rank. */
module Benchmark {
  import opened Common
  import opened Text
  import opened Paths
  import opened Ranking
  import opened Documents

  /** How many leading sources are examined. */
  const Depth: nat := 3

  /** The source of one metadata entry as compared: `m.get("source", "").lower()`. */
  function SourceName(m: Meta): string {
    Lower(m.source.GetOr(""))
  }

  function SourceNames(metas: seq<Meta>): (r: seq<string>)
    ensures |r| == |metas|
    ensures forall i :: 0 <= i < |metas| ==> r[i] == SourceName(metas[i])
  {
    seq(|metas|, i requires 0 <= i < |metas| => SourceName(metas[i]))
  }

  /** `top_sources`: the first three metadata entries in query order, or, with the
      reranker, the first three after a stable descending sort by its scores. */
  function TopSources(metas: seq<Meta>, scores: Option<seq<real>>): (r: seq<string>)
    ensures |r| <= Depth
    ensures scores.None? ==> r == SourceNames(Take(metas, Depth))
    ensures scores.Some? ==>
      var ranked := SortDesc(Zip(metas, scores.value), ScoreOf);
      |r| == Min(Depth, |ranked|) && forall i :: 0 <= i < |r| ==> r[i] == SourceName(ranked[i].item)
  {
    match scores
    case None => SourceNames(Take(metas, Depth))
    case Some(s) =>
      var ranked := SortDesc(Zip(metas, s), ScoreOf);
      SourceNames(seq(Min(Depth, |ranked|), i requires 0 <= i < Min(Depth, |ranked|) => ranked[i].item))
  }

  /** With the reranker, the sources come in non-increasing score order and each is the
      source of a query result carrying that score. */
  lemma RerankedOrder(metas: seq<Meta>, scores: seq<real>, i: nat, j: nat)
    requires i < j < |TopSources(metas, Some(scores))|
    ensures var ranked := SortDesc(Zip(metas, scores), ScoreOf);
      ranked[i].score >= ranked[j].score
      && ranked[i] in Zip(metas, scores) && ranked[j] in Zip(metas, scores)
  {
    var z := Zip(metas, scores);
    var ranked := SortDesc(z, ScoreOf);
    assert ranked[i] in multiset(ranked) && ranked[j] in multiset(ranked);
  }

  /** `found_at_index`: the first position whose base name contains the target, else -1. */
  function FoundAt(sources: seq<string>, target: string): (idx: int)
    ensures -1 <= idx < |sources|
    ensures idx >= 0 ==> Contains(Basename(sources[idx]), target)
    ensures idx >= 0 ==> forall k :: 0 <= k < idx ==> !Contains(Basename(sources[k]), target)
    ensures idx == -1 <==> forall k :: 0 <= k < |sources| ==> !Contains(Basename(sources[k]), target)
  {
    if |sources| == 0 then -1
    else if Contains(Basename(sources[0]), target) then 0
    else
      var r := FoundAt(sources[1..], target);
      assert forall k :: 1 <= k < |sources| ==> sources[k] == sources[1..][k - 1];
      if r == -1 then -1 else r + 1
  }

  /** The reciprocal rank a found position adds: `1 / (idx + 1)`. */
  function Reciprocal(idx: nat): (r: real)
    requires idx < Depth
    ensures r == 1.0 || r == 1.0 / 2.0 || r == 1.0 / 3.0
    ensures 1.0 / 3.0 <= r <= 1.0
  {
    var d := (idx + 1) as real;
    assert d == 1.0 || d == 2.0 || d == 3.0;
    1.0 / d
  }

  /** What one query returned: `None` when its document list is empty (the query is
      skipped), else the metadata in query order and, with the reranker, its scores. */
  datatype Answer = Answer(metas: seq<Meta>, scores: Option<seq<real>>)

  /** A reference case: the question and the expected file name. */
  datatype Case = Case(question: string, expected: string)

  /** The position at which a case's expected file appears among its top sources, or -1. */
  function Position(c: Case, a: Option<Answer>): (p: int)
    ensures -1 <= p < Depth
  {
    match a
    case None => -1
    case Some(x) => FoundAt(TopSources(x.metas, x.scores), Lower(c.expected))
  }

  /** The reciprocal rank one case contributes: `1 / (idx + 1)` when found, else 0. */
  function Gain(c: Case, a: Option<Answer>): (g: real)
    ensures Position(c, a) >= 0 ==> 1.0 / 3.0 <= g <= 1.0
    ensures Position(c, a) == -1 ==> g == 0.0
  {
    var p := Position(c, a);
    if p >= 0 then Reciprocal(p) else 0.0
  }

  /** How many cases find their expected file among the top sources. */
  function HitCount(cases: seq<Case>, ask: string -> Option<Answer>): (n: nat)
    ensures n <= |cases|
  {
    if |cases| == 0 then 0
    else
      var last := cases[|cases| - 1];
      HitCount(cases[..|cases| - 1], ask) + (if Position(last, ask(last.question)) >= 0 then 1 else 0)
  }

  /** The reference sum of reciprocal ranks over the cases. */
  function MrrSum(cases: seq<Case>, ask: string -> Option<Answer>): (m: real)
  {
    if |cases| == 0 then 0.0
    else
      var last := cases[|cases| - 1];
      MrrSum(cases[..|cases| - 1], ask) + Gain(last, ask(last.question))
  }

  /** Every hit adds between 1/3 and 1 to the sum, and a miss adds nothing. */
  lemma {:induction false} MrrSumBounds(cases: seq<Case>, ask: string -> Option<Answer>)
    ensures (HitCount(cases, ask) as real) / 3.0 <= MrrSum(cases, ask) <= HitCount(cases, ask) as real
    decreases |cases|
  {
    if |cases| > 0 {
      var last := cases[|cases| - 1];
      MrrSumBounds(cases[..|cases| - 1], ask);
      var g := Gain(last, ask(last.question));
      assert Position(last, ask(last.question)) >= 0 ==> 1.0 / 3.0 <= g <= 1.0;
    }
  }

  /** The accumulation loop: hits and reciprocal-rank sum over all cases, a skipped
      query adding nothing. Every hit adds between 1/3 and 1 to the sum. */
  method Accumulate(cases: seq<Case>, ask: string -> Option<Answer>) returns (hits: nat, mrrSum: real)
    ensures hits == HitCount(cases, ask)
    ensures mrrSum == MrrSum(cases, ask)
    ensures hits <= |cases|
    ensures (hits as real) / 3.0 <= mrrSum <= hits as real
  {
    hits := 0;
    mrrSum := 0.0;
    var i := 0;
    while i < |cases|
      invariant 0 <= i <= |cases|
      invariant hits == HitCount(cases[..i], ask)
      invariant mrrSum == MrrSum(cases[..i], ask)
    {
      assert cases[..i + 1][..i] == cases[..i];
      var c := cases[i];
      var idx := Position(c, ask(c.question));
      if idx != -1 {
        hits := hits + 1;
        mrrSum := mrrSum + Reciprocal(idx);
      }
      i := i + 1;
    }
    assert cases[..i] == cases;
    MrrSumBounds(cases, ask);
  }

  /** The row of one configuration. */
  datatype Outcome =
    | MissingFolder           // "N/A", MRR 0.0
    | InitFailed              // "Error", MRR 0.0
    | Rates(hitRate: real, mrr: real)
    | NoCases                 // the division by zero an empty reference set raises

  /** The two rates of a finished run, each over all cases. */
  function RatesOf(hits: nat, mrrSum: real, total: nat): (r: Outcome)
    requires 0 < total && hits <= total && 0.0 <= mrrSum <= hits as real
    ensures r.Rates? && 0.0 <= r.mrr <= r.hitRate <= 1.0
    ensures r.hitRate == (hits as real) / (total as real)
    ensures r.mrr == mrrSum / (total as real)
  {
    var t := total as real;
    DivMonotone(mrrSum, hits as real, t);
    DivMonotone(hits as real, t, t);
    Rates((hits as real) / t, mrrSum / t)
  }

  /** `evaluar_configuracion`: no query runs when the folder is missing or the resources
      fail to load; otherwise the hit rate and mean reciprocal rank over all cases,
      skipped queries included. */
  method Evaluate(folderExists: bool, loaded: bool, cases: seq<Case>, ask: string -> Option<Answer>)
    returns (r: Outcome)
    ensures !folderExists ==> r == MissingFolder
    ensures folderExists && !loaded ==> r == InitFailed
    ensures folderExists && loaded && |cases| == 0 ==> r == NoCases
    ensures folderExists && loaded && |cases| > 0 ==> r.Rates?
    ensures r.Rates? ==> 0.0 <= r.mrr <= r.hitRate <= 1.0
    ensures r.Rates? ==>
      r.hitRate == (HitCount(cases, ask) as real) / (|cases| as real)
    ensures r.Rates? ==> r.mrr == MrrSum(cases, ask) / (|cases| as real)
  {
    if !folderExists {
      return MissingFolder;
    }
    if !loaded {
      return InitFailed;
    }
    var hits, mrrSum := Accumulate(cases, ask);
    if |cases| == 0 {
      return NoCases;
    }
    r := RatesOf(hits, mrrSum, |cases|);
  }

  lemma DivMonotone(a: real, b: real, d: real)
    requires 0.0 <= a <= b && d > 0.0
    ensures 0.0 <= a / d <= b / d
  {
  }
}

=== FILE: chat_app.dfy ===
/** The chat front end: how it finds an image on disk, which history it sends, and how it
    reads the streamed answer back into the session. */
module ChatApp {
  import opened Common
  import opened Text
  import opened Decimal
  import opened Paths
  import opened Documents
  import opened Events
  import opened QueryRewrite
  import opened Assembly

  // ---------------------------------------------------------------------------
  // Locating an image.

  /** The local disk as the front end sees it: the configured image folder, the paths
      that exist, and the walk of that folder in the order the walk yields it. */
  datatype Disk = Disk(folder: string, files: set<string>, walk: seq<WalkEntry>)

  /** The outcome of a lookup. `Raised` is the `TypeError` of asking whether a missing
      (`None`) stored path exists. */
  datatype Lookup = Found(path: string) | NotFound | Raised

  /** Index of the first walked directory that lists `name`. */
  function FirstListing(walk: seq<WalkEntry>, name: string): (r: Option<nat>)
    ensures r.Some? ==> r.value < |walk| && name in walk[r.value].files
    ensures r.Some? ==> forall i :: 0 <= i < r.value ==> name !in walk[i].files
    ensures r.None? ==> forall i :: 0 <= i < |walk| ==> name !in walk[i].files
  {
    if |walk| == 0 then None
    else if name in walk[0].files then Some(0)
    else
      match FirstListing(walk[1..], name)
      case None => None
      case Some(i) => Some(i + 1)
  }

  /** `reparar_ruta`: the stored path if it exists, else the file in the configured
      folder if it exists, else the file in the first walked directory listing it. */
  function RepairPath(stored: Option<string>, filename: Option<string>, disk: Disk): (r: Lookup)
    ensures !Truthy(filename) ==> r == NotFound
    ensures Truthy(filename) && stored.None? ==> r == Raised
    ensures r.Found? ==>
      || (stored == Some(r.path) && r.path in disk.files)
      || EndsWith(r.path, filename.value)
    ensures Truthy(filename) && stored.Some? && stored.value in disk.files ==> r == Found(stored.value)
    ensures Truthy(filename) && stored.Some? && stored.value !in disk.files ==>
      var inFolder := PathJoin(disk.folder, filename.value);
      && (inFolder in disk.files ==> r == Found(inFolder))
      && (inFolder !in disk.files ==>
            var first := FirstListing(disk.walk, filename.value);
            && (r.Found? <==> first.Some?)
            && (first.Some? ==> r.path == PathJoin(disk.walk[first.value].root, filename.value)))
  {
    if !Truthy(filename) then NotFound
    else if stored.None? then Raised
    else if stored.value in disk.files then Found(stored.value)
    else
      var name := filename.value;
      var inFolder := PathJoin(disk.folder, name);
      if inFolder in disk.files then Found(inFolder)
      else
        match FirstListing(disk.walk, name)
        case Some(i) => Found(PathJoin(disk.walk[i].root, name))
        case None => NotFound
  }

  /** An existing stored path wins, whatever the folder and the walk hold. */
  lemma RepairPrefersStored(stored: string, filename: string, disk: Disk)
    requires |filename| > 0 && stored in disk.files
    ensures RepairPath(Some(stored), Some(filename), disk) == Found(stored)
  {
  }

  /** A file that the walk lists is always found, for any stored path. */
  lemma RepairFindsListed(stored: string, filename: string, disk: Disk, i: nat)
    requires |filename| > 0
    requires i < |disk.walk| && filename in disk.walk[i].files
    ensures RepairPath(Some(stored), Some(filename), disk).Found?
  {
    var f := FirstListing(disk.walk, filename);
    assert f.Some?;
  }

  // ---------------------------------------------------------------------------
  // The history sent with a question.

  /** The sent history as written, `messages[:-4]` taken after the new question was
      appended: every message except the newest four. */
  function SentHistoryAsWritten(messages: seq<Message>): (r: seq<Message>)
    ensures |r| == Max(0, |messages| - 4)
    ensures r == messages[..|r|]
  {
    if |messages| <= 4 then [] else messages[..|messages| - 4]
  }

  /** Whatever the session, the message just before the question (the previous answer)
      is never sent: the history stops before it. A session of at most four messages,
      such as greeting, question, answer, question, sends nothing at all. */
  lemma SentHistoryDropsLastAnswer(messages: seq<Message>)
    requires |messages| >= 2
    ensures |SentHistoryAsWritten(messages)| <= |messages| - 2
    ensures |messages| <= 4 ==> SentHistoryAsWritten(messages) == []
  {
  }

  /** Number of earlier messages the corrected history keeps. */
  const SentTurns: nat := 3

  /** The sent history the earlier versions of the front end used and the server's
      rewriter expects: the newest three messages before the new question. */
  function SentHistory(messages: seq<Message>): (r: seq<Message>)
    requires |messages| >= 1
    ensures |r| == Min(SentTurns, |messages| - 1)
    ensures r == messages[|messages| - 1 - |r|..|messages| - 1]
  {
    var before := messages[..|messages| - 1];
    if |before| > SentTurns then before[|before| - SentTurns..] else before
  }

  /** The corrected history always ends with the message just before the question. */
  lemma SentHistoryKeepsLastAnswer(messages: seq<Message>)
    requires |messages| >= 2
    ensures var r := SentHistory(messages); |r| > 0 && r[|r| - 1] == messages[|messages| - 2]
  {
  }

  // ---------------------------------------------------------------------------
  // Reading the stream.

  /** The two tutors the sidebar offers. */
  datatype Mode = AriaMode | LexiaMode

  /** The `persona` field sent with a question: the mode's label in lower case. */
  function PersonaField(m: Mode): string {
    match m
    case AriaMode => Lower("ARIA")
    case LexiaMode => Lower("LEXIA")
  }

  /** The persona field selects the matching tutor on the server, whereas the server's
      comparison as written never selects the second one. */
  lemma PersonaFieldSelects(m: Mode)
    ensures SelectPersona(PersonaField(m)) == (if m == LexiaMode then LexIA else ArIA)
    ensures PersonaAsWritten(PersonaField(m)) == ArIA
  {
    assert Lower("LEXIA") == "lexia";
    assert Lower("ARIA") == "aria";
    PersonaAsWrittenIsAlwaysArIA(PersonaField(m));
  }

  /** Images whose score is at or below this are not shown. */
  const ShowAbove: real := 37.9

  predicate Visible(im: ImageRef) {
    im.score > ShowAbove
  }

  /** A displayed image: the path found on disk and its score caption. */
  datatype Picture = Picture(path: string, score: real)

  /** What a metadata event puts on screen: the visible images in order, those found on
      disk only, or `None` when a lookup raised. */
  function ShowImages(imgs: seq<ImageRef>, disk: Disk): (r: Option<seq<Picture>>)
    ensures r.None? <==> exists j :: 0 <= j < |imgs| && Visible(imgs[j])
                                     && RepairPath(imgs[j].path, imgs[j].filename, disk).Raised?
    ensures r.Some? ==> |r.value| <= |imgs|
    ensures r.Some? ==> forall k :: 0 <= k < |r.value| ==> r.value[k].score > ShowAbove
  {
    if |imgs| == 0 then Some([])
    else
      var im := imgs[|imgs| - 1];
      var p := imgs[..|imgs| - 1];
      assert forall j :: 0 <= j < |p| ==> p[j] == imgs[j];
      match ShowImages(p, disk)
      case None => None
      case Some(pics) =>
        if !Visible(im) then Some(pics)
        else
          match RepairPath(im.path, im.filename, disk)
          case Raised => None
          case NotFound => Some(pics)
          case Found(path) => Some(pics + [Picture(path, im.score)])
  }

  /** One image alone: hidden or not on disk shows nothing, a raising lookup raises,
      and a found file is shown with the image's score. */
  lemma ShowImagesOne(im: ImageRef, disk: Disk)
    ensures !Visible(im) ==> ShowImages([im], disk) == Some([])
    ensures Visible(im) ==>
      var l := RepairPath(im.path, im.filename, disk);
      && (l.NotFound? ==> ShowImages([im], disk) == Some([]))
      && (l.Raised? ==> ShowImages([im], disk).None?)
      && (l.Found? ==> ShowImages([im], disk) == Some([Picture(l.path, im.score)]))
  {
    var none: seq<ImageRef> := [];
    assert [im][..0] == none;
    assert ShowImages(none, disk) == Some([]);
    var l := RepairPath(im.path, im.filename, disk);
    if Visible(im) && l.Found? {
      var pics: seq<Picture> := [];
      assert pics + [Picture(l.path, im.score)] == [Picture(l.path, im.score)];
    }
  }

  /** Showing two runs of images raises exactly when one of them does, and otherwise
      shows the first run's pictures, then the second's: order is kept. */
  lemma {:induction false} ShowImagesAppend(a: seq<ImageRef>, b: seq<ImageRef>, disk: Disk)
    ensures ShowImages(a + b, disk).None? <==> (ShowImages(a, disk).None? || ShowImages(b, disk).None?)
    ensures ShowImages(a, disk).Some? && ShowImages(b, disk).Some? ==>
      ShowImages(a + b, disk).value == ShowImages(a, disk).value + ShowImages(b, disk).value
    decreases |b|
  {
    if |b| == 0 {
      assert a + b == a;
    } else {
      var b0 := b[..|b| - 1];
      var x := b[|b| - 1];
      assert a + b == (a + b0) + [x];
      assert (a + b)[..|a + b| - 1] == a + b0;
      ShowImagesAppend(a, b0, disk);
    }
  }

  /** What the session shows for one answer. */
  datatype Screen = Screen(answer: string, pictures: seq<Picture>, sources: seq<seq<string>>, errors: seq<string>)

  /** The pictures one line puts on screen (nothing unless it is metadata). */
  function PicturesOf(line: Line, disk: Disk): seq<Picture> {
    if line.Some? && line.value.Metadata? then ShowImages(line.value.images, disk).GetOr([]) else []
  }

  /** The source list one line shows: metadata with a non-empty list, for the second tutor only. */
  function SourcesOf(line: Line, m: Mode): seq<seq<string>> {
    if line.Some? && line.value.Metadata? && |line.value.sources| > 0 && m == LexiaMode
    then [line.value.sources] else []
  }

  function ErrorsOf(line: Line): seq<string> {
    if line.Some? && line.value.Error? then [line.value.message] else []
  }

  predicate Raises(line: Line, disk: Disk) {
    line.Some? && line.value.Metadata? && ShowImages(line.value.images, disk).None?
  }

  /** Reference reading of a stream by one line at a time: each line's contribution,
      concatenated in order. */
  function Gather<T>(lines: seq<Line>, f: Line -> seq<T>): seq<T> {
    if |lines| == 0 then [] else Gather(lines[..|lines| - 1], f) + f(lines[|lines| - 1])
  }

  /** The consumer loop of a 200 reply. `raised` is an exception escaping the loop; the
      screen is then the part built before it. */
  method Consume(lines: seq<Line>, m: Mode, disk: Disk) returns (s: Screen, raised: bool)
    ensures raised <==> exists i :: 0 <= i < |lines| && Raises(lines[i], disk)
    ensures !raised ==> s.answer == Deltas(lines)
    ensures !raised ==> s.pictures == Gather(lines, l => PicturesOf(l, disk))
    ensures !raised ==> s.sources == Gather(lines, l => SourcesOf(l, m))
    ensures !raised ==> s.errors == Gather(lines, ErrorsOf)
  {
    s := Screen("", [], [], []);
    raised := false;
    var i := 0;
    while i < |lines|
      invariant 0 <= i <= |lines|
      invariant forall k :: 0 <= k < i ==> !Raises(lines[k], disk)
      invariant s.answer == Deltas(lines[..i])
      invariant s.pictures == Gather(lines[..i], l => PicturesOf(l, disk))
      invariant s.sources == Gather(lines[..i], l => SourcesOf(l, m))
      invariant s.errors == Gather(lines[..i], ErrorsOf)
    {
      assert lines[..i + 1][..i] == lines[..i];
      var line := lines[i];
      if line.Some? {
        match line.value
        case Metadata(sources, images, _) =>
          var shown := ShowImages(images, disk);
          if shown.None? {
            raised := true;
            return;
          }
          s := s.(pictures := s.pictures + shown.value);
          if |sources| > 0 && m == LexiaMode {
            s := s.(sources := s.sources + [sources]);
          }
        case Content(delta) =>
          s := s.(answer := s.answer + delta);
        case Error(message) =>
          s := s.(errors := s.errors + [message]);
        case Log(_) =>
      }
      i := i + 1;
    }
    assert lines[..i] == lines;
  }

  // ---------------------------------------------------------------------------
  // One turn of the chat.

  function Greeting(m: Mode): string {
    match m
    case AriaMode => "Sistema ArIA online. Esperando tu pregunta.👓"
    case LexiaMode => "¡Hola! Soy LexIA. ¿En qué puedo ayudarte hoy?💻"
  }

  /** An empty session is opened with the tutor's greeting. */
  function Greeted(messages: seq<Message>, m: Mode): (r: seq<Message>)
    ensures |r| >= 1
    ensures |messages| == 0 ==> r == [Message("assistant", Greeting(m))]
    ensures |messages| > 0 ==> r == messages
  {
    if |messages| == 0 then [Message("assistant", Greeting(m))] else messages
  }

  /** The history sent with one question: the session with the question appended, all
      but its newest four messages. The oldest messages go out and the newest three
      before the question stay behind. */
  function Request(messages: seq<Message>, prompt: string): (sent: seq<Message>)
    ensures |sent| == Max(0, |messages| - 3)
    ensures sent == messages[..|sent|]
  {
    var asked := messages + [Message("user", prompt)];
    var r := SentHistoryAsWritten(asked);
    assert r == asked[..|r|] && asked[..|r|] == messages[..|r|];
    r
  }

  /** One question: the session afterwards, and what was shown. The answer is stored
      exactly when the reply was 200 and reading it raised nothing. */
  method Turn(messages: seq<Message>, prompt: string, m: Mode, resp: Response, disk: Disk)
    returns (after: seq<Message>, s: Screen)
    ensures var asked := messages + [Message("user", prompt)];
      if resp.Http? && resp.status == 200
         && !(exists i :: 0 <= i < |resp.lines| && Raises(resp.lines[i], disk))
      then after == asked + [Message("assistant", Deltas(resp.lines))]
      else after == asked
    ensures resp.Http? && resp.status != 200 ==>
      s.errors == ["Error " + Str(resp.status) + ": No se pudo contactar con el servidor."]
    ensures resp.NoConnection? ==> s.errors == ["Error de conexión: " + resp.error]
    ensures resp.Broken? && !(exists i :: 0 <= i < |resp.lines| && Raises(resp.lines[i], disk)) ==>
      && s.answer == Deltas(resp.lines)
      && s.errors == Gather(resp.lines, ErrorsOf) + ["Error de conexión: " + resp.error]
  {
    var asked := messages + [Message("user", prompt)];
    after := asked;
    match resp
    case NoConnection(e) =>
      s := Screen("", [], [], ["Error de conexión: " + e]);
    case Broken(lines, e) =>
      var raised;
      s, raised := Consume(lines, m, disk);
      if !raised {
        s := s.(errors := s.errors + ["Error de conexión: " + e]);
      }
    case Http(status, lines) =>
      if status == 200 {
        var raised;
        s, raised := Consume(lines, m, disk);
        if !raised {
          after := asked + [Message("assistant", s.answer)];
        }
      } else {
        s := Screen("", [], [], ["Error " + Str(status) + ": No se pudo contactar con el servidor."]);
      }
  }
}

=== FILE: common.dfy ===
/** Values that may be absent: a metadata key that is missing, a call that raised. */
module Common {

  datatype Option<+T> = None | Some(value: T) {
    function GetOr(default: T): T {
      match this
      case Some(v) => v
      case None => default
    }
  }

  /** Python's `f"{x}"` of an optional string: the string itself, or "None". */
  function Show(o: Option<string>): (r: string)
    ensures o.Some? ==> r == o.value
    ensures o.None? ==> r == "None"
  {
    o.GetOr("None")
  }

  function Min(a: int, b: int): int {
    if a <= b then a else b
  }

  function Max(a: int, b: int): int {
    if a <= b then b else a
  }

  /** Python's `s[:n]` for a non-negative bound `n`. */
  function Take<T>(s: seq<T>, n: nat): (r: seq<T>)
    ensures |r| == Min(n, |s|)
    ensures r == s[..|r|]
  {
    if |s| <= n then s else s[..n]
  }

  /** A list comprehension `[f(x) for x in s]`. */
  function Map<A, B>(s: seq<A>, f: A -> B): (r: seq<B>)
    ensures |r| == |s|
    ensures forall i :: 0 <= i < |s| ==> r[i] == f(s[i])
  {
    seq(|s|, i requires 0 <= i < |s| => f(s[i]))
  }

  /** Count of the elements of `s` satisfying `p`. */
  function CountIf<T>(s: seq<T>, p: T -> bool): (r: nat)
    ensures r <= |s|
  {
    if |s| == 0 then 0 else CountIf(s[..|s|-1], p) + (if p(s[|s|-1]) then 1 else 0)
  }

  /** The elements of `s` satisfying `p`, in their original order (a list comprehension). */
  /** Nothing is counted exactly when no element satisfies the predicate. */
  lemma {:induction false} CountIfZero<T>(s: seq<T>, p: T -> bool)
    ensures CountIf(s, p) == 0 <==> forall i :: 0 <= i < |s| ==> !p(s[i])
    decreases |s|
  {
    if |s| > 0 {
      CountIfZero(s[..|s| - 1], p);
      assert forall i :: 0 <= i < |s| - 1 ==> s[..|s| - 1][i] == s[i];
    }
  }

  function Filter<T>(s: seq<T>, p: T -> bool): (r: seq<T>)
    ensures |r| == CountIf(s, p)
    ensures forall i :: 0 <= i < |r| ==> r[i] in s && p(r[i])
    ensures forall i :: 0 <= i < |s| && p(s[i]) ==> s[i] in r
  {
    if |s| == 0 then [] else Filter(s[..|s|-1], p) + (if p(s[|s|-1]) then [s[|s|-1]] else [])
  }

  /** `a` is `b` with some elements deleted and the rest kept in order. Matching from the
      back greedily decides it. */
  predicate Subsequence<T(==)>(a: seq<T>, b: seq<T>)
    decreases |b|
  {
    if |a| == 0 then true
    else if |b| == 0 then false
    else if a[|a| - 1] == b[|b| - 1] then Subsequence(a[..|a| - 1], b[..|b| - 1])
    else Subsequence(a, b[..|b| - 1])
  }

  /** Appending to the longer sequence keeps a subsequence one. */
  lemma {:induction false} SubsequenceSnoc<T>(a: seq<T>, b: seq<T>, x: T)
    requires Subsequence(a, b)
    ensures Subsequence(a, b + [x])
    decreases |b|, 1
  {
    assert (b + [x])[..|b|] == b;
    if |a| > 0 && a[|a| - 1] == x {
      SubsequenceDropLast(a, b);
    }
  }

  /** Dropping the last element of a subsequence keeps it one. */
  lemma {:induction false} SubsequenceDropLast<T>(a: seq<T>, b: seq<T>)
    requires |a| > 0 && Subsequence(a, b)
    ensures Subsequence(a[..|a| - 1], b)
    decreases |b|, 0
  {
    var b0 := b[..|b| - 1];
    var x := b[|b| - 1];
    assert b0 + [x] == b;
    if a[|a| - 1] != x {
      SubsequenceDropLast(a, b0);
    }
    SubsequenceSnoc(a[..|a| - 1], b0, x);
  }

  /** Every element of a subsequence occurs in the longer sequence. */
  lemma {:induction false} SubsequenceIn<T>(a: seq<T>, b: seq<T>, i: nat)
    requires Subsequence(a, b) && i < |a|
    ensures a[i] in b
    decreases |b|
  {
    var b0 := b[..|b| - 1];
    if a[|a| - 1] == b[|b| - 1] {
      if i < |a| - 1 {
        SubsequenceIn(a[..|a| - 1], b0, i);
      }
    } else {
      SubsequenceIn(a, b0, i);
    }
  }

  /** A filtered list keeps the order of its source. */
  lemma {:induction false} FilterSubsequence<T>(s: seq<T>, p: T -> bool)
    ensures Subsequence(Filter(s, p), s)
    decreases |s|
  {
    if |s| > 0 {
      var s0 := s[..|s| - 1];
      var x := s[|s| - 1];
      var f := Filter(s0, p);
      FilterSubsequence(s0, p);
      assert s0 + [x] == s;
      if p(x) {
        assert (f + [x])[..|f|] == f;
      } else {
        assert Filter(s, p) == f;
        SubsequenceSnoc(f, s0, x);
      }
    }
  }

  lemma {:induction false} FilterAppend<T>(a: seq<T>, b: seq<T>, p: T -> bool)
    ensures Filter(a + b, p) == Filter(a, p) + Filter(b, p)
    decreases |b|
  {
    if |b| == 0 {
      assert a + b == a;
    } else {
      assert (a + b)[..|a + b| - 1] == a + b[..|b| - 1];
      FilterAppend(a, b[..|b| - 1], p);
    }
  }

  /** Removes later repetitions, keeping the first occurrence of each value. */
  function Dedup<T(==)>(s: seq<T>): (r: seq<T>)
    ensures forall i :: 0 <= i < |r| ==> r[i] in s
    ensures forall i :: 0 <= i < |s| ==> s[i] in r
    ensures forall i, j :: 0 <= i < j < |r| ==> r[i] != r[j]
  {
    if |s| == 0 then []
    else
      var p := Dedup(s[..|s|-1]);
      if s[|s|-1] in p then p else p + [s[|s|-1]]
  }

  /** `Dedup` extended by one element. */
  lemma DedupSnoc<T>(s: seq<T>, x: T)
    ensures Dedup(s + [x]) == if x in s then Dedup(s) else Dedup(s) + [x]
  {
    assert (s + [x])[..|s|] == s;
  }

  /** `Dedup` keeps exactly the values of its input. */
  lemma DedupMember<T>(s: seq<T>, x: T)
    ensures x in Dedup(s) <==> x in s
  {
    var r := Dedup(s);
    if x in s {
      var i :| 0 <= i < |s| && s[i] == x;
    }
    if x in r {
      var i :| 0 <= i < |r| && r[i] == x;
    }
  }
}

=== FILE: confidence.dfy ===
/** Confidence percentages derived from reranker logits. The sigmoid itself is
    floating-point work outside the model: its value, the raw percentage, is an input. */
module Confidence {

  /** `round(x, 1)`, rounding halves upwards. */
  function Round1(x: real): (r: real)
    ensures x - 0.05 < r <= x + 0.05
  {
    ((x * 10.0 + 0.5).Floor as real) / 10.0
  }

  lemma Round1Monotone(x: real, y: real)
    requires x <= y
    ensures Round1(x) <= Round1(y)
  {
    var a, b := (x * 10.0 + 0.5).Floor, (y * 10.0 + 0.5).Floor;
    assert a <= b;
  }

  /** A non-negative percentage rounds to a positive one exactly from 0.05 upwards. */
  lemma Round1Positive(x: real)
    requires x >= 0.0
    ensures Round1(x) > 0.0 <==> x >= 0.05
  {
    if x >= 0.05 {
      assert (x * 10.0 + 0.5).Floor >= 1;
    } else {
      assert (x * 10.0 + 0.5).Floor == 0;
    }
  }

  /** The live server's `calcular_certeza`: the rounded percentage, with no cut-off. */
  function LiveCertainty(raw: real): (r: real)
    ensures raw - 0.05 < r <= raw + 0.05
  {
    Round1(raw)
  }

  /** The older server's confidence cut-off, in percent. */
  const Cutoff: real := 20.0

  /** The older server's `calcular_certeza`: percentages below 20 become 0.0. */
  function FlooredCertainty(raw: real): (r: real)
    ensures raw < Cutoff ==> r == 0.0
    ensures raw >= Cutoff ==> raw - 0.05 < r <= raw + 0.05
    ensures r == 0.0 || r >= Cutoff
  {
    if raw < Cutoff then 0.0
    else
      Round1Monotone(Cutoff, raw);
      assert Round1(Cutoff) == Cutoff by {
        assert (Cutoff * 10.0 + 0.5).Floor == 200;
      }
      Round1(raw)
  }

  /** Only a positive percentage survives the `> 0.0` image filter under the floor,
      and then it is at least 20. */
  lemma FlooredSurvivors(raw: real)
    ensures FlooredCertainty(raw) > 0.0 <==> raw >= Cutoff
  {
  }
}

=== FILE: decimal.dfy ===
/** Python's `str(n)` for natural numbers, as used in generated identifiers. */
module Decimal {

  function Digit(d: nat): (c: char)
    requires d < 10
  {
    "0123456789"[d]
  }

  predicate IsDigit(c: char) {
    '0' <= c <= '9'
  }

  /** Decimal notation without leading zeros. */
  function Str(n: nat): (r: string)
    ensures |r| >= 1
    ensures forall i :: 0 <= i < |r| ==> IsDigit(r[i])
    ensures n < 10 <==> |r| == 1
  {
    if n < 10 then [Digit(n)] else Str(n / 10) + [Digit(n % 10)]
  }

  /** Different numbers are written differently, so identifiers built from them differ. */
  lemma {:induction false} StrInjective(n: nat, m: nat)
    requires Str(n) == Str(m)
    ensures n == m
    decreases n
  {
    if n >= 10 && m >= 10 {
      var a, b := Str(n), Str(m);
      assert a[|a| - 1] == b[|b| - 1];
      assert Digit(n % 10) == Digit(m % 10);
      assert Str(n / 10) == a[..|a| - 1] == b[..|b| - 1] == Str(m / 10);
      StrInjective(n / 10, m / 10);
    } else if n < 10 && m < 10 {
      assert Digit(n) == Digit(m);
    }
  }

  /** `prefix + str(n)` determines `n`. */
  lemma PrefixedStrInjective(prefix: string, n: nat, m: nat)
    requires prefix + Str(n) == prefix + Str(m)
    ensures n == m
  {
    assert Str(n) == (prefix + Str(n))[|prefix|..];
    assert Str(m) == (prefix + Str(m))[|prefix|..];
    StrInjective(n, m);
  }
}

=== FILE: documents.dfy ===
/** Retrieved chunks and the metadata stored with them, and the two ways the server
    turns a store's answer into a candidate list. */
module Documents {
  import opened Common
  import opened PyDict

  /** The metadata keys the pipeline reads; a key missing from the stored dict is `None`. */
  datatype Meta = Meta(
    source: Option<string>,
    subject: Option<string>,
    topic: Option<string>,
    path: Option<string>,
    kind: Option<string>)

  /** One retrieved chunk: `{"doc": ..., "meta": ...}`. */
  datatype Candidate = Candidate(doc: string, meta: Meta)

  /** Python truthiness of an optional string: present and non-empty. */
  predicate Truthy(o: Option<string>) {
    o.Some? && |o.value| > 0
  }

  /** The answer of one vector query: parallel lists of documents and metadata. */
  datatype QueryResult = QueryResult(docs: seq<string>, metas: seq<Meta>)

  /** The vector branch: pairs each returned document with the metadata at the same
      index. A raised query (`None`) gives no candidates, and an index past the end of
      the metadata stops the loop with the pairs built so far. */
  function VectorCandidates(res: Option<QueryResult>): (r: seq<Candidate>)
    ensures res.None? ==> r == []
    ensures res.Some? ==> |r| == Min(|res.value.docs|, |res.value.metas|)
    ensures res.Some? ==> forall i :: 0 <= i < |r| ==>
      r[i] == Candidate(res.value.docs[i], res.value.metas[i])
  {
    match res
    case None => []
    case Some(q) =>
      var n := Min(|q.docs|, |q.metas|);
      seq(n, i requires 0 <= i < n => Candidate(q.docs[i], q.metas[i]))
  }

  /** Whether a BM25 hit can be paired with metadata: `corpus.index(doc)` finds it and
      the metadata list reaches that index. */
  predicate Resolves(doc: string, corpusDocs: seq<string>, corpusMetas: seq<Meta>) {
    doc in corpusDocs && Find(corpusDocs, doc) < |corpusMetas|
  }

  /** The BM25 branch: each returned document takes the metadata at the index of its
      first occurrence in the corpus. The first document that does not resolve raises,
      which ends the loop with the candidates built so far. */
  function Bm25Candidates(top: seq<string>, corpusDocs: seq<string>, corpusMetas: seq<Meta>)
    : (r: seq<Candidate>)
    ensures |r| <= |top|
    ensures forall i :: 0 <= i < |r| ==>
      (Resolves(top[i], corpusDocs, corpusMetas)
       && r[i] == Candidate(top[i], corpusMetas[Find(corpusDocs, top[i])]))
    ensures |r| < |top| ==> !Resolves(top[|r|], corpusDocs, corpusMetas)
  {
    if |top| == 0 || !Resolves(top[0], corpusDocs, corpusMetas) then []
    else
      [Candidate(top[0], corpusMetas[Find(corpusDocs, top[0])])]
        + Bm25Candidates(top[1..], corpusDocs, corpusMetas)
  }

  /** A corpus whose documents all carry metadata resolves every hit drawn from it. */
  lemma Bm25Complete(top: seq<string>, corpusDocs: seq<string>, corpusMetas: seq<Meta>)
    requires |corpusMetas| >= |corpusDocs|
    requires forall i :: 0 <= i < |top| ==> top[i] in corpusDocs
    ensures |Bm25Candidates(top, corpusDocs, corpusMetas)| == |top|
  {
  }

  /** A BM25 index's top documents together with the corpus they were drawn from. */
  datatype Bm25Answer = Bm25Answer(top: seq<string>, corpusDocs: seq<string>, corpusMetas: seq<Meta>)

  /** The BM25 branch's list: empty when there is no index or the lookup raised. */
  function Bm25List(a: Option<Bm25Answer>): (r: seq<Candidate>)
    ensures a.None? ==> r == []
    ensures a.Some? ==> r == Bm25Candidates(a.value.top, a.value.corpusDocs, a.value.corpusMetas)
  {
    match a
    case None => []
    case Some(x) => Bm25Candidates(x.top, x.corpusDocs, x.corpusMetas)
  }
}

=== FILE: events.dfy ===
/** The newline-delimited JSON events of the streaming answer, as the consumers read
    them back: a line that is empty or does not decode is `None`. */
module Events {
  import opened Common

  /** One entry of `imagenes`; `path` and `filename` are JSON `null` when the stored
      metadata lacks them. */
  datatype ImageRef = ImageRef(path: Option<string>, filename: Option<string>, score: real)

  datatype Event =
    | Log(message: string)
    | Metadata(sources: seq<string>, images: seq<ImageRef>, ragasContext: seq<string>)
    | Content(delta: string)
    | Error(message: string)

  type Line = Option<Event>

  /** The lines a well-behaved transport delivers for a list of events. */
  function Encode(evs: seq<Event>): (r: seq<Line>)
    ensures |r| == |evs|
    ensures forall i :: 0 <= i < |evs| ==> r[i] == Some(evs[i])
  {
    seq(|evs|, i requires 0 <= i < |evs| => Some(evs[i]))
  }

  /** Reference reading of an answer: the `content` deltas concatenated in order. */
  function Deltas(lines: seq<Line>): string {
    if |lines| == 0 then "" else Deltas(lines[..|lines| - 1]) + DeltaOf(lines[|lines| - 1])
  }

  /** What one line adds to the answer. */
  function DeltaOf(line: Line): string {
    if line.Some? && line.value.Content? then line.value.delta else ""
  }

  lemma {:induction false} DeltasAppend(a: seq<Line>, b: seq<Line>)
    ensures Deltas(a + b) == Deltas(a) + Deltas(b)
    decreases |b|
  {
    if |b| == 0 {
      assert a + b == a;
    } else {
      var c := a + b;
      assert c[..|c| - 1] == a + b[..|b| - 1];
      assert c[|c| - 1] == b[|b| - 1];
      DeltasAppend(a, b[..|b| - 1]);
      calc {
        Deltas(c);
        Deltas(a + b[..|b| - 1]) + DeltaOf(b[|b| - 1]);
        Deltas(a) + Deltas(b[..|b| - 1]) + DeltaOf(b[|b| - 1]);
        Deltas(a) + Deltas(b);
      }
    }
  }

  /** Undecodable lines contribute nothing to the answer. */
  lemma DeltasSkipsNone(a: seq<Line>, b: seq<Line>)
    ensures Deltas(a + [None] + b) == Deltas(a + b)
  {
    var none: seq<Line> := [None];
    DeltasAppend(a + none, b);
    DeltasAppend(a, none);
    DeltasAppend(a, b);
    assert none[..0] == [];
  }

  /** Index of the first metadata line, if any. */
  function FirstMetadata(lines: seq<Line>): (r: Option<nat>)
    ensures r.Some? ==> r.value < |lines| && lines[r.value].Some? && lines[r.value].value.Metadata?
    ensures r.Some? ==> forall i :: 0 <= i < r.value ==> !(lines[i].Some? && lines[i].value.Metadata?)
    ensures r.None? ==> forall i :: 0 <= i < |lines| ==> !(lines[i].Some? && lines[i].value.Metadata?)
  {
    if |lines| == 0 then None
    else if lines[0].Some? && lines[0].value.Metadata? then Some(0)
    else
      match FirstMetadata(lines[1..])
      case None => None
      case Some(i) => Some(i + 1)
  }

  /** A reply to `POST /ask` as a client receives it: a status with the lines of its
      body; a 200 reply whose body raised in `iter_lines` after the given lines; or a
      request that raised before any reply. */
  datatype Response =
    | Http(status: nat, lines: seq<Line>)
    | Broken(lines: seq<Line>, error: string)
    | NoConnection(error: string)
}

=== FILE: evidence.dfy ===
/** The live server's choice of evidence among the fused candidates: a bounded pool is
    reranked, text keeps the best four, images keep the best three of those whose
    confidence does not round to zero. Reranker outputs are inputs. */
module Evidence {
  import opened Common
  import opened Ranking
  import opened Fusion
  import opened Confidence

  const TextPool: nat := 15
  const TextKeep: nat := 4
  const ImagePool: nat := 10
  const ImageKeep: nat := 3

  /** The reranked text pool: the first fifteen fused candidates with their scores. */
  function TextCandidates(fused: seq<Fused>, scores: seq<real>): (r: seq<Scored<Fused>>)
    ensures |r| == Min(Min(TextPool, |fused|), |scores|)
    ensures forall j :: 0 <= j < |r| ==> r[j] == Scored(fused[j], scores[j])
  {
    Zip(Take(fused, TextPool), scores)
  }

  /** `final_text`: the at most four best of the pool by reranker score; nothing is
      thrown away for a low score. */
  function SelectText(fused: seq<Fused>, scores: seq<real>): (r: seq<Scored<Fused>>)
    ensures |r| == Min(TextKeep, |TextCandidates(fused, scores)|)
    ensures SortedDesc(r, ScoreOf)
    ensures multiset(r) <= multiset(TextCandidates(fused, scores))
  {
    TopK(TextCandidates(fused, scores), ScoreOf, TextKeep)
  }

  /** Every pooled candidate is kept, or outscored by four kept ones. */
  lemma SelectTextKeepsBest(fused: seq<Fused>, scores: seq<real>, j: nat)
    requires j < Min(TextPool, |fused|) && j < |scores|
    ensures var r := SelectText(fused, scores);
      Scored(fused[j], scores[j]) in r
      || (|r| == TextKeep && forall i :: 0 <= i < |r| ==> scores[j] <= r[i].score)
  {
    var pool := TextCandidates(fused, scores);
    assert pool[j] == Scored(fused[j], scores[j]);
    TopKBest(pool, ScoreOf, TextKeep, pool[j]);
  }

  /** Each pooled image with its rounded confidence. */
  function RateImages(cands: seq<Fused>, raws: seq<real>): (r: seq<Scored<Fused>>)
    ensures |r| == Min(|cands|, |raws|)
    ensures forall i :: 0 <= i < |r| ==> r[i] == Scored(cands[i], LiveCertainty(raws[i]))
  {
    seq(Min(|cands|, |raws|), i requires 0 <= i < Min(|cands|, |raws|) =>
      Scored(cands[i], LiveCertainty(raws[i])))
  }

  predicate Positive(x: Scored<Fused>) {
    x.score > 0.0
  }

  /** The images that pass the filter: of the first ten fused candidates, those whose
      rounded confidence is above 0.0, in fused order. */
  function ImageCandidates(fused: seq<Fused>, raws: seq<real>): (r: seq<Scored<Fused>>)
    ensures Subsequence(r, RateImages(Take(fused, ImagePool), raws))
    ensures forall i :: 0 <= i < |r| ==> r[i] in RateImages(Take(fused, ImagePool), raws)
    ensures forall i :: 0 <= i < |r| ==> r[i].score > 0.0
    ensures forall j :: 0 <= j < Min(ImagePool, |fused|) && j < |raws| && raws[j] >= 0.05 ==>
      Scored(fused[j], LiveCertainty(raws[j])) in r
  {
    var rated := RateImages(Take(fused, ImagePool), raws);
    FilterSubsequence(rated, Positive);
    forall j | 0 <= j < Min(ImagePool, |fused|) && j < |raws| && raws[j] >= 0.05
      ensures Positive(rated[j])
    {
      Round1Positive(raws[j]);
    }
    Filter(rated, Positive)
  }

  /** `final_img`: the filtered images by descending confidence, at most three. */
  function SelectImages(fused: seq<Fused>, raws: seq<real>): (r: seq<Scored<Fused>>)
    ensures |r| == Min(ImageKeep, |ImageCandidates(fused, raws)|)
    ensures SortedDesc(r, ScoreOf)
    ensures multiset(r) <= multiset(ImageCandidates(fused, raws))
  {
    TopK(ImageCandidates(fused, raws), ScoreOf, ImageKeep)
  }

  /** Every shown image has a confidence above zero. */
  lemma SelectImagesPositive(fused: seq<Fused>, raws: seq<real>)
    ensures forall i :: 0 <= i < |SelectImages(fused, raws)| ==> SelectImages(fused, raws)[i].score > 0.0
  {
    var r := SelectImages(fused, raws);
    forall i | 0 <= i < |r|
      ensures r[i].score > 0.0
    {
      TopKFrom(ImageCandidates(fused, raws), ScoreOf, ImageKeep, i);
    }
  }

  /** Every shown image is one of the first ten fused candidates, with the confidence of
      its own raw percentage. */
  lemma SelectImagesFromPool(fused: seq<Fused>, raws: seq<real>, i: nat)
    requires i < |SelectImages(fused, raws)|
    ensures exists j :: (0 <= j < Min(ImagePool, |fused|) && j < |raws|
                         && SelectImages(fused, raws)[i] == Scored(fused[j], LiveCertainty(raws[j])))
  {
    var rated := RateImages(Take(fused, ImagePool), raws);
    TopKFrom(ImageCandidates(fused, raws), ScoreOf, ImageKeep, i);
    var j :| 0 <= j < |rated| && rated[j] == SelectImages(fused, raws)[i];
    assert Take(fused, ImagePool)[j] == fused[j];
  }

  /** A pooled image whose raw percentage is at least 0.05 passes the filter, and is
      then either chosen or outscored by three chosen images. */
  lemma SelectImagesKeepsBest(fused: seq<Fused>, raws: seq<real>, j: nat)
    requires j < Min(ImagePool, |fused|) && j < |raws|
    requires raws[j] >= 0.05
    ensures var x := Scored(fused[j], LiveCertainty(raws[j]));
      var r := SelectImages(fused, raws);
      x in r || (|r| == ImageKeep && forall i :: 0 <= i < |r| ==> x.score <= r[i].score)
  {
    TopKBest(ImageCandidates(fused, raws), ScoreOf, ImageKeep, Scored(fused[j], LiveCertainty(raws[j])));
  }

  /** A raw percentage below 0.05 rounds to 0.0 and is never shown, however few images
      there are. */
  lemma SelectImagesDropsZero(fused: seq<Fused>, raws: seq<real>, j: nat)
    requires j < Min(ImagePool, |fused|) && j < |raws|
    requires 0.0 <= raws[j] < 0.05
    ensures Scored(fused[j], LiveCertainty(raws[j])) !in SelectImages(fused, raws)
  {
    Round1Positive(raws[j]);
    SelectImagesPositive(fused, raws);
  }
}

=== FILE: fusion.dfy ===
/** Reciprocal Rank Fusion of several ranked candidate lists: every appearance of a
    document at rank `r` adds `1/(60 + r)` to the document's score, and the merged
    documents come out by descending score, ties in order of first appearance. */
module Fusion {
  import opened Common
  import opened PyDict
  import opened Ranking
  import opened Documents

  /** The RRF damping constant `k`. */
  const K: real := 60.0

  /** Contribution of one appearance at zero-based rank `rank`. */
  function Weight(rank: nat): (w: real)
    ensures 0.0 < w <= 1.0 / K
  {
    1.0 / (K + rank as real)
  }

  /** Identity of a candidate: its metadata `path` when truthy, otherwise the first
      100 characters of its text. */
  function FusionKey(c: Candidate): (k: string)
    ensures Truthy(c.meta.path) ==> k == c.meta.path.value
    ensures !Truthy(c.meta.path) ==> k == Take(c.doc, 100)
  {
    if Truthy(c.meta.path) then c.meta.path.value else Take(c.doc, 100)
  }

  /** A merged entry: the text and metadata of the first appearance, and the score. */
  datatype Fused = Fused(doc: string, meta: Meta, score: real)

  function FusedScore(f: Fused): real {
    f.score
  }

  /** The identity key recomputed from what a merged entry stores. */
  function EntryKey(f: Fused): string {
    FusionKey(Candidate(f.doc, f.meta))
  }

  /** One appearance: a candidate and its zero-based rank inside its list. */
  datatype Hit = Hit(cand: Candidate, rank: nat)

  function HitKey(h: Hit): string {
    FusionKey(h.cand)
  }

  /** `enumerate(doc_list)`. */
  function Enumerate(l: seq<Candidate>): (r: seq<Hit>)
    ensures |r| == |l|
    ensures forall i :: 0 <= i < |l| ==> r[i] == Hit(l[i], i)
  {
    seq(|l|, i requires 0 <= i < |l| => Hit(l[i], i))
  }

  /** All appearances in visiting order: list by list, rank by rank. */
  function Hits(lists: seq<seq<Candidate>>): seq<Hit> {
    if |lists| == 0 then [] else Hits(lists[..|lists| - 1]) + Enumerate(lists[|lists| - 1])
  }

  /** The keys of a run of appearances, in order. */
  function HitKeys(hs: seq<Hit>): (r: seq<string>)
    ensures |r| == |hs|
    ensures forall i :: 0 <= i < |hs| ==> r[i] == HitKey(hs[i])
  {
    seq(|hs|, i requires 0 <= i < |hs| => HitKey(hs[i]))
  }

  type Scores = Dict<string, Fused>

  /** One step of the inner loop: create the entry on first sight, then add the weight. */
  function AddHit(d: Scores, h: Hit): (r: Scores)
    ensures Keys(r) == if HitKey(h) in Keys(d) then Keys(d) else Keys(d) + [HitKey(h)]
  {
    var k := HitKey(h);
    var cur := Get(d, k).GetOr(Fused(h.cand.doc, h.cand.meta, 0.0));
    Put(d, k, cur.(score := cur.score + Weight(h.rank)))
  }

  function AddHits(d: Scores, hs: seq<Hit>): Scores {
    if |hs| == 0 then d else AddHit(AddHits(d, hs[..|hs| - 1]), hs[|hs| - 1])
  }

  /** The `fused_scores` dict after both loops. */
  function Accumulate(lists: seq<seq<Candidate>>): Scores {
    AddHits([], Hits(lists))
  }

  /** `reciprocal_rank_fusion(lists)`: the dict's values sorted by descending score. */
  function Fuse(lists: seq<seq<Candidate>>): (r: seq<Fused>)
    ensures SortedDesc(r, FusedScore)
    ensures multiset(r) == multiset(Values(Accumulate(lists)))
  {
    SortDesc(Values(Accumulate(lists)), FusedScore)
  }

  // ---------------------------------------------------------------------------
  // Reference definition: the score of a key is the sum of the weights of the
  // appearances carrying that key, and the stored text is the first appearance's.

  function HitSum(hs: seq<Hit>, k: string): real {
    if |hs| == 0 then 0.0
    else
      HitSum(hs[..|hs| - 1], k) + (if HitKey(hs[|hs| - 1]) == k then Weight(hs[|hs| - 1].rank) else 0.0)
  }

  /** What the dict should hold for a key that appears in `hs`. */
  function Expected(hs: seq<Hit>, k: string): Fused
    requires k in HitKeys(hs)
  {
    var h := hs[Find(HitKeys(hs), k)];
    Fused(h.cand.doc, h.cand.meta, HitSum(hs, k))
  }

  lemma HitKeysSnoc(hs: seq<Hit>, h: Hit)
    ensures HitKeys(hs + [h]) == HitKeys(hs) + [HitKey(h)]
  {
  }

  lemma {:induction false} HitSumAbsent(hs: seq<Hit>, k: string)
    requires k !in HitKeys(hs)
    ensures HitSum(hs, k) == 0.0
    decreases |hs|
  {
    if |hs| > 0 {
      var p := hs[..|hs| - 1];
      assert HitKeys(hs) == HitKeys(p) + [HitKey(hs[|hs| - 1])];
      HitSumAbsent(p, k);
    }
  }

  /** The entry one appearance leaves behind under its own key. */
  function Bumped(d: Scores, h: Hit): Fused {
    var cur := Get(d, HitKey(h)).GetOr(Fused(h.cand.doc, h.cand.meta, 0.0));
    cur.(score := cur.score + Weight(h.rank))
  }

  lemma AddHitGet(d: Scores, h: Hit, k: string)
    ensures Get(AddHit(d, h), k) == if HitKey(h) == k then Some(Bumped(d, h)) else Get(d, k)
  {
    if HitKey(h) != k {
      PutOther(d, HitKey(h), Bumped(d, h), k);
    }
  }

  lemma HitSumSnoc(p: seq<Hit>, h: Hit, k: string)
    ensures HitSum(p + [h], k) == HitSum(p, k) + (if HitKey(h) == k then Weight(h.rank) else 0.0)
  {
    assert (p + [h])[..|p|] == p;
  }

  /** A key seen before keeps its first appearance and adds the new weight. */
  lemma ExpectedSnocSeen(p: seq<Hit>, h: Hit, k: string)
    requires k in HitKeys(p)
    ensures k in HitKeys(p + [h])
    ensures Expected(p + [h], k) == Expected(p, k).(score := Expected(p, k).score
      + if HitKey(h) == k then Weight(h.rank) else 0.0)
  {
    HitKeysSnoc(p, h);
    FindAppend(HitKeys(p), [HitKey(h)], k);
    HitSumSnoc(p, h, k);
    assert (p + [h])[Find(HitKeys(p), k)] == p[Find(HitKeys(p), k)];
  }

  /** A key seen for the first time takes the new appearance's text and its weight. */
  lemma ExpectedSnocNew(p: seq<Hit>, h: Hit)
    requires HitKey(h) !in HitKeys(p)
    ensures HitKey(h) in HitKeys(p + [h])
    ensures Expected(p + [h], HitKey(h)) == Fused(h.cand.doc, h.cand.meta, Weight(h.rank))
  {
    var k := HitKey(h);
    HitKeysSnoc(p, h);
    HitSumSnoc(p, h, k);
    HitSumAbsent(p, k);
    var i := Find(HitKeys(p + [h]), k);
    assert i == |p|;
  }

  /** The accumulated dict maps exactly the keys that appear, each to its reference entry. */
  lemma {:induction false} AddHitsGet(hs: seq<Hit>, k: string)
    ensures Get(AddHits([], hs), k) == if k in HitKeys(hs) then Some(Expected(hs, k)) else None
    decreases |hs|
  {
    if |hs| > 0 {
      var p := hs[..|hs| - 1];
      var h := hs[|hs| - 1];
      assert hs == p + [h];
      var d := AddHits([], p);
      assert AddHits([], hs) == AddHit(d, h);
      AddHitsGet(p, k);
      AddHitGet(d, h, k);
      HitKeysSnoc(p, h);
      if k in HitKeys(p) {
        ExpectedSnocSeen(p, h, k);
      } else if HitKey(h) == k {
        AddHitsGet(p, HitKey(h));
        ExpectedSnocNew(p, h);
      }
    }
  }

  /** The keys of the dict are the appearing keys, each once, in order of first appearance. */
  lemma {:induction false} AddHitsKeys(hs: seq<Hit>)
    ensures Keys(AddHits([], hs)) == Dedup(HitKeys(hs))
    decreases |hs|
  {
    if |hs| > 0 {
      var p := hs[..|hs| - 1];
      var h := hs[|hs| - 1];
      var d := AddHits([], p);
      assert hs == p + [h];
      assert AddHits([], hs) == AddHit(d, h);
      AddHitsKeys(p);
      DedupMember(HitKeys(p), HitKey(h));
      calc {
        Keys(AddHit(d, h));
        if HitKey(h) in HitKeys(p) then Dedup(HitKeys(p)) else Dedup(HitKeys(p)) + [HitKey(h)];
        { DedupSnoc(HitKeys(p), HitKey(h)); }
        Dedup(HitKeys(p) + [HitKey(h)]);
        { HitKeysSnoc(p, h); }
        Dedup(HitKeys(hs));
      }
    }
  }

  /** Every merged entry of `Accumulate` is the reference entry of its key, and the key
      can be recomputed from the entry. */
  lemma AccumulateEntries(lists: seq<seq<Candidate>>)
    ensures var d := Accumulate(lists);
      && Keys(d) == Dedup(HitKeys(Hits(lists)))
      && UniqueKeys(d)
      && forall i :: 0 <= i < |d| ==>
           (d[i].key in HitKeys(Hits(lists))
            && d[i].value == Expected(Hits(lists), d[i].key)
            && EntryKey(d[i].value) == d[i].key)
  {
    var hs := Hits(lists);
    var d := Accumulate(lists);
    AddHitsKeys(hs);
    assert UniqueKeys(d) by {
      forall i, j | 0 <= i < j < |d|
        ensures d[i].key != d[j].key
      {
        assert Keys(d)[i] == d[i].key && Keys(d)[j] == d[j].key;
      }
    }
    forall i | 0 <= i < |d|
      ensures d[i].key in HitKeys(hs)
      ensures d[i].value == Expected(hs, d[i].key)
      ensures EntryKey(d[i].value) == d[i].key
    {
      var k := d[i].key;
      assert Keys(d)[i] == k;
      AddHitsGet(hs, k);
      GetAt(d, i);
      var j := Find(HitKeys(hs), k);
      assert HitKey(hs[j]) == k;
    }
  }

  /** The fused output holds each key once. */
  lemma FuseDistinct(lists: seq<seq<Candidate>>)
    ensures DistinctBy(Fuse(lists), EntryKey)
  {
    var d := Accumulate(lists);
    var vs := Values(d);
    AccumulateEntries(lists);
    assert DistinctBy(vs, EntryKey) by {
      forall i, j | 0 <= i < j < |vs|
        ensures EntryKey(vs[i]) != EntryKey(vs[j])
      {
        assert vs[i] == d[i].value && vs[j] == d[j].value;
      }
    }
    SortKeepsDistinct(vs, FusedScore, EntryKey);
  }

  /** Every fused entry holds the sum of its key's weights and the text and metadata of
      the key's first appearance. */
  lemma FuseEntries(lists: seq<seq<Candidate>>)
    ensures var r := Fuse(lists);
      forall i :: 0 <= i < |r| ==>
        (EntryKey(r[i]) in HitKeys(Hits(lists)) && r[i] == Expected(Hits(lists), EntryKey(r[i])))
  {
    var hs := Hits(lists);
    var d := Accumulate(lists);
    var vs := Values(d);
    var r := Fuse(lists);
    AccumulateEntries(lists);
    forall i | 0 <= i < |r|
      ensures EntryKey(r[i]) in HitKeys(hs) && r[i] == Expected(hs, EntryKey(r[i]))
    {
      ValueOfSorted(vs, r, i);
      var j :| 0 <= j < |vs| && vs[j] == r[i];
      assert vs[j] == d[j].value;
      assert d[j].key in HitKeys(hs) && d[j].value == Expected(hs, d[j].key)
        && EntryKey(d[j].value) == d[j].key;
    }
  }

  /** An element of a sorted copy sits somewhere in the original. */
  lemma ValueOfSorted(vs: seq<Fused>, r: seq<Fused>, i: nat)
    requires multiset(r) == multiset(vs) && i < |r|
    ensures exists j :: 0 <= j < |vs| && vs[j] == r[i]
  {
    assert r[i] in multiset(vs);
  }

  /** Every key that appears in some list has an entry in the fused output. */
  lemma FuseComplete(lists: seq<seq<Candidate>>)
    ensures var r := Fuse(lists);
      forall i :: 0 <= i < |Hits(lists)| ==>
        exists j :: 0 <= j < |r| && EntryKey(r[j]) == HitKey(Hits(lists)[i])
  {
    var hs := Hits(lists);
    var d := Accumulate(lists);
    var vs := Values(d);
    var r := Fuse(lists);
    AccumulateEntries(lists);
    forall i | 0 <= i < |hs|
      ensures exists j :: 0 <= j < |r| && EntryKey(r[j]) == HitKey(hs[i])
    {
      var k := HitKey(hs[i]);
      assert HitKeys(hs)[i] == k;
      assert k in Keys(d);
      var p :| 0 <= p < |d| && Keys(d)[p] == k;
      assert vs[p] == d[p].value;
      assert vs[p] in multiset(r);
      var j :| 0 <= j < |r| && r[j] == vs[p];
      assert EntryKey(r[j]) == k;
    }
  }

  /** Entries with equal scores keep the dict's order, which is order of first appearance. */
  lemma FuseStable(lists: seq<seq<Candidate>>, v: real)
    ensures Keys(Accumulate(lists)) == Dedup(HitKeys(Hits(lists)))
    ensures Tier(Fuse(lists), FusedScore, v) == Tier(Values(Accumulate(lists)), FusedScore, v)
  {
    AddHitsKeys(Hits(lists));
    SortStable(Values(Accumulate(lists)), FusedScore, v);
  }

  // ---------------------------------------------------------------------------
  // Consequences for the two-list call the server makes.

  lemma {:induction false} HitSumAppend(a: seq<Hit>, b: seq<Hit>, k: string)
    ensures HitSum(a + b, k) == HitSum(a, k) + HitSum(b, k)
    decreases |b|
  {
    if |b| == 0 {
      assert a + b == a;
    } else {
      assert (a + b)[..|a + b| - 1] == a + b[..|b| - 1];
      HitSumAppend(a, b[..|b| - 1], k);
    }
  }

  lemma TwoLists(l0: seq<Candidate>, l1: seq<Candidate>)
    ensures Hits([l0, l1]) == Enumerate(l0) + Enumerate(l1)
  {
    calc {
      Hits([l0, l1]);
      { assert [l0, l1][..1] == [l0]; }
      Hits([l0]) + Enumerate(l1);
      { assert [l0][..0] == []; }
      (Hits([]) + Enumerate(l0)) + Enumerate(l1);
      { assert Hits([]) + Enumerate(l0) == Enumerate(l0); }
      Enumerate(l0) + Enumerate(l1);
    }
  }

  /** Fusion is symmetric in the two lists as far as scores go. */
  lemma ScoreSymmetric(l0: seq<Candidate>, l1: seq<Candidate>, k: string)
    ensures HitSum(Hits([l0, l1]), k) == HitSum(Hits([l1, l0]), k)
  {
    TwoLists(l0, l1);
    TwoLists(l1, l0);
    HitSumAppend(Enumerate(l0), Enumerate(l1), k);
    HitSumAppend(Enumerate(l1), Enumerate(l0), k);
  }

  /** Sum of the weights in one list when only its head carries the key. */
  lemma {:induction false} HeadOnly(l: seq<Candidate>, k: string)
    requires |l| > 0 && FusionKey(l[0]) == k
    requires forall i :: 1 <= i < |l| ==> FusionKey(l[i]) != k
    ensures HitSum(Enumerate(l), k) == 1.0 / 60.0
    decreases |l|
  {
    var e := Enumerate(l);
    if |l| == 1 {
      assert e == [] + [e[0]];
    } else {
      HitSumAppend(e[..|l| - 1], [e[|l| - 1]], k);
      assert e[..|l| - 1] == Enumerate(l[..|l| - 1]);
      assert [e[|l| - 1]][..0] == [];
      HeadOnly(l[..|l| - 1], k);
    }
  }

  lemma {:induction false} NoneCarries(l: seq<Candidate>, k: string)
    requires forall i :: 0 <= i < |l| ==> FusionKey(l[i]) != k
    ensures HitSum(Enumerate(l), k) == 0.0
  {
    HitSumAbsent(Enumerate(l), k);
  }

  /** Two pathless candidates whose texts share their first 100 characters are one entry
      to fusion: the dict holds a single key, and the first appearance's text stands for
      both, so the later text is lost. */
  lemma PathlessPrefixMerges(a: Candidate, b: Candidate)
    requires !Truthy(a.meta.path) && !Truthy(b.meta.path)
    requires |a.doc| >= 100 && |b.doc| >= 100 && a.doc[..100] == b.doc[..100]
    ensures FusionKey(a) == FusionKey(b)
    ensures var d := Accumulate([[a], [b]]);
      Keys(d) == [FusionKey(a)] && Get(d, FusionKey(a)) == Some(Fused(a.doc, a.meta, 2.0 / 60.0))
  {
    var k := FusionKey(a);
    var hs := Hits([[a], [b]]);
    TwoLists([a], [b]);
    assert hs == [Hit(a, 0), Hit(b, 0)];
    AddHitsKeys(hs);
    assert HitKeys(hs) == [k, k];
    assert Dedup([k, k]) == [k] by {
      assert [k, k][..1] == [k];
      assert [k][..0] == [];
    }
    AddHitsGet(hs, k);
    TopOfBoth([a], [b], k);
    assert Find(HitKeys(hs), k) == 0;
  }

  /** A key at the top of both lists, and nowhere else, scores 2/60. */
  lemma TopOfBoth(l0: seq<Candidate>, l1: seq<Candidate>, k: string)
    requires |l0| > 0 && |l1| > 0 && FusionKey(l0[0]) == k && FusionKey(l1[0]) == k
    requires forall i :: 1 <= i < |l0| ==> FusionKey(l0[i]) != k
    requires forall i :: 1 <= i < |l1| ==> FusionKey(l1[i]) != k
    ensures HitSum(Hits([l0, l1]), k) == 2.0 / 60.0
  {
    TwoLists(l0, l1);
    HitSumAppend(Enumerate(l0), Enumerate(l1), k);
    HeadOnly(l0, k);
    HeadOnly(l1, k);
  }

  /** A key at the top of one list and absent from the other scores 1/60, less than a
      key at the top of both. */
  lemma TopOfOne(l0: seq<Candidate>, l1: seq<Candidate>, k: string)
    requires |l0| > 0 && FusionKey(l0[0]) == k
    requires forall i :: 1 <= i < |l0| ==> FusionKey(l0[i]) != k
    requires forall i :: 0 <= i < |l1| ==> FusionKey(l1[i]) != k
    ensures HitSum(Hits([l0, l1]), k) == 1.0 / 60.0 < 2.0 / 60.0
  {
    TwoLists(l0, l1);
    HitSumAppend(Enumerate(l0), Enumerate(l1), k);
    HeadOnly(l0, k);
    NoneCarries(l1, k);
  }
}

=== FILE: image_ingest.dfy ===
/** Image ingestion: it collects the image files under the data folder, derives subject
    and topic from the folder structure, gives each image an identifier unique within the
    run, and builds the four parallel lists stored in the image collection. */
module ImageIngest {
  import opened Common
  import opened Text
  import opened Decimal
  import opened Paths
  import opened Documents
  import opened Layout

  /** The accepted extensions, compared on the lower-cased name. */
  predicate IsImageFile(name: string) {
    var n := Lower(name);
    EndsWith(n, ".png") || EndsWith(n, ".jpg") || EndsWith(n, ".jpeg") || EndsWith(n, ".webp")
  }

  /** Extension matching ignores case. */
  lemma IsImageFileIgnoresCase(name: string)
    ensures IsImageFile(name) <==> IsImageFile(Lower(name))
  {
    LowerIdempotent(name);
  }

  /** A found image: full path, file name, subject and topic. */
  datatype Found = Found(path: string, filename: string, subject: string, topic: string)

  function FoundIn(dataDir: string, f: Folder, file: string): Found {
    var parts := Parts(f, file);
    Found(PathJoin(Root(dataDir, f), file), file, Subject(parts), Topic(parts))
  }

  /** The images of one directory, in listing order. */
  function FolderImages(dataDir: string, f: Folder): (r: seq<Found>)
    ensures forall k :: 0 <= k < |r| ==> IsImageFile(r[k].filename)
    ensures forall k :: 0 <= k < |f.files| && IsImageFile(f.files[k]) ==> FoundIn(dataDir, f, f.files[k]) in r
  {
    var names := Filter(f.files, IsImageFile);
    var r := seq(|names|, k requires 0 <= k < |names| => FoundIn(dataDir, f, names[k]));
    forall k | 0 <= k < |f.files| && IsImageFile(f.files[k])
      ensures FoundIn(dataDir, f, f.files[k]) in r
    {
      var j :| 0 <= j < |names| && names[j] == f.files[k];
      assert r[j] == FoundIn(dataDir, f, f.files[k]);
    }
    r
  }

  /** `archivos_encontrados`: the images of every walked directory, in walk order. */
  function Collect(dataDir: string, walk: seq<Folder>): (r: seq<Found>)
    ensures forall k :: 0 <= k < |r| ==> IsImageFile(r[k].filename)
    ensures forall i, k :: 0 <= i < |walk| && 0 <= k < |walk[i].files| && IsImageFile(walk[i].files[k]) ==>
      FoundIn(dataDir, walk[i], walk[i].files[k]) in r
  {
    if |walk| == 0 then []
    else
      var p := Collect(dataDir, walk[..|walk| - 1]);
      var f := walk[|walk| - 1];
      var r := p + FolderImages(dataDir, f);
      assert forall i :: 0 <= i < |walk| - 1 ==> walk[..|walk| - 1][i] == walk[i];
      r
  }

  // ---------------------------------------------------------------------------
  // Identifiers.

  function Base(filename: string): string {
    "img_" + filename
  }

  /** The `n`-th alternative identifier of a file. */
  function Alternative(base: string, n: nat): string {
    base + "_" + Str(n)
  }

  /** A set holding the first `m` alternatives has at least `m` elements. */
  lemma {:induction false} AlternativesBound(seen: set<string>, base: string, m: nat)
    requires forall k :: 1 <= k <= m ==> Alternative(base, k) in seen
    ensures m <= |seen|
    decreases m
  {
    if m > 0 {
      var rest := seen - {Alternative(base, m)};
      forall k | 1 <= k < m
        ensures Alternative(base, k) in rest
      {
        if Alternative(base, k) == Alternative(base, m) {
          PrefixedStrInjective(base + "_", k, m);
        }
      }
      AlternativesBound(rest, base, m - 1);
    }
  }

  /** The identifier loop: `img_<file>` if unused, else `img_<file>_<n>` for the
      smallest `n >= 1` not yet used. */
  method NextId(seen: set<string>, filename: string) returns (id: string)
    ensures id !in seen
    ensures Base(filename) !in seen ==> id == Base(filename)
    ensures Base(filename) in seen ==>
      exists n: nat :: (1 <= n && id == Alternative(Base(filename), n)
                        && forall k :: 1 <= k < n ==> Alternative(Base(filename), k) in seen)
  {
    var base := Base(filename);
    id := base;
    var counter: nat := 1;
    while id in seen
      invariant counter >= 1
      invariant forall k :: 1 <= k < counter - 1 ==> Alternative(base, k) in seen
      invariant counter == 1 ==> id == base
      invariant counter > 1 ==> id == Alternative(base, counter - 1) && base in seen
      decreases |seen| + 1 - counter
    {
      AlternativesBound(seen, base, counter - 1);
      id := Alternative(base, counter);
      counter := counter + 1;
    }
  }

  // ---------------------------------------------------------------------------
  // The stored lists.

  /** The metadata stored with an image. */
  function ImageMeta(x: Found): (m: Meta)
    ensures m.kind == Some("image") && m.source == Some(x.filename) && m.path == Some(x.path)
  {
    Meta(Some(x.filename), Some(x.subject), Some(x.topic), Some(x.path), Some("image"))
  }

  /** The four parallel lists handed to the collection, and the identifiers reserved. */
  datatype Store = Store(ids: seq<string>, embeddings: seq<seq<real>>, documents: seq<string>,
                         metadatas: seq<Meta>, seen: set<string>)

  /** A stored row belongs to its image: the description and the embedding are those of
      the file at the row's path. */
  predicate OwnRow(doc: string, emb: seq<real>, m: Meta, embed: string -> Option<seq<real>>, describe: string -> string) {
    m.path.Some? && doc == describe(m.path.value) && embed(m.path.value) == Some(emb)
  }

  /** Everything `Ingest` keeps true of one stored row. */
  predicate GoodRow(id: string, doc: string, emb: seq<real>, m: Meta, seen: set<string>,
                    embed: string -> Option<seq<real>>, describe: string -> string) {
    && id in seen
    && m.kind == Some("image")
    && m.source.Some? && StartsWith(id, Base(m.source.value))
    && OwnRow(doc, emb, m, embed, describe)
  }

  /** The identifier chosen for a file is unused and starts with `img_<file>`. */
  method Reserve(seen: set<string>, filename: string) returns (id: string)
    ensures id !in seen
    ensures StartsWith(id, Base(filename))
  {
    id := NextId(seen, filename);
    if Base(filename) in seen {
      var n: nat :| 1 <= n && id == Alternative(Base(filename), n);
      assert id[..|Base(filename)|] == Base(filename);
    }
  }

  /** `main`: nothing is stored without images; otherwise each image whose embedding
      succeeds is stored under a fresh identifier with its description. The identifier
      is reserved before the embedding, so a failing image still uses one up. */
  method Ingest(found: seq<Found>, embed: string -> Option<seq<real>>, describe: string -> string)
    returns (r: Option<Store>)
    ensures |found| == 0 <==> r.None?
    ensures r.Some? ==> var s := r.value;
      && |s.ids| == |s.embeddings| == |s.documents| == |s.metadatas| <= |found|
      && (forall i, j :: 0 <= i < j < |s.ids| ==> s.ids[i] != s.ids[j])
      && (forall i :: 0 <= i < |s.ids| ==> s.ids[i] in s.seen)
      && (forall i :: 0 <= i < |s.ids| ==> s.metadatas[i].kind == Some("image"))
      && (forall i :: 0 <= i < |s.ids| ==> s.metadatas[i].source.Some?
                                            && StartsWith(s.ids[i], Base(s.metadatas[i].source.value)))
      && (forall i :: 0 <= i < |found| && embed(found[i].path).Some? ==> ImageMeta(found[i]) in s.metadatas)
      && |s.seen| == |found|
      && (forall i :: 0 <= i < |s.ids| ==> OwnRow(s.documents[i], s.embeddings[i], s.metadatas[i], embed, describe))
  {
    if |found| == 0 {
      return None;
    }
    var ids: seq<string> := [];
    var embeddings: seq<seq<real>> := [];
    var documents: seq<string> := [];
    var metadatas: seq<Meta> := [];
    var seen: set<string> := {};
    var i := 0;
    while i < |found|
      invariant 0 <= i <= |found|
      invariant |ids| == |embeddings| == |documents| == |metadatas| <= i
      invariant forall a, b :: 0 <= a < b < |ids| ==> ids[a] != ids[b]
      invariant forall a :: 0 <= a < |ids| ==> GoodRow(ids[a], documents[a], embeddings[a], metadatas[a], seen, embed, describe)
      invariant forall a :: 0 <= a < i && embed(found[a].path).Some? ==> ImageMeta(found[a]) in metadatas
      invariant |seen| == i
    {
      var item := found[i];
      var id := Reserve(seen, item.filename);
      seen := seen + {id};
      var emb := embed(item.path);
      if emb.Some? {
        ids := ids + [id];
        embeddings := embeddings + [emb.value];
        documents := documents + [describe(item.path)];
        metadatas := metadatas + [ImageMeta(item)];
      }
      i := i + 1;
    }
    r := Some(Store(ids, embeddings, documents, metadatas, seen));
  }
}

=== FILE: layout.dfy ===
/** How the ingestion scripts read the folder layout: `<subject>/<topic>/<file>` below
    the data folder, shallower files falling back to "general". */
module Layout {
  import opened Text
  import opened Paths

  /** Subject: the first part of the relative path when there is more than one part. */
  function Subject(parts: seq<string>): string {
    if |parts| > 1 then parts[0] else "general"
  }

  /** Topic: the second part of the relative path when there are more than two parts. */
  function Topic(parts: seq<string>): string {
    if |parts| > 2 then parts[1] else "general"
  }

  /** A directory of the walk, given by its components below the data folder. */
  datatype Folder = Folder(dirs: seq<string>, files: seq<string>)

  /** The walk's directory path: the data folder followed by the components. */
  function Root(dataDir: string, f: Folder): string {
    Join([dataDir] + f.dirs, [Sep])
  }

  /** `os.path.relpath` of a file of the walk against the data folder. */
  function RelativePath(f: Folder, file: string): string {
    Join(f.dirs + [file], [Sep])
  }

  /** The relative path split on the separator, as the collectors do. */
  function Parts(f: Folder, file: string): seq<string> {
    Split(RelativePath(f, file), Sep)
  }

  /** Components of a real directory tree: non-empty and free of separators. */
  predicate Component(name: string) {
    |name| > 0 && Sep !in name
  }

  /** For a file below real directories, subject and topic are the first and second
      directories, "general" when the file sits higher up. */
  lemma SubjectTopic(f: Folder, file: string)
    requires forall i :: 0 <= i < |f.dirs| ==> Component(f.dirs[i])
    requires Component(file)
    ensures Subject(Parts(f, file)) == if |f.dirs| >= 1 then f.dirs[0] else "general"
    ensures Topic(Parts(f, file)) == if |f.dirs| >= 2 then f.dirs[1] else "general"
  {
    var parts := f.dirs + [file];
    assert forall i :: 0 <= i < |parts| ==> Sep !in parts[i];
    SplitJoin(parts, Sep);
  }
}

=== FILE: legacy_server.dfy ===
/** The older, non-streaming server. It merges the vector and BM25 hits in a dict keyed
    by a text prefix (text) or by the stored path (images): vector hits are stored
    unconditionally, BM25 hits only under keys not yet present. Image confidence has a
    20% cut-off, and the whole answer is returned in one reply. */
module LegacyServer {
  import opened Common
  import opened Text
  import opened PyDict
  import opened Ranking
  import opened Documents
  import opened Confidence
  import opened QueryRewrite

  /** How a candidate was found (the reply's debug tag). */
  datatype Method = Vector | Bm25 | Clip

  /** A dict value: `{"doc": ..., "meta": ..., "method": ...}`. */
  datatype Cand = Cand(doc: string, meta: Meta, via: Method)

  /** Text candidates are keyed by their first 50 characters. */
  function TextKey(c: Candidate): (k: string)
    ensures k == Take(c.doc, 50)
  {
    Take(c.doc, 50)
  }

  /** Image candidates are keyed by `meta.get('path')`, which may be `None`. */
  function ImageKey(c: Candidate): Option<string> {
    c.meta.path
  }

  function Tag(c: Candidate, m: Method): Cand {
    Cand(c.doc, c.meta, m)
  }

  /** The vector loop: `d[key] = value` for each hit. */
  function StoreAll<K(==)>(d: Dict<K, Cand>, cs: seq<Candidate>, key: Candidate -> K, m: Method)
    : Dict<K, Cand>
  {
    if |cs| == 0 then d
    else
      var c := cs[|cs| - 1];
      Put(StoreAll(d, cs[..|cs| - 1], key, m), key(c), Tag(c, m))
  }

  /** The BM25 loop: `if key not in d: d[key] = value` for each hit. */
  function StoreNew<K(==)>(d: Dict<K, Cand>, cs: seq<Candidate>, key: Candidate -> K, m: Method)
    : Dict<K, Cand>
  {
    if |cs| == 0 then d
    else
      var c := cs[|cs| - 1];
      PutIfAbsent(StoreNew(d, cs[..|cs| - 1], key, m), key(c), Tag(c, m))
  }

  /** Index of the last element of `s` equal to `x`. */
  function LastIndex<K(==)>(s: seq<K>, x: K): (i: nat)
    requires x in s
    ensures i < |s| && s[i] == x
    ensures forall j :: i < j < |s| ==> s[j] != x
  {
    if s[|s| - 1] == x then |s| - 1 else LastIndex(s[..|s| - 1], x)
  }

  /** After the vector loop, a key holds its last vector hit; other keys are as before. */
  lemma {:induction false} StoreAllGet<K>(d: Dict<K, Cand>, cs: seq<Candidate>, key: Candidate -> K, m: Method, k: K)
    ensures var ks := Map(cs, key);
      Get(StoreAll(d, cs, key, m), k) == if k in ks then Some(Tag(cs[LastIndex(ks, k)], m)) else Get(d, k)
    decreases |cs|
  {
    if |cs| > 0 {
      var p := cs[..|cs| - 1];
      var c := cs[|cs| - 1];
      var ks := Map(cs, key);
      assert Map(p, key) == ks[..|cs| - 1];
      StoreAllGet(d, p, key, m, k);
      if key(c) != k {
        PutOther(StoreAll(d, p, key, m), key(c), Tag(c, m), k);
      }
    }
  }

  /** After the BM25 loop, a key already present keeps its value, and a new key holds
      its first BM25 hit. */
  lemma {:induction false} StoreNewGet<K>(d: Dict<K, Cand>, cs: seq<Candidate>, key: Candidate -> K, m: Method, k: K)
    ensures var ks := Map(cs, key);
      Get(StoreNew(d, cs, key, m), k) ==
        if Get(d, k).Some? then Get(d, k)
        else if k in ks then Some(Tag(cs[Find(ks, k)], m))
        else None
    decreases |cs|
  {
    if |cs| > 0 {
      var p := cs[..|cs| - 1];
      var c := cs[|cs| - 1];
      var ks := Map(cs, key);
      assert Map(p, key) == ks[..|cs| - 1];
      assert ks == Map(p, key) + [key(c)];
      StoreNewGet(d, p, key, m, k);
      if key(c) != k {
        PutIfAbsentOther(StoreNew(d, p, key, m), key(c), Tag(c, m), k);
        if k in Map(p, key) {
          FindAppend(Map(p, key), [key(c)], k);
        }
      } else if k in Map(p, key) {
        FindAppend(Map(p, key), [key(c)], k);
      } else {
        assert Find(ks, k) == |p|;
      }
    }
  }

  /** The merged candidates: vector hits, then BM25 hits under new keys only. */
  function Merge<K(==)>(vec: seq<Candidate>, bm25: seq<Candidate>, key: Candidate -> K, vecTag: Method)
    : Dict<K, Cand>
  {
    StoreNew(StoreAll([], vec, key, vecTag), bm25, key, Bm25)
  }

  /** Vector hits win: a key found by the vector search holds its last vector hit, and a
      BM25 hit is only ever stored under a key no vector hit has. */
  lemma MergeGet<K>(vec: seq<Candidate>, bm25: seq<Candidate>, key: Candidate -> K, vecTag: Method, k: K)
    ensures var vk := Map(vec, key);
      var bk := Map(bm25, key);
      Get(Merge(vec, bm25, key, vecTag), k) ==
        if k in vk then Some(Tag(vec[LastIndex(vk, k)], vecTag))
        else if k in bk then Some(Tag(bm25[Find(bk, k)], Bm25))
        else None
  {
    var d: Dict<K, Cand> := [];
    StoreAllGet(d, vec, key, vecTag, k);
    StoreNewGet(StoreAll(d, vec, key, vecTag), bm25, key, Bm25, k);
  }

  // ---------------------------------------------------------------------------
  // Reranking and selection.

  const TextKeep: nat := 4
  const ImageKeep: nat := 3

  function CandDocs(cs: seq<Cand>): (r: seq<string>)
    ensures |r| == |cs|
    ensures forall i :: 0 <= i < |cs| ==> r[i] == cs[i].doc
  {
    seq(|cs|, i requires 0 <= i < |cs| => cs[i].doc)
  }

  /** `final_text_docs`: the merged values with their scores, best four first. */
  function SelectText(cands: seq<Cand>, scores: seq<real>): (r: seq<Scored<Cand>>)
    ensures |r| == Min(TextKeep, Min(|cands|, |scores|))
    ensures SortedDesc(r, ScoreOf)
    ensures multiset(r) <= multiset(Zip(cands, scores))
  {
    TopK(Zip(cands, scores), ScoreOf, TextKeep)
  }

  /** Every scored candidate is kept, or outscored by four kept ones. */
  lemma SelectTextKeepsBest(cands: seq<Cand>, scores: seq<real>, j: nat)
    requires j < |cands| && j < |scores|
    ensures var r := SelectText(cands, scores);
      Scored(cands[j], scores[j]) in r
      || (|r| == TextKeep && forall i :: 0 <= i < |r| ==> scores[j] <= r[i].score)
  {
    var z := Zip(cands, scores);
    assert z[j] == Scored(cands[j], scores[j]);
    TopKBest(z, ScoreOf, TextKeep, z[j]);
  }

  /** Every merged image with its floored confidence, as far as both lists go. */
  function AllRated(cands: seq<Cand>, raws: seq<real>): (r: seq<Scored<Cand>>)
    ensures |r| == Min(|cands|, |raws|)
    ensures forall j :: 0 <= j < |r| ==> r[j] == Scored(cands[j], FlooredCertainty(raws[j]))
  {
    seq(Min(|cands|, |raws|), j requires 0 <= j < Min(|cands|, |raws|) =>
      Scored(cands[j], FlooredCertainty(raws[j])))
  }

  /** `ranked_img`: the merged images whose floored confidence is above zero, in dict
      order. */
  function RateImages(cands: seq<Cand>, raws: seq<real>): (r: seq<Scored<Cand>>)
    ensures Subsequence(r, AllRated(cands, raws))
    ensures forall i :: 0 <= i < |r| ==> r[i] in AllRated(cands, raws) && r[i].score >= Cutoff
    ensures forall j :: 0 <= j < |cands| && j < |raws| && raws[j] >= Cutoff ==>
      Scored(cands[j], FlooredCertainty(raws[j])) in r
  {
    var all := AllRated(cands, raws);
    assert forall j :: 0 <= j < |all| && raws[j] >= Cutoff ==> Positive(all[j]);
    FilterSubsequence(all, Positive);
    Filter(all, Positive)
  }

  predicate Positive(x: Scored<Cand>) {
    x.score > 0.0
  }

  /** `final_img_docs`: the rated images, best three first. */
  function SelectImages(cands: seq<Cand>, raws: seq<real>): (r: seq<Scored<Cand>>)
    ensures |r| == Min(ImageKeep, |RateImages(cands, raws)|)
    ensures SortedDesc(r, ScoreOf)
    ensures multiset(r) <= multiset(RateImages(cands, raws))
  {
    TopK(RateImages(cands, raws), ScoreOf, ImageKeep)
  }

  /** An image whose raw confidence clears the cut-off is chosen, or outscored by three
      chosen images. */
  lemma SelectImagesKeepsBest(cands: seq<Cand>, raws: seq<real>, j: nat)
    requires j < |cands| && j < |raws| && raws[j] >= Cutoff
    ensures var x := Scored(cands[j], FlooredCertainty(raws[j]));
      var r := SelectImages(cands, raws);
      x in r || (|r| == ImageKeep && forall i :: 0 <= i < |r| ==> x.score <= r[i].score)
  {
    TopKBest(RateImages(cands, raws), ScoreOf, ImageKeep, Scored(cands[j], FlooredCertainty(raws[j])));
  }

  /** Every chosen image clears the 20% cut-off. */
  lemma SelectImagesAboveCutoff(cands: seq<Cand>, raws: seq<real>)
    ensures forall i :: 0 <= i < |SelectImages(cands, raws)| ==> SelectImages(cands, raws)[i].score >= Cutoff
  {
    var r := SelectImages(cands, raws);
    forall i | 0 <= i < |r|
      ensures r[i].score >= Cutoff
    {
      TopKFrom(RateImages(cands, raws), ScoreOf, ImageKeep, i);
    }
  }

  // ---------------------------------------------------------------------------
  // The reply.

  /** One entry of `imagenes`. */
  datatype ImageInfo = ImageInfo(path: string, filename: Option<string>, subject: string, topic: string, score: real)

  function TextLine(x: Scored<Cand>): string {
    "[TEXTO - " + x.item.meta.subject.GetOr("Gral") + "]: " + x.item.doc
  }

  function ImageLine(x: Scored<Cand>): string {
    "[IMAGEN - " + Show(x.item.meta.source) + "]: " + x.item.doc
  }

  function SourceLabel(x: Scored<Cand>): string {
    x.item.meta.source.GetOr("Doc") + " (" + x.item.meta.subject.GetOr("Gral") + ")"
  }

  /** `contexto_parts`: text lines, then image lines. */
  function ContextParts(text: seq<Scored<Cand>>, images: seq<Scored<Cand>>): (r: seq<string>)
    ensures |r| == |text| + |images|
    ensures forall i :: 0 <= i < |text| ==> r[i] == TextLine(text[i])
    ensures forall j :: 0 <= j < |images| ==> r[|text| + j] == ImageLine(images[j])
  {
    Map(text, TextLine) + Map(images, ImageLine)
  }

  /** `ragas_context_list`: text documents, then image documents tagged with their source. */
  function RagasContext(text: seq<Scored<Cand>>, images: seq<Scored<Cand>>): (r: seq<string>)
    ensures |r| == |text| + |images|
    ensures forall i :: 0 <= i < |text| ==> r[i] == text[i].item.doc
    ensures forall j :: 0 <= j < |images| ==>
      r[|text| + j] == "[IMG " + Show(images[j].item.meta.source) + "]: " + images[j].item.doc
  {
    seq(|text|, i requires 0 <= i < |text| => text[i].item.doc)
      + seq(|images|, j requires 0 <= j < |images| =>
          "[IMG " + Show(images[j].item.meta.source) + "]: " + images[j].item.doc)
  }

  /** The document behind position `i` of the assembled lists: text first, then images. */
  function DocAt(text: seq<Scored<Cand>>, images: seq<Scored<Cand>>, i: nat): string
    requires i < |text| + |images|
  {
    if i < |text| then text[i].item.doc else images[i - |text|].item.doc
  }

  /** The context block and the evaluation context describe the same evidence: at every
      position both end with the same document. */
  lemma ContextAgrees(text: seq<Scored<Cand>>, images: seq<Scored<Cand>>)
    ensures var parts := ContextParts(text, images);
      var ragas := RagasContext(text, images);
      && |parts| == |ragas| == |text| + |images|
      && forall i :: 0 <= i < |parts| ==>
           EndsWith(parts[i], DocAt(text, images, i)) && EndsWith(ragas[i], DocAt(text, images, i))
  {
    var parts := ContextParts(text, images);
    var ragas := RagasContext(text, images);
    forall i | 0 <= i < |parts|
      ensures EndsWith(parts[i], DocAt(text, images, i)) && EndsWith(ragas[i], DocAt(text, images, i))
    {
      if i < |text| {
        EndsWithConcat("[TEXTO - " + text[i].item.meta.subject.GetOr("Gral") + "]: ", text[i].item.doc);
        EndsWithConcat("", text[i].item.doc);
        assert "" + text[i].item.doc == text[i].item.doc;
      } else {
        var x := images[i - |text|];
        assert parts[i] == parts[|text| + (i - |text|)];
        EndsWithConcat("[IMAGEN - " + Show(x.item.meta.source) + "]: ", x.item.doc);
        EndsWithConcat("[IMG " + Show(x.item.meta.source) + "]: ", x.item.doc);
      }
    }
  }

  /** `list(set(fuentes_texto))`, listed by first occurrence. */
  function Sources(text: seq<Scored<Cand>>): (r: seq<string>)
    ensures forall i :: 0 <= i < |text| ==> SourceLabel(text[i]) in r
    ensures forall s :: s in r ==> exists i :: 0 <= i < |text| && SourceLabel(text[i]) == s
    ensures forall i, j :: 0 <= i < j < |r| ==> r[i] != r[j]
  {
    var all := seq(|text|, i requires 0 <= i < |text| => SourceLabel(text[i]));
    var r := Dedup(all);
    assert forall s :: s in r ==> s in all;
    forall i | 0 <= i < |text|
      ensures SourceLabel(text[i]) in r
    {
      assert all[i] == SourceLabel(text[i]);
    }
    r
  }

  function Info(x: Scored<Cand>): ImageInfo
    requires Truthy(x.item.meta.path)
  {
    var m := x.item.meta;
    ImageInfo(m.path.value, m.source, m.subject.GetOr("Gral"), m.topic.GetOr("-"), x.score)
  }

  /** `imagenes_info`: one entry per chosen image whose metadata has a non-empty path,
      in order. */
  function ImagesInfo(images: seq<Scored<Cand>>): (r: seq<ImageInfo>)
    ensures |r| <= |images|
    ensures |r| == 0 <==> forall j :: 0 <= j < |images| ==> !Truthy(images[j].item.meta.path)
  {
    if |images| == 0 then []
    else
      var x := images[|images| - 1];
      var p := ImagesInfo(images[..|images| - 1]);
      if Truthy(x.item.meta.path) then p + [Info(x)] else p
  }

  /** Each entry of `imagenes_info` describes a chosen image with a path. */
  lemma {:induction false} ImagesInfoFrom(images: seq<Scored<Cand>>, i: nat)
    requires i < |ImagesInfo(images)|
    ensures exists j :: (0 <= j < |images| && Truthy(images[j].item.meta.path)
                         && ImagesInfo(images)[i] == Info(images[j]))
    decreases |images|
  {
    var x := images[|images| - 1];
    var p := ImagesInfo(images[..|images| - 1]);
    if i < |p| {
      ImagesInfoFrom(images[..|images| - 1], i);
      var j :| 0 <= j < |images| - 1 && Truthy(images[..|images| - 1][j].item.meta.path)
        && p[i] == Info(images[..|images| - 1][j]);
      assert images[..|images| - 1][j] == images[j];
    } else {
      assert ImagesInfo(images)[i] == Info(x);
    }
  }

  const NoContext: string := "Sin información."

  function ContextText(parts: seq<string>): string {
    var joined := Join(parts, "\n");
    if joined == "" then NoContext else joined
  }

  /** The context falls back to "Sin información." exactly when nothing was chosen. */
  lemma ContextFallback(text: seq<Scored<Cand>>, images: seq<Scored<Cand>>)
    ensures var parts := ContextParts(text, images);
      ContextText(parts) == if |text| + |images| == 0 then NoContext else Join(parts, "\n")
  {
    var parts := ContextParts(text, images);
    if |parts| > 0 {
      JoinStartsWithFirst(parts, "\n");
      if |text| > 0 {
        assert parts[0] == TextLine(text[0]);
      } else {
        assert parts[0] == parts[|text| + 0] == ImageLine(images[0]);
      }
      assert Join(parts, "\n")[0] == parts[0][0] == '[';
    }
  }

  datatype Visual = ImagesAvailable | NoImages

  function VisualText(v: Visual): string {
    match v
    case ImagesAvailable => "2. Tienes imágenes marcadas con [IMAGEN]. Úsalas para explicar."
    case NoImages => "2. NO hay imágenes relevantes visibles. Ignora referencias visuales del texto."
  }

  /** The system prompt by its varying parts; the fixed teacher wording is not reproduced. */
  datatype Prompt = Prompt(visual: Visual, context: string)

  const Reminder: string := "Recuerda: Mantén tu rol de profesor."

  datatype Outgoing = System(prompt: Prompt) | SystemText(text: string) | Chat(turn: Message)

  /** `messages`: system prompt, the history in order, the query, the closing reminder. */
  function Messages(prompt: Prompt, history: seq<Message>, query: string): (r: seq<Outgoing>)
    ensures |r| == |history| + 3
    ensures r[0] == System(prompt)
    ensures forall i :: 0 <= i < |history| ==> r[i + 1] == Chat(history[i])
    ensures r[|history| + 1] == Chat(Message("user", query))
    ensures r[|history| + 2] == SystemText(Reminder)
  {
    [System(prompt)]
      + seq(|history|, i requires 0 <= i < |history| => Chat(history[i]))
      + [Chat(Message("user", query)), SystemText(Reminder)]
  }

  /** What the answering model does with the messages: its content (possibly absent),
      or the text of the exception it raised. */
  datatype Completion = Completed(content: Option<string>) | Raised(error: string)

  datatype World = World(
    textVector: Option<QueryResult>,
    textBm25: Option<Bm25Answer>,
    imageVector: Option<QueryResult>,
    imageBm25: Option<Bm25Answer>,
    rerank: (string, seq<string>) -> seq<real>,
    imageConfidence: (string, seq<string>) -> seq<real>,
    llm: seq<Outgoing> -> Completion)

  datatype Answer = Answer(
    text: Option<string>,
    sources: seq<string>,
    images: seq<ImageInfo>,
    ragasContext: seq<string>)

  /** The endpoint's reply: 503 while loading, 500 with the exception text, or the answer. */
  datatype Reply = Unavailable | ServerError(detail: string) | Answered(answer: Answer)

  /** The chosen evidence of one request. */
  datatype Chosen = Chosen(text: seq<Scored<Cand>>, images: seq<Scored<Cand>>)

  /** The text evidence: the merged text candidates, reranked, best four. */
  function ChooseText(query: string, w: World): (r: seq<Scored<Cand>>)
    ensures |r| <= TextKeep
  {
    var texts := Values(Merge(VectorCandidates(w.textVector), Bm25List(w.textBm25), TextKey, Vector));
    SelectText(texts, w.rerank(query, CandDocs(texts)))
  }

  /** The image evidence: the merged image candidates that clear the cutoff, best three. */
  function ChooseImages(query: string, w: World): (r: seq<Scored<Cand>>)
    ensures |r| <= ImageKeep
    ensures forall i :: 0 <= i < |r| ==> r[i].score >= Cutoff
  {
    var imgs := Values(Merge(VectorCandidates(w.imageVector), Bm25List(w.imageBm25), ImageKey, Clip));
    var rawImages := w.imageConfidence(query, CandDocs(imgs));
    SelectImagesAboveCutoff(imgs, rawImages);
    SelectImages(imgs, rawImages)
  }

  function Choose(query: string, w: World): (c: Chosen)
    ensures |c.text| <= TextKeep && |c.images| <= ImageKeep
    ensures forall i :: 0 <= i < |c.images| ==> c.images[i].score >= Cutoff
  {
    Chosen(ChooseText(query, w), ChooseImages(query, w))
  }

  function PromptFor(c: Chosen): (p: Prompt)
    ensures p.visual == ImagesAvailable <==> |ImagesInfo(c.images)| > 0
  {
    var info := ImagesInfo(c.images);
    Prompt(if |info| > 0 then ImagesAvailable else NoImages, ContextText(ContextParts(c.text, c.images)))
  }

  /** `ask_question`. */
  function Ask(loaded: bool, query: string, history: seq<Message>, w: World): (r: Reply)
    ensures !loaded ==> r == Unavailable
    ensures loaded ==> var c := Choose(query, w);
      match w.llm(Messages(PromptFor(c), history, query))
      case Raised(e) => r == ServerError(e)
      case Completed(content) =>
        && r.Answered?
        && r.answer.text == content
        && r.answer.images == ImagesInfo(c.images)
        && r.answer.ragasContext == RagasContext(c.text, c.images)
        && (forall s :: s in r.answer.sources <==> exists i :: 0 <= i < |c.text| && SourceLabel(c.text[i]) == s)
  {
    if !loaded then Unavailable
    else
      var c := Choose(query, w);
      match w.llm(Messages(PromptFor(c), history, query))
      case Raised(e) => ServerError(e)
      case Completed(content) =>
        Answered(Answer(content, Sources(c.text), ImagesInfo(c.images), RagasContext(c.text, c.images)))
  }
}

=== FILE: paths.dfy ===
/** POSIX path handling as `os.path` and `str.split(os.sep)` perform it. */
module Paths {
  import opened Text

  const Sep: char := '/'

  /** Python's `s.split(c)`: the pieces between occurrences of `c`, always at least one. */
  function Split(s: string, c: char): (r: seq<string>)
    ensures |r| >= 1
    ensures forall i :: 0 <= i < |r| ==> c !in r[i]
  {
    if |s| == 0 then [""]
    else
      var t := Split(s[1..], c);
      if s[0] == c then [""] + t else [[s[0]] + t[0]] + t[1..]
  }

  lemma {:induction false} SplitNoSep(p: string, c: char)
    requires c !in p
    ensures Split(p, c) == [p]
    decreases |p|
  {
    if |p| > 0 {
      SplitNoSep(p[1..], c);
      assert [p[0]] + p[1..] == p;
    }
  }

  lemma {:induction false} SplitAfterPart(p: string, c: char, rest: string)
    requires c !in p
    ensures Split(p + [c] + rest, c) == [p] + Split(rest, c)
    decreases |p|
  {
    var s := p + [c] + rest;
    if |p| == 0 {
      assert s[0] == c && s[1..] == rest;
    } else {
      assert s[0] == p[0] && s[1..] == p[1..] + [c] + rest;
      SplitAfterPart(p[1..], c, rest);
      assert [p[0]] + p[1..] == p;
    }
  }

  /** Splitting a path written from separator-free components gives them back. */
  lemma {:induction false} SplitJoin(parts: seq<string>, c: char)
    requires |parts| >= 1
    requires forall i :: 0 <= i < |parts| ==> c !in parts[i]
    ensures Split(Join(parts, [c]), c) == parts
    decreases |parts|
  {
    if |parts| == 1 {
      SplitNoSep(parts[0], c);
    } else {
      SplitJoin(parts[1..], c);
      SplitAfterPart(parts[0], c, Join(parts[1..], [c]));
      assert [parts[0]] + parts[1..] == parts;
    }
  }

  /** Joining the pieces of a split restores the string. */
  lemma {:induction false} JoinSplit(s: string, c: char)
    ensures Join(Split(s, c), [c]) == s
    decreases |s|
  {
    if |s| > 0 {
      JoinSplit(s[1..], c);
      var t := Split(s[1..], c);
      if s[0] == c {
        assert Join([""] + t, [c]) == "" + [c] + Join(t, [c]);
      } else {
        var u := [[s[0]] + t[0]] + t[1..];
        if |t| == 1 {
          assert Join(u, [c]) == [s[0]] + t[0];
        } else {
          assert Join(u, [c]) == [s[0]] + t[0] + [c] + Join(t[1..], [c]);
          assert Join(t, [c]) == t[0] + [c] + Join(t[1..], [c]);
        }
        assert [s[0]] + s[1..] == s;
      }
    }
  }

  /** `os.path.basename`: the text after the last separator. */
  function Basename(p: string): (r: string)
    ensures Sep !in r
    ensures EndsWith(p, r)
  {
    var parts := Split(p, Sep);
    SplitLastIsSuffix(p, Sep);
    parts[|parts| - 1]
  }

  lemma {:induction false} SplitLastIsSuffix(s: string, c: char)
    ensures var parts := Split(s, c); EndsWith(s, parts[|parts| - 1])
    decreases |s|
  {
    if |s| > 0 {
      var t := Split(s[1..], c);
      var parts := Split(s, c);
      if s[0] != c && |t| == 1 {
        SplitSingleIsWhole(s[1..], c);
        assert parts == [[s[0]] + t[0]];
        assert [s[0]] + s[1..] == s;
      } else {
        assert parts[|parts| - 1] == t[|t| - 1];
        SplitLastIsSuffix(s[1..], c);
        EndsWithTail(s, t[|t| - 1]);
      }
    }
  }

  lemma EndsWithTail(s: string, x: string)
    requires |s| > 0 && EndsWith(s[1..], x)
    ensures EndsWith(s, x)
  {
    assert s[|s| - |x|..] == s[1..][|s| - 1 - |x|..];
  }

  lemma {:induction false} SplitSingleIsWhole(s: string, c: char)
    requires |Split(s, c)| == 1
    ensures Split(s, c)[0] == s
    decreases |s|
  {
    if |s| > 0 {
      SplitSingleIsWhole(s[1..], c);
      assert [s[0]] + s[1..] == s;
    }
  }

  /** `os.path.join(a, b)` for two components. */
  function PathJoin(a: string, b: string): (r: string)
    ensures EndsWith(r, b)
    ensures StartsWith(b, [Sep]) ==> r == b
  {
    if StartsWith(b, [Sep]) then b
    else if |a| == 0 || EndsWith(a, [Sep]) then a + b
    else a + [Sep] + b
  }

  /** One step of a recursive directory walk (`os.walk`): a directory and the names of
      the files in it. */
  datatype WalkEntry = WalkEntry(root: string, files: seq<string>)
}

=== FILE: pdf_ingest.dfy ===
/** PDF ingestion: it loads every PDF below the data folder, stamps each page with the
    file's naming metadata, and stores the chunks in batches of fifty under sequential
    identifiers. */
module PdfIngest {
  import opened Common
  import opened Text
  import opened Decimal
  import opened Paths
  import opened Documents
  import opened Layout

  predicate IsPdf(name: string) {
    EndsWith(Lower(name), ".pdf")
  }

  /** A page or chunk: its text and its metadata. */
  datatype Page = Page(content: string, meta: Meta)

  /** The metadata every page of a file receives. */
  function Stamp(f: Folder, file: string): (m: Meta)
    ensures m.source == Some(file) && m.kind == Some("text")
    ensures m.path == Some(RelativePath(f, file))
    ensures m.subject == Some(Subject(Parts(f, file))) && m.topic == Some(Topic(Parts(f, file)))
  {
    var parts := Parts(f, file);
    Meta(Some(file), Some(Subject(parts)), Some(Topic(parts)), Some(RelativePath(f, file)), Some("text"))
  }

  function Stamped(pages: seq<Page>, m: Meta): (r: seq<Page>)
    ensures |r| == |pages|
    ensures forall k :: 0 <= k < |r| ==> r[k] == Page(pages[k].content, m)
  {
    seq(|pages|, k requires 0 <= k < |pages| => Page(pages[k].content, m))
  }

  /** What loading the PDFs produced: the stamped pages and the number of files read. */
  datatype Loaded = Loaded(pages: seq<Page>, files: nat)

  /** A file of a directory that the loading loop reads: a PDF whose loader answers. */
  predicate Loadable(f: Folder, file: string, load: string -> Option<seq<Page>>, dataDir: string) {
    IsPdf(file) && load(PathJoin(Root(dataDir, f), file)).Some?
  }

  /** A page metadata that is the stamp of a loadable file of `files` in folder `f`. */
  ghost predicate StampedFrom(f: Folder, files: seq<string>, load: string -> Option<seq<Page>>, dataDir: string, m: Meta) {
    exists j :: 0 <= j < |files| && Loadable(f, files[j], load, dataDir) && m == Stamp(f, files[j])
  }

  /** The loading loop over one directory's listing. A file whose loader raises adds
      nothing and is not counted. */
  function LoadFolder(f: Folder, files: seq<string>, load: string -> Option<seq<Page>>, dataDir: string)
    : (r: Loaded)
    ensures r.files <= |files|
    ensures r.files == CountIf(files, (file: string) => Loadable(f, file, load, dataDir))
    ensures forall k :: 0 <= k < |r.pages| ==> r.pages[k].meta.kind == Some("text")
  {
    if |files| == 0 then Loaded([], 0)
    else
      var p := LoadFolder(f, files[..|files| - 1], load, dataDir);
      var file := files[|files| - 1];
      if !IsPdf(file) then p
      else
        match load(PathJoin(Root(dataDir, f), file))
        case None => p
        case Some(pages) => Loaded(p.pages + Stamped(pages, Stamp(f, file)), p.files + 1)
  }

  /** A page metadata that is the stamp of some file of the walk that the loop reads. */
  ghost predicate StampedFromWalk(walk: seq<Folder>, load: string -> Option<seq<Page>>, dataDir: string, m: Meta) {
    exists j :: 0 <= j < |walk| && StampedFrom(walk[j], walk[j].files, load, dataDir, m)
  }

  lemma StampedFromWalkPrefix(walk: seq<Folder>, load: string -> Option<seq<Page>>, dataDir: string, m: Meta)
    requires |walk| > 0 && StampedFromWalk(walk[..|walk| - 1], load, dataDir, m)
    ensures StampedFromWalk(walk, load, dataDir, m)
  {
    var pre := walk[..|walk| - 1];
    var j :| 0 <= j < |pre| && StampedFrom(pre[j], pre[j].files, load, dataDir, m);
    assert pre[j] == walk[j];
  }

  lemma StampedFromWalkLast(walk: seq<Folder>, load: string -> Option<seq<Page>>, dataDir: string, m: Meta)
    requires |walk| > 0 && StampedFrom(walk[|walk| - 1], walk[|walk| - 1].files, load, dataDir, m)
    ensures StampedFromWalk(walk, load, dataDir, m)
  {
  }

  /** The loading loop over the whole walk. */
  function Load(walk: seq<Folder>, load: string -> Option<seq<Page>>, dataDir: string): (r: Loaded)
    ensures forall k :: 0 <= k < |r.pages| ==> r.pages[k].meta.kind == Some("text")
    ensures r.files == 0 <==>
      forall j, k :: 0 <= j < |walk| && 0 <= k < |walk[j].files| ==> !Loadable(walk[j], walk[j].files[k], load, dataDir)
  {
    if |walk| == 0 then Loaded([], 0)
    else
      var p := Load(walk[..|walk| - 1], load, dataDir);
      var f := walk[|walk| - 1];
      var q := LoadFolder(f, f.files, load, dataDir);
      CountIfZero(f.files, (file: string) => Loadable(f, file, load, dataDir));
      assert forall j :: 0 <= j < |walk| - 1 ==> walk[..|walk| - 1][j] == walk[j];
      Loaded(p.pages + q.pages, p.files + q.files)
  }

  /** Every page the loop over one listing returns carries the stamp of a loadable file
      of that listing. */
  lemma {:induction false} LoadFolderStamped(f: Folder, files: seq<string>, load: string -> Option<seq<Page>>, dataDir: string)
    ensures forall k :: 0 <= k < |LoadFolder(f, files, load, dataDir).pages| ==>
      StampedFrom(f, files, load, dataDir, LoadFolder(f, files, load, dataDir).pages[k].meta)
    decreases |files|
  {
    if |files| > 0 {
      var pre := files[..|files| - 1];
      var file := files[|files| - 1];
      var p := LoadFolder(f, pre, load, dataDir);
      var r := LoadFolder(f, files, load, dataDir);
      LoadFolderStamped(f, pre, load, dataDir);
      forall k | 0 <= k < |r.pages|
        ensures StampedFrom(f, files, load, dataDir, r.pages[k].meta)
      {
        if k < |p.pages| {
          assert r.pages[k] == p.pages[k];
          assert StampedFrom(f, pre, load, dataDir, p.pages[k].meta);
          var j :| 0 <= j < |pre| && Loadable(f, pre[j], load, dataDir) && p.pages[k].meta == Stamp(f, pre[j]);
          assert files[j] == pre[j];
        } else {
          assert Loadable(f, file, load, dataDir) && r.pages[k].meta == Stamp(f, file);
        }
      }
    }
  }

  /** Each page the loop over the walk returns, at any index `k`, carries the stamp of a
      loadable file of some directory of the walk. */
  lemma {:induction false} LoadStamped(walk: seq<Folder>, load: string -> Option<seq<Page>>, dataDir: string, k: nat)
    requires k < |Load(walk, load, dataDir).pages|
    ensures StampedFromWalk(walk, load, dataDir, Load(walk, load, dataDir).pages[k].meta)
    decreases |walk|
  {
    var pre := walk[..|walk| - 1];
    var f := walk[|walk| - 1];
    var p := Load(pre, load, dataDir);
    var q := LoadFolder(f, f.files, load, dataDir);
    var m := Load(walk, load, dataDir).pages[k].meta;
    if k < |p.pages| {
      assert m == p.pages[k].meta;
      LoadStamped(pre, load, dataDir, k);
      StampedFromWalkPrefix(walk, load, dataDir, m);
    } else {
      assert m == q.pages[k - |p.pages|].meta;
      LoadFolderStamped(f, f.files, load, dataDir);
      StampedFromWalkLast(walk, load, dataDir, m);
    }
  }

  // ---------------------------------------------------------------------------
  // Batches.

  const BatchSize: nat := 50

  /** One call to the collection: the chunks and their identifiers. */
  datatype Batch = Batch(ids: seq<string>, chunks: seq<Page>)

  function PdfId(k: nat): string {
    "pdf_" + Str(k)
  }

  /** The batch starting at `start`: `splits[start:start+50]`, numbered from `start`. */
  function BatchAt(splits: seq<Page>, start: nat): (b: Batch)
    requires start < |splits|
    ensures 1 <= |b.chunks| <= BatchSize && |b.ids| == |b.chunks|
    ensures start + |b.chunks| == Min(start + BatchSize, |splits|)
    ensures b.chunks == splits[start..start + |b.chunks|]
    ensures forall j :: 0 <= j < |b.ids| ==> b.ids[j] == PdfId(start + j)
  {
    var end := Min(start + BatchSize, |splits|);
    Batch(seq(end - start, j requires 0 <= j < end - start => PdfId(start + j)), splits[start..end])
  }

  /** `for i in range(start, len(splits), 50)`. */
  function BatchesFrom(splits: seq<Page>, start: nat): seq<Batch>
    decreases |splits| - start
  {
    if start >= |splits| then []
    else [BatchAt(splits, start)] + BatchesFrom(splits, start + BatchSize)
  }

  function Batches(splits: seq<Page>): seq<Batch> {
    BatchesFrom(splits, 0)
  }

  function Chunks(bs: seq<Batch>): seq<Page> {
    if |bs| == 0 then [] else bs[0].chunks + Chunks(bs[1..])
  }

  function Ids(bs: seq<Batch>): seq<string> {
    if |bs| == 0 then [] else bs[0].ids + Ids(bs[1..])
  }

  /** `[PdfId(start), ..., PdfId(end - 1)]`. */
  function IdRange(start: nat, end: nat): (r: seq<string>)
    requires start <= end
    ensures |r| == end - start
    ensures forall k :: 0 <= k < |r| ==> r[k] == PdfId(start + k)
  {
    seq(end - start, k requires 0 <= k < end - start => PdfId(start + k))
  }

  /** The batches from `start` cover the rest of the splits in order. */
  lemma {:induction false} BatchesFromChunks(splits: seq<Page>, start: nat)
    requires start <= |splits|
    ensures Chunks(BatchesFrom(splits, start)) == splits[start..]
    decreases |splits| - start
  {
    if start < |splits| {
      var b := BatchAt(splits, start);
      var next := start + |b.chunks|;
      if next < |splits| {
        BatchesFromChunks(splits, next);
        assert splits[start..] == b.chunks + splits[next..];
      }
    }
  }

  /** The identifiers of the batches from `start` are numbered on from `start`. */
  lemma {:induction false} BatchesFromIds(splits: seq<Page>, start: nat)
    requires start <= |splits|
    ensures Ids(BatchesFrom(splits, start)) == IdRange(start, |splits|)
    decreases |splits| - start
  {
    if start < |splits| {
      var b := BatchAt(splits, start);
      var next := start + |b.chunks|;
      if next < |splits| {
        BatchesFromIds(splits, next);
        assert IdRange(start, |splits|) == b.ids + IdRange(next, |splits|);
      } else {
        assert IdRange(start, |splits|) == b.ids;
      }
    }
  }

  /** There are `ceil((n - start) / 50)` batches from `start`. */
  lemma {:induction false} BatchesFromCount(splits: seq<Page>, start: nat)
    requires start <= |splits|
    ensures |BatchesFrom(splits, start)| == (|splits| - start + BatchSize - 1) / BatchSize
    decreases |splits| - start
  {
    if start < |splits| {
      if start + BatchSize < |splits| {
        BatchesFromCount(splits, start + BatchSize);
      }
    }
  }

  /** Batches partition the splits in order, each holds between one and fifty chunks,
      and the identifiers are `pdf_0` ... `pdf_{n-1}`. */
  lemma BatchesPartition(splits: seq<Page>)
    ensures Chunks(Batches(splits)) == splits
    ensures Ids(Batches(splits)) == IdRange(0, |splits|)
    ensures forall k :: 0 <= k < |Batches(splits)| ==> 1 <= |Batches(splits)[k].chunks| <= BatchSize
  {
    BatchesFromChunks(splits, 0);
    BatchesFromIds(splits, 0);
    BatchSizes(splits, 0);
    assert splits[0..] == splits;
  }

  lemma {:induction false} BatchSizes(splits: seq<Page>, start: nat)
    ensures forall k :: 0 <= k < |BatchesFrom(splits, start)| ==>
      1 <= |BatchesFrom(splits, start)[k].chunks| <= BatchSize
    decreases |splits| - start
  {
    if start < |splits| {
      BatchSizes(splits, start + BatchSize);
    }
  }

  /** No identifier is used twice. */
  lemma IdsDistinct(splits: seq<Page>)
    ensures var ids := Ids(Batches(splits));
      forall a, b :: 0 <= a < b < |ids| ==> ids[a] != ids[b]
  {
    BatchesPartition(splits);
    var ids := Ids(Batches(splits));
    forall a, b | 0 <= a < b < |ids|
      ensures ids[a] != ids[b]
    {
      if ids[a] == ids[b] {
        PrefixedStrInjective("pdf_", a, b);
      }
    }
  }

  // ---------------------------------------------------------------------------
  // The announced batch count.

  /** The count the progress banner announces, as written: `n // 50 + 1`. */
  function TotalBatchesAsWritten(n: nat): nat {
    n / BatchSize + 1
  }

  /** The announced count is never short, but one too many whenever 50 divides the
      number of chunks: 50 chunks are announced as 2 batches and stored in 1. */
  lemma TotalBatchesAsWrittenOvercounts(splits: seq<Page>)
    ensures TotalBatchesAsWritten(|splits|) >= |Batches(splits)|
    ensures TotalBatchesAsWritten(|splits|) == |Batches(splits)| + 1 <==> |splits| % BatchSize == 0
    ensures TotalBatchesAsWritten(|splits|) == |Batches(splits)| <==> |splits| % BatchSize != 0
  {
    BatchesFromCount(splits, 0);
  }

  /** The count intended: `ceil(n / 50)`. */
  function TotalBatches(n: nat): (t: nat)
    ensures t * BatchSize >= n
    ensures t == 0 || (t - 1) * BatchSize < n
  {
    (n + BatchSize - 1) / BatchSize
  }

  /** The corrected count is exactly the number of batches stored. */
  lemma TotalBatchesExact(splits: seq<Page>)
    ensures TotalBatches(|splits|) == |Batches(splits)|
  {
    BatchesFromCount(splits, 0);
  }

  // ---------------------------------------------------------------------------
  // The run.

  /** The end of a run. */
  datatype Run =
    | NoFolder                       // the data folder does not exist
    | NoPdfs                         // no PDF could be read
    | Stored(announced: nat, batches: seq<Batch>)

  /** `main`: nothing is stored without the folder or without a readable PDF; otherwise
      the chunks the splitter makes of the loaded pages are stored batch by batch, after
      announcing `n // 50 + 1` batches for `n` chunks. */
  function Main(folderExists: bool, dataDir: string, walk: seq<Folder>, load: string -> Option<seq<Page>>,
                split: seq<Page> -> seq<Page>): (r: Run)
    ensures !folderExists ==> r == NoFolder
    ensures folderExists ==> (r == NoPdfs <==> Load(walk, load, dataDir).files == 0)
    ensures r.Stored? ==> r.announced >= |r.batches|
    ensures r.Stored? ==>
      var n := |split(Load(walk, load, dataDir).pages)|;
      r.announced == |r.batches| + (if n % BatchSize == 0 then 1 else 0)
    ensures r.Stored? ==>
      var splits := split(Load(walk, load, dataDir).pages);
      Chunks(r.batches) == splits && Ids(r.batches) == IdRange(0, |splits|)
  {
    if !folderExists then NoFolder
    else
      var loaded := Load(walk, load, dataDir);
      if loaded.files == 0 then NoPdfs
      else
        var splits := split(loaded.pages);
        TotalBatchesAsWrittenOvercounts(splits);
        BatchesPartition(splits);
        Stored(TotalBatchesAsWritten(|splits|), Batches(splits))
  }
}

=== FILE: pydict.dfy ===
/** Python's insertion-ordered `dict`: assigning to an existing key replaces its value
    in place, a new key is appended, and `values()` follows insertion order. */
module PyDict {
  import opened Common

  datatype Entry<K, V> = Entry(key: K, value: V)

  type Dict<K, V> = seq<Entry<K, V>>

  function Keys<K, V>(d: Dict<K, V>): (r: seq<K>)
    ensures |r| == |d|
    ensures forall i :: 0 <= i < |d| ==> r[i] == d[i].key
  {
    seq(|d|, i requires 0 <= i < |d| => d[i].key)
  }

  function Values<K, V>(d: Dict<K, V>): (r: seq<V>)
    ensures |r| == |d|
    ensures forall i :: 0 <= i < |d| ==> r[i] == d[i].value
  {
    seq(|d|, i requires 0 <= i < |d| => d[i].value)
  }

  ghost predicate UniqueKeys<K, V>(d: Dict<K, V>) {
    forall i, j :: 0 <= i < j < |d| ==> d[i].key != d[j].key
  }

  /** Index of the first occurrence of `x` in `s` (Python's `list.index`). */
  function Find<K(==)>(s: seq<K>, x: K): (i: nat)
    requires x in s
    ensures i < |s| && s[i] == x
    ensures forall j :: 0 <= j < i ==> s[j] != x
  {
    if s[0] == x then 0 else 1 + Find(s[1..], x)
  }

  lemma FindAppend<K>(s: seq<K>, t: seq<K>, x: K)
    requires x in s
    ensures Find(s + t, x) == Find(s, x)
  {
    var i := Find(s, x);
    assert (s + t)[i] == x;
    var j := Find(s + t, x);
    assert j <= i;
  }

  /** `d.get(k)`. */
  function Get<K(==), V>(d: Dict<K, V>, k: K): (r: Option<V>)
    ensures r.Some? <==> k in Keys(d)
  {
    if k in Keys(d) then Some(d[Find(Keys(d), k)].value) else None
  }

  /** In a dict without repeated keys, `Get` finds the one entry holding the key. */
  lemma GetAt<K, V>(d: Dict<K, V>, i: nat)
    requires UniqueKeys(d) && i < |d|
    ensures Get(d, d[i].key) == Some(d[i].value)
  {
    assert Keys(d)[i] == d[i].key;
  }

  /** `d[k] = v`. */
  function Put<K(==), V>(d: Dict<K, V>, k: K, v: V): (r: Dict<K, V>)
    ensures Keys(r) == if k in Keys(d) then Keys(d) else Keys(d) + [k]
    ensures Get(r, k) == Some(v)
  {
    if k in Keys(d) then
      var r := d[Find(Keys(d), k) := Entry(k, v)];
      assert Keys(r) == Keys(d);
      r
    else
      var r := d + [Entry(k, v)];
      assert Keys(r) == Keys(d) + [k];
      r
  }

  lemma PutOther<K, V>(d: Dict<K, V>, k: K, v: V, other: K)
    requires other != k
    ensures Get(Put(d, k, v), other) == Get(d, other)
  {
    if other in Keys(d) && k !in Keys(d) {
      FindAppend(Keys(d), [k], other);
    }
  }

  /** `if k not in d: d[k] = v`. */
  function PutIfAbsent<K(==), V>(d: Dict<K, V>, k: K, v: V): (r: Dict<K, V>)
    ensures Keys(r) == if k in Keys(d) then Keys(d) else Keys(d) + [k]
    ensures k in Keys(d) ==> Get(r, k) == Get(d, k)
    ensures k !in Keys(d) ==> Get(r, k) == Some(v)
  {
    if k in Keys(d) then d else Put(d, k, v)
  }

  lemma PutIfAbsentOther<K, V>(d: Dict<K, V>, k: K, v: V, other: K)
    requires other != k
    ensures Get(PutIfAbsent(d, k, v), other) == Get(d, other)
  {
    if k !in Keys(d) {
      PutOther(d, k, v, other);
    }
  }
}

=== FILE: ragas_eval.dfy ===
/** The answer-quality evaluation: it asks the server each reference question, reads the
    answer and the retrieved context back from the stream, and hands the four columns to
    the judge. */
module RagasEval {
  import opened Common
  import opened Text
  import opened Events

  /** A reference question and the answer a judge should expect. */
  datatype Golden = Golden(question: string, truth: string)

  /** The context recorded when the stream carried none. */
  const NoContext: seq<string> := ["Sin contexto recuperado."]

  /** What reading a reply has gathered so far: the answer text and the latest context. */
  datatype Reading = Reading(answer: string, context: seq<string>)

  /** One line of the reading loop: metadata replaces the context, content extends the
      answer, and anything else (including an undecodable line) changes nothing. */
  function Step(r: Reading, line: Line): Reading {
    match line
    case None => r
    case Some(e) =>
      match e
      case Metadata(_, _, ctx) => r.(context := ctx)
      case Content(delta) => r.(answer := r.answer + delta)
      case _ => r
  }

  /** The reading loop over a whole reply, from an empty answer and an empty context. */
  function Read(lines: seq<Line>): Reading {
    if |lines| == 0 then Reading("", []) else Step(Read(lines[..|lines| - 1]), lines[|lines| - 1])
  }

  /** Index of the last metadata line, if any. */
  function LastMetadata(lines: seq<Line>): (r: Option<nat>)
    ensures r.Some? ==> r.value < |lines| && lines[r.value].Some? && lines[r.value].value.Metadata?
    ensures r.Some? ==> forall i :: r.value < i < |lines| ==> !(lines[i].Some? && lines[i].value.Metadata?)
    ensures r.None? ==> forall i :: 0 <= i < |lines| ==> !(lines[i].Some? && lines[i].value.Metadata?)
  {
    if |lines| == 0 then None
    else
      var n := |lines| - 1;
      if lines[n].Some? && lines[n].value.Metadata? then Some(n)
      else
        match LastMetadata(lines[..n])
        case None => None
        case Some(i) => Some(i)
  }

  /** The context column's entry for a reply: the last metadata's context, with the
      fixed placeholder when that is empty or there was no metadata. */
  function Context(lines: seq<Line>): (c: seq<string>)
    ensures |c| > 0
  {
    var ctx := Read(lines).context;
    if |ctx| == 0 then NoContext else ctx
  }

  /** The reading loop builds the delta concatenation and keeps the context of the last
      metadata line. */
  lemma {:induction false} ReadSpec(lines: seq<Line>)
    ensures Read(lines).answer == Deltas(lines)
    ensures Read(lines).context == match LastMetadata(lines)
                                   case None => []
                                   case Some(i) => lines[i].value.ragasContext
    decreases |lines|
  {
    if |lines| > 0 {
      ReadSpec(lines[..|lines| - 1]);
    }
  }

  /** The recorded context is the last metadata's context, or the placeholder when the
      reply had no metadata or its last metadata carried an empty context. */
  lemma ContextOfLastMetadata(lines: seq<Line>)
    ensures Context(lines) == match LastMetadata(lines)
                              case None => NoContext
                              case Some(i) =>
                                if |lines[i].value.ragasContext| == 0 then NoContext
                                else lines[i].value.ragasContext
  {
    ReadSpec(lines);
  }

  predicate Answered(r: Response) {
    r.Http? && r.status == 200
  }

  /** The four columns handed to the judge. */
  datatype Dataset = Dataset(questions: seq<string>, answers: seq<string>, contexts: seq<seq<string>>, truths: seq<string>)

  /** Number of reference questions the server answered with 200. */
  function Count(golden: seq<Golden>, ask: string -> Response): (n: nat)
    ensures n <= |golden|
  {
    if |golden| == 0 then 0
    else Count(golden[..|golden| - 1], ask) + (if Answered(ask(golden[|golden| - 1].question)) then 1 else 0)
  }

  /** `obtener_respuestas_sistema`: a reply with another status, or a request that
      raised, adds to none of the columns; a 200 reply adds to all four. */
  function Collect(golden: seq<Golden>, ask: string -> Response): (d: Dataset)
    ensures |d.questions| == Count(golden, ask)
    ensures |d.answers| == |d.questions| && |d.contexts| == |d.questions| && |d.truths| == |d.questions|
  {
    if |golden| == 0 then Dataset([], [], [], [])
    else
      var d := Collect(golden[..|golden| - 1], ask);
      var g := golden[|golden| - 1];
      match ask(g.question)
      case Http(status, lines) =>
        if status == 200 then
          Dataset(d.questions + [g.question], d.answers + [Read(lines).answer],
                  d.contexts + [Context(lines)], d.truths + [g.truth])
        else d
      case Broken(_, _) => d
      case NoConnection(_) => d
  }

  /** Collecting more questions only extends the columns. */
  lemma {:induction false} CollectPrefix(golden: seq<Golden>, ask: string -> Response, m: nat)
    requires m <= |golden|
    ensures var a := Collect(golden[..m], ask);
      var b := Collect(golden, ask);
      && a.questions <= b.questions && a.answers <= b.answers
      && a.contexts <= b.contexts && a.truths <= b.truths
    decreases |golden| - m
  {
    if m < |golden| {
      var n := |golden| - 1;
      assert golden[..n][..m] == golden[..m];
      CollectPrefix(golden[..n], ask, m);
    } else {
      assert golden[..m] == golden;
    }
  }

  /** An answered question sits in every column at the same row: after the answered
      questions before it. */
  lemma CollectRow(golden: seq<Golden>, ask: string -> Response, j: nat)
    requires j < |golden| && Answered(ask(golden[j].question))
    ensures var k := Count(golden[..j], ask);
      var d := Collect(golden, ask);
      var lines := ask(golden[j].question).lines;
      && k < |d.questions|
      && d.questions[k] == golden[j].question
      && d.answers[k] == Deltas(lines)
      && d.contexts[k] == Context(lines)
      && d.truths[k] == golden[j].truth
  {
    var pre := golden[..j + 1];
    assert pre[..j] == golden[..j];
    ReadSpec(ask(golden[j].question).lines);
    CollectPrefix(golden, ask, j + 1);
  }

  /** What `main` does with the collected columns. */
  datatype Run = Aborted | Evaluated(data: Dataset, workers: nat)

  /** `main`: nothing is judged when no question was answered; the judge runs two
      workers for the groq provider and one otherwise. */
  function Main(golden: seq<Golden>, ask: string -> Response, provider: string): (r: Run)
    ensures r.Aborted? <==> Count(golden, ask) == 0
    ensures r.Evaluated? ==> (r.workers == 2 <==> Lower(provider) == "groq")
    ensures r.Evaluated? ==> r.workers >= 1 && r.data == Collect(golden, ask)
  {
    var d := Collect(golden, ask);
    if |d.questions| == 0 then Aborted
    else Evaluated(d, if Lower(provider) == "groq" then 2 else 1)
  }
}

=== FILE: ranking.dfy ===
/** Python's `sorted(..., key=..., reverse=True)` and the top-k truncations built on it. */
module Ranking {
  import opened Common

  /** An item paired with the score it is ranked by. */
  datatype Scored<T> = Scored(item: T, score: real)

  function ScoreOf<T>(x: Scored<T>): real {
    x.score
  }

  predicate SortedDesc<T>(s: seq<T>, key: T -> real) {
    forall i, j :: 0 <= i < j < |s| ==> key(s[i]) >= key(s[j])
  }

  /** The elements of `s` whose key equals `v`, in order: two elements of the same tier
      are the ties a stable sort must keep in their original order. */
  function Tier<T>(s: seq<T>, key: T -> real, v: real): seq<T> {
    if |s| == 0 then [] else (if key(s[0]) == v then [s[0]] else []) + Tier(s[1..], key, v)
  }

  ghost predicate DistinctBy<T, K>(s: seq<T>, f: T -> K) {
    forall i, j :: 0 <= i < j < |s| ==> f(s[i]) != f(s[j])
  }

  /** Places `x` before the first element it is not below; ties therefore come after `x`. */
  function Insert<T>(x: T, s: seq<T>, key: T -> real): (r: seq<T>)
    ensures |r| == |s| + 1
    ensures multiset(r) == multiset(s) + multiset{x}
  {
    if |s| == 0 || key(x) >= key(s[0]) then [x] + s
    else
      assert s == [s[0]] + s[1..];
      [s[0]] + Insert(x, s[1..], key)
  }

  lemma {:induction false} InsertSorted<T>(x: T, s: seq<T>, key: T -> real)
    requires SortedDesc(s, key)
    ensures SortedDesc(Insert(x, s, key), key)
    decreases |s|
  {
    if |s| > 0 && key(x) < key(s[0]) {
      var t := Insert(x, s[1..], key);
      InsertSorted(x, s[1..], key);
      forall j | 0 <= j < |t|
        ensures key(s[0]) >= key(t[j])
      {
        assert t[j] in multiset(t);
        if t[j] != x {
          assert t[j] in multiset(s[1..]);
          var k :| 0 <= k < |s[1..]| && s[1..][k] == t[j];
          assert s[k + 1] == t[j];
        }
      }
      var r := [s[0]] + t;
      forall i, j | 0 <= i < j < |r|
        ensures key(r[i]) >= key(r[j])
      {
        assert r[j] == t[j - 1];
        if i > 0 {
          assert r[i] == t[i - 1];
        }
      }
    }
  }

  /** Stable descending sort: insertion of each element into the sorted remainder. */
  function SortDesc<T>(s: seq<T>, key: T -> real): (r: seq<T>)
    ensures |r| == |s|
    ensures multiset(r) == multiset(s)
    ensures SortedDesc(r, key)
  {
    if |s| == 0 then []
    else
      assert s == [s[0]] + s[1..];
      InsertSorted(s[0], SortDesc(s[1..], key), key);
      Insert(s[0], SortDesc(s[1..], key), key)
  }

  lemma {:induction false} TierAppend<T>(a: seq<T>, b: seq<T>, key: T -> real, v: real)
    ensures Tier(a + b, key, v) == Tier(a, key, v) + Tier(b, key, v)
    decreases |a|
  {
    if |a| == 0 {
      assert a + b == b;
    } else {
      var h := if key(a[0]) == v then [a[0]] else [];
      calc {
        Tier(a + b, key, v);
        { assert (a + b)[0] == a[0]; assert (a + b)[1..] == a[1..] + b; }
        h + Tier(a[1..] + b, key, v);
        { TierAppend(a[1..], b, key, v); }
        h + (Tier(a[1..], key, v) + Tier(b, key, v));
        (h + Tier(a[1..], key, v)) + Tier(b, key, v);
        Tier(a, key, v) + Tier(b, key, v);
      }
    }
  }

  /** `Tier` of a list with a known head. */
  lemma TierCons<T>(x: T, s: seq<T>, key: T -> real, v: real)
    ensures Tier([x] + s, key, v) == (if key(x) == v then [x] else []) + Tier(s, key, v)
  {
    assert ([x] + s)[1..] == s;
  }

  lemma {:induction false} InsertTier<T>(x: T, s: seq<T>, key: T -> real, v: real)
    ensures Tier(Insert(x, s, key), key, v) == Tier([x] + s, key, v)
    decreases |s|
  {
    if |s| > 0 && key(x) < key(s[0]) {
      var t := Insert(x, s[1..], key);
      var a := if key(s[0]) == v then [s[0]] else [];
      var b := if key(x) == v then [x] else [];
      assert a == [] || b == [];
      assert Insert(x, s, key) == [s[0]] + t;
      assert [s[0]] + s[1..] == s;
      TierCons(s[0], t, key, v);
      InsertTier(x, s[1..], key, v);
      TierCons(x, s[1..], key, v);
      TierCons(s[0], s[1..], key, v);
      TierCons(x, s, key, v);
      SwapSmall(a, b, Tier(s[1..], key, v));
    }
  }

  /** Two lists of which one is empty commute in front of a third. */
  lemma SwapSmall<T>(a: seq<T>, b: seq<T>, c: seq<T>)
    requires a == [] || b == []
    ensures a + (b + c) == b + (a + c)
  {
    if a == [] {
      assert a + (b + c) == b + c == b + (a + c);
    } else {
      assert a + (b + c) == a + c == b + (a + c);
    }
  }

  /** Stability: within every tier of equal keys the sorted output keeps the input order. */
  lemma {:induction false} SortStable<T>(s: seq<T>, key: T -> real, v: real)
    ensures Tier(SortDesc(s, key), key, v) == Tier(s, key, v)
    decreases |s|
  {
    if |s| > 0 {
      SortStable(s[1..], key, v);
      InsertTier(s[0], SortDesc(s[1..], key), key, v);
      TierAppend([s[0]], SortDesc(s[1..], key), key, v);
      TierAppend([s[0]], s[1..], key, v);
      assert s == [s[0]] + s[1..];
    }
  }

  lemma {:induction false} InsertDistinct<T, K>(x: T, s: seq<T>, key: T -> real, f: T -> K)
    requires DistinctBy(s, f)
    requires forall i :: 0 <= i < |s| ==> f(s[i]) != f(x)
    ensures DistinctBy(Insert(x, s, key), f)
    decreases |s|
  {
    if |s| > 0 && key(x) < key(s[0]) {
      var t := Insert(x, s[1..], key);
      InsertDistinct(x, s[1..], key, f);
      forall j | 0 <= j < |t|
        ensures f(s[0]) != f(t[j])
      {
        assert t[j] in multiset(t);
        assert t[j] == x || t[j] in s[1..];
      }
    }
  }

  /** Sorting keeps a list free of repeated keys under any identity function `f`. */
  lemma {:induction false} SortKeepsDistinct<T, K>(s: seq<T>, key: T -> real, f: T -> K)
    requires DistinctBy(s, f)
    ensures DistinctBy(SortDesc(s, key), f)
    decreases |s|
  {
    if |s| > 0 {
      var t := SortDesc(s[1..], key);
      SortKeepsDistinct(s[1..], key, f);
      forall i | 0 <= i < |t|
        ensures f(t[i]) != f(s[0])
      {
        assert t[i] in multiset(s[1..]);
        var k :| 0 <= k < |s[1..]| && s[1..][k] == t[i];
        assert s[k + 1] == t[i];
      }
      InsertDistinct(s[0], t, key, f);
    }
  }

  /** Python's `sorted(s, key=key, reverse=True)[:k]`. */
  function TopK<T>(s: seq<T>, key: T -> real, k: nat): (r: seq<T>)
    ensures |r| == Min(k, |s|)
    ensures SortedDesc(r, key)
    ensures multiset(r) <= multiset(s)
  {
    var t := SortDesc(s, key);
    assert t == Take(t, k) + t[Min(k, |t|)..];
    Take(t, k)
  }

  /** Every chosen element comes from the input. */
  lemma TopKFrom<T>(s: seq<T>, key: T -> real, k: nat, i: nat)
    requires i < |TopK(s, key, k)|
    ensures TopK(s, key, k)[i] in s
  {
    var r := TopK(s, key, k);
    assert r[i] in multiset(r);
  }

  /** An input element is chosen, or `k` elements at least as good were chosen instead. */
  lemma TopKBest<T>(s: seq<T>, key: T -> real, k: nat, x: T)
    requires x in s
    ensures var r := TopK(s, key, k);
      x in r || (|r| == k && forall i :: 0 <= i < |r| ==> key(x) <= key(r[i]))
  {
    var t := SortDesc(s, key);
    var r := TopK(s, key, k);
    assert r == Take(t, k);
    if x !in r {
      assert x in multiset(t);
      var p :| 0 <= p < |t| && t[p] == x;
      assert forall q :: 0 <= q < |r| ==> r[q] == t[q];
      assert p >= |r|;
      assert |r| == k;
      forall i | 0 <= i < |r|
        ensures key(x) <= key(r[i])
      {
        assert r[i] == t[i];
      }
    }
  }

  /** Python's `zip(items, scores)`: pairs up to the shorter length. */
  function Zip<T>(items: seq<T>, scores: seq<real>): (r: seq<Scored<T>>)
    ensures |r| == Min(|items|, |scores|)
    ensures forall i :: 0 <= i < |r| ==> r[i] == Scored(items[i], scores[i])
  {
    seq(Min(|items|, |scores|), i requires 0 <= i < Min(|items|, |scores|) => Scored(items[i], scores[i]))
  }
}

=== FILE: retrieval_eval.dfy ===
/** The retrieval evaluation: for each reference question it reads the sources the server
    reports in its metadata and checks whether the expected document is among them. */
module RetrievalEval {
  import opened Common
  import opened Text
  import opened Events

  /** The sources one metadata event reports: its text sources, then its image file
      names. A file name the server sent as `null` stays `None`. */
  function MetadataSources(e: Event): (r: seq<Option<string>>)
    requires e.Metadata?
    ensures |r| == |e.sources| + |e.images|
    ensures forall k :: 0 <= k < |e.sources| ==> r[k] == Some(e.sources[k])
    ensures forall k :: |e.sources| <= k < |r| ==> r[k] == e.images[k - |e.sources|].filename
  {
    seq(|e.sources|, k requires 0 <= k < |e.sources| => Some(e.sources[k]))
      + seq(|e.images|, k requires 0 <= k < |e.images| => e.images[k].filename)
  }

  /** `consultar_fuentes_api`: the sources of the first metadata line; none for another
      status, a raised request, or a stream without metadata. */
  function ReportedSources(resp: Response): seq<Option<string>> {
    match resp
    case NoConnection(_) => []
    case Http(status, lines) =>
      if status != 200 then [] else FirstSources(lines)
    case Broken(lines, _) => FirstSources(lines)
  }

  /** The sources of the first metadata line, or none. */
  function FirstSources(lines: seq<Line>): seq<Option<string>> {
    match FirstMetadata(lines)
    case None => []
    case Some(i) => MetadataSources(lines[i].value)
  }

  /** A body that breaks after its first metadata line reports what the whole body would:
      the loop returns on that line. Without one, the exception is caught and nothing is
      reported. */
  lemma ReportedSourcesBroken(lines: seq<Line>, rest: seq<Line>, error: string)
    ensures FirstMetadata(lines).Some? ==>
      ReportedSources(Broken(lines, error)) == ReportedSources(Http(200, lines + rest))
    ensures FirstMetadata(lines).None? ==> ReportedSources(Broken(lines, error)) == []
  {
    if FirstMetadata(lines).Some? {
      ReportedSourcesIgnoresRest(200, lines, rest);
    }
  }

  /** A reply with another status, a raised request, or a stream without metadata
      reports no sources. */
  lemma ReportedSourcesEmpty(resp: Response)
    requires resp.NoConnection? || (resp.Http? && resp.status != 200) || FirstMetadata(resp.lines).None?
    ensures ReportedSources(resp) == []
  {
  }

  /** Only the first metadata line matters: lines after it are never read. */
  lemma ReportedSourcesIgnoresRest(status: nat, lines: seq<Line>, rest: seq<Line>)
    requires FirstMetadata(lines).Some?
    ensures ReportedSources(Http(status, lines + rest)) == ReportedSources(Http(status, lines))
  {
    var i := FirstMetadata(lines).value;
    var j := FirstMetadata(lines + rest);
    assert (lines + rest)[i] == lines[i];
    assert j.Some? && j.value <= i;
    assert forall k :: 0 <= k < i ==> (lines + rest)[k] == lines[k];
  }

  /** Case-insensitive containment of the expected name in one source. */
  predicate Matches(expected: string, source: string) {
    Contains(Lower(source), Lower(expected))
  }

  /** The test ignores case on both sides: lowering either string first changes nothing. */
  lemma MatchesIgnoresCase(expected: string, source: string)
    ensures Matches(expected, source) <==> Matches(Lower(expected), Lower(source))
  {
    LowerIdempotent(expected);
    LowerIdempotent(source);
  }

  /** A case's verdict; `Crash` is the `AttributeError` of lower-casing a `None` source. */
  datatype Verdict = Hit | Miss | Crash

  /** The lazy `any(...)` of the hit test: sources are examined in order and the first
      match stops the scan, so a `None` after it is never reached. */
  function HitTest(expected: string, sources: seq<Option<string>>): (r: Verdict)
    ensures (forall i :: 0 <= i < |sources| ==> sources[i].Some?) ==>
      (r == Hit <==> exists i :: 0 <= i < |sources| && Matches(expected, sources[i].value))
    ensures (forall i :: 0 <= i < |sources| ==> sources[i].Some?) ==> r != Crash
    ensures r == Hit ==> exists i :: 0 <= i < |sources| && sources[i].Some? && Matches(expected, sources[i].value)
    ensures r == Crash ==> exists i :: 0 <= i < |sources| && sources[i].None?
  {
    if |sources| == 0 then Miss
    else
      match sources[0]
      case None => Crash
      case Some(s) =>
        if Matches(expected, s) then Hit
        else
          var r := HitTest(expected, sources[1..]);
          assert forall i :: 1 <= i < |sources| ==> sources[i] == sources[1..][i - 1];
          r
  }

  /** A match before the first `None` decides the case as a hit. */
  lemma {:induction false} HitBeforeNone(expected: string, sources: seq<Option<string>>, i: nat)
    requires i < |sources| && sources[i].Some? && Matches(expected, sources[i].value)
    requires forall k :: 0 <= k < i ==> sources[k].Some?
    ensures HitTest(expected, sources) == Hit
    decreases i
  {
    if i > 0 && !Matches(expected, sources[0].value) {
      HitBeforeNone(expected, sources[1..], i - 1);
    }
  }

  /** `", ".join(sources[:3])`; `None` when one of those three is `None`. */
  function TopThree(sources: seq<Option<string>>): (r: Option<string>)
    ensures r.Some? <==> forall i :: 0 <= i < Min(3, |sources|) ==> sources[i].Some?
  {
    var top := Take(sources, 3);
    if forall i :: 0 <= i < |top| ==> top[i].Some? then
      Some(Join(seq(|top|, i requires 0 <= i < |top| => top[i].value), ", "))
    else None
  }

  /** A reference case: the question and the file expected among its sources. */
  datatype Case = Case(question: string, expected: string)

  /** One row of the report. */
  datatype Row = Row(question: string, expected: string, found: bool, total: nat, top: string)

  /** The hit rate: hits over cases, or 0 without cases. */
  function HitRate(hits: nat, total: nat): (r: real)
    requires hits <= total
    ensures 0.0 <= r <= 1.0
    ensures total > 0 ==> r * (total as real) == hits as real
    ensures total == 0 ==> r == 0.0
  {
    if total > 0 then (hits as real) / (total as real) else 0.0
  }

  /** Whether a case counts as a hit. */
  function Found(c: Case, ask: string -> Response): bool {
    HitTest(c.expected, ReportedSources(ask(c.question))) == Hit
  }

  /** Whether a case raises: its hit test reaches a `None` source, or one of its first
      three sources is `None`. */
  predicate Crashes(c: Case, ask: string -> Response) {
    var sources := ReportedSources(ask(c.question));
    HitTest(c.expected, sources) == Crash || TopThree(sources).None?
  }

  /** One case of the loop: its report row, or `None` when the hit test or the top-three
      column raised. */
  function Judge(c: Case, ask: string -> Response): (r: Option<Row>)
    ensures r.None? <==> Crashes(c, ask)
    ensures r.Some? ==> r.value.found == Found(c, ask)
    ensures r.Some? ==> r.value.total == |ReportedSources(ask(c.question))|
  {
    var sources := ReportedSources(ask(c.question));
    var verdict := HitTest(c.expected, sources);
    var top := TopThree(sources);
    if verdict == Crash || top.None? then None
    else Some(Row(c.question, c.expected, verdict == Hit, |sources|, top.value))
  }

  /** Number of rows marked as hits. */
  function CountHits(rows: seq<Row>): (n: nat)
    ensures n <= |rows|
  {
    if |rows| == 0 then 0 else CountHits(rows[..|rows| - 1]) + (if rows[|rows| - 1].found then 1 else 0)
  }

  /** `evaluar_golden_set`, run with `judge` as `c => Judge(c, ask)`: the report rows
      and the hit count. `completed` is false when a case raised and ended the run. */
  method Evaluate(cases: seq<Case>, judge: Case -> Option<Row>) returns (completed: bool, rows: seq<Row>, hits: nat)
    ensures completed <==> forall i :: 0 <= i < |cases| ==> judge(cases[i]).Some?
    ensures completed ==> |rows| == |cases| && hits == CountHits(rows) && hits <= |cases|
    ensures completed ==> forall i :: 0 <= i < |cases| ==> judge(cases[i]) == Some(rows[i])
  {
    rows := [];
    hits := 0;
    var i := 0;
    while i < |cases|
      invariant 0 <= i <= |cases|
      invariant |rows| == i
      invariant forall k :: 0 <= k < i ==> judge(cases[k]) == Some(rows[k])
      invariant hits == CountHits(rows)
    {
      var row := judge(cases[i]);
      if row.None? {
        return false, rows, hits;
      }
      assert (rows + [row.value])[..i] == rows;
      if row.value.found {
        hits := hits + 1;
      }
      rows := rows + [row.value];
      i := i + 1;
    }
    completed := true;
  }

  /** The hit count of a completed run, whose rows carry `Judge`'s verdicts, counts
      exactly the cases whose hit test matched. */
  lemma {:induction false} CountHitsFound(cases: seq<Case>, ask: string -> Response, rows: seq<Row>)
    requires |rows| == |cases|
    requires forall i :: 0 <= i < |cases| ==> rows[i].found == Found(cases[i], ask)
    ensures CountHits(rows) == Hits(cases, ask)
    decreases |cases|
  {
    if |cases| > 0 {
      var n := |cases| - 1;
      CountHitsFound(cases[..n], ask, rows[..n]);
    }
  }

  /** Number of hits among the cases. */
  function Hits(cases: seq<Case>, ask: string -> Response): (n: nat)
    ensures n <= |cases|
  {
    if |cases| == 0 then 0
    else Hits(cases[..|cases| - 1], ask) + (if Found(cases[|cases| - 1], ask) then 1 else 0)
  }
}

=== FILE: rewrite.dfy ===
/** The contextual query rewrite: the last turns of the conversation go to a language
    model, whose answer replaces the query only when it is usable. */
module QueryRewrite {
  import opened Common
  import opened Text

  /** A chat turn as the client sends it. */
  datatype Message = Message(role: string, content: string)

  /** How many of the latest turns the rewrite prompt shows. */
  const RecentTurns: nat := 4

  /** `history[-4:]`. */
  function RecentHistory(history: seq<Message>): (r: seq<Message>)
    ensures |r| == Min(RecentTurns, |history|)
    ensures r == history[|history| - |r|..]
  {
    if |history| <= RecentTurns then history else history[|history| - RecentTurns..]
  }

  function ChatLine(m: Message): string {
    m.role + ": " + m.content
  }

  function ChatLines(history: seq<Message>): (r: seq<string>)
    ensures |r| == |history|
    ensures forall i :: 0 <= i < |history| ==> r[i] == ChatLine(history[i])
  {
    seq(|history|, i requires 0 <= i < |history| => ChatLine(history[i]))
  }

  /** The user part of the rewrite request. */
  function RewritePrompt(query: string, history: seq<Message>): string {
    "HISTORIAL:\n" + Join(ChatLines(RecentHistory(history)), "\n") + "\nUSUARIO: " + query + "\nQUERY:"
  }

  /** Turns older than the last four never reach the rewrite prompt. */
  lemma PromptIgnoresOlder(query: string, older: seq<Message>, history: seq<Message>)
    requires |history| >= RecentTurns
    ensures RewritePrompt(query, older + history) == RewritePrompt(query, history)
  {
    var h := older + history;
    assert h[|h| - RecentTurns..] == history[|history| - RecentTurns..];
  }

  /** `reescribir_consulta_contextual`, with the model's reply as input: `None` when the
      call raised (including a reply without content), otherwise the raw text. The
      stripped reply replaces the query when it has at least two characters. */
  function Rewrite(query: string, reply: Option<string>): (r: string)
    ensures reply.None? ==> r == query
    ensures reply.Some? && |Strip(reply.value)| >= 2 ==> r == Strip(reply.value)
    ensures reply.Some? && |Strip(reply.value)| < 2 ==> r == query
  {
    match reply
    case None => query
    case Some(text) =>
      var rewritten := Strip(text);
      if |rewritten| < 2 then query else rewritten
  }

  /** A result different from the query is a usable rewrite: at least two characters,
      no surrounding whitespace, unchanged by stripping again. */
  lemma RewriteChanged(query: string, reply: Option<string>)
    requires Rewrite(query, reply) != query
    ensures reply.Some?
    ensures var r := Rewrite(query, reply);
      |r| >= 2 && !IsSpace(r[0]) && !IsSpace(r[|r| - 1]) && Strip(r) == r
  {
    StripIdempotent(reply.value);
  }

  /** Surrounding whitespace in the model's reply never matters. */
  lemma RewriteIgnoresPadding(query: string, text: string)
    ensures Rewrite(query, Some(Strip(text))) == Rewrite(query, Some(text))
  {
    StripIdempotent(text);
  }
}

=== FILE: server.dfy ===
/** The live server's `/ask` endpoint and the event stream it produces. Every outside
    service is an input: the rewriting model, the two stores' answers, the reranker and
    the answering model, which sees the assembled messages. */
module Server {
  import opened Common
  import opened Text
  import opened Decimal
  import opened Ranking
  import opened Documents
  import opened Fusion
  import opened Evidence
  import opened Events
  import opened QueryRewrite
  import opened Assembly

  /** The answering model's stream: the delta text of each chunk (empty for a chunk
      without content), then the text of the exception that ended it, if one did. */
  datatype Generation = Generation(chunks: seq<string>, failure: Option<string>)

  /** The outside world during one request. Each store is searched with the rewritten
      query and answers `None` when it is missing or raised. The reranker maps the query
      and the candidate texts to logits, and the image scorer to raw confidence
      percentages; either answers `None` when the call raised, which nothing catches. */
  datatype World = World(
    rewriter: string -> Option<string>,
    textVector: string -> Option<QueryResult>,
    textBm25: string -> Option<Bm25Answer>,
    imageVector: string -> Option<QueryResult>,
    imageBm25: string -> Option<Bm25Answer>,
    rerank: (string, seq<string>) -> Option<seq<real>>,
    imageConfidence: (string, seq<string>) -> Option<seq<real>>,
    llm: seq<Outgoing> -> Generation)

  function Docs(pool: seq<Fused>): (r: seq<string>)
    ensures |r| == |pool|
    ensures forall i :: 0 <= i < |pool| ==> r[i] == pool[i].doc
  {
    Map(pool, (x: Fused) => x.doc)
  }

  /** The fused text candidates the two text stores return for the search query. */
  function TextFused(search: string, w: World): seq<Fused> {
    Fuse([VectorCandidates(w.textVector(search)), Bm25List(w.textBm25(search))])
  }

  /** The fused image candidates the two image stores return for the search query. */
  function ImageFused(search: string, w: World): seq<Fused> {
    Fuse([VectorCandidates(w.imageVector(search)), Bm25List(w.imageBm25(search))])
  }

  /** The scores of a pool: no call and no scores for an empty pool, else the call's
      answer for the original query, `None` when it raised. */
  function ScoresFor(score: (string, seq<string>) -> Option<seq<real>>, query: string, pool: seq<Fused>)
    : (r: Option<seq<real>>)
    ensures |pool| == 0 ==> r == Some([])
  {
    if |pool| == 0 then Some([]) else score(query, Docs(pool))
  }

  /** Where a raising reranker call ended the request. */
  datatype Cut = TextRerankRaised | ImageRerankRaised

  /** The outcome of the retrieval half of the request. */
  datatype Retrieved = Retrieved(
    searchQuery: string,
    textPool: seq<Fused>,
    finalText: seq<Scored<Fused>>,
    imagePool: seq<Fused>,
    finalImages: seq<Scored<Fused>>,
    cut: Option<Cut>)

  /** The retrieval half: rewrite, search both stores of each kind with the rewritten
      query, fuse, pool, and rerank with the original query. A raising text reranker
      stops before the image search; a raising image scorer stops before assembly. */
  function Retrieve(query: string, history: seq<Message>, w: World): (r: Retrieved)
    ensures r.searchQuery == Rewrite(query, w.rewriter(RewritePrompt(query, history)))
    ensures r.searchQuery == query || |r.searchQuery| >= 2
    ensures r.textPool == Take(TextFused(r.searchQuery, w), TextPool)
    ensures r.cut == Some(TextRerankRaised) <==> ScoresFor(w.rerank, query, r.textPool).None?
    ensures r.cut == Some(TextRerankRaised) ==> r.finalText == [] && r.imagePool == []
    ensures r.cut != Some(TextRerankRaised) ==>
      && r.finalText == SelectText(TextFused(r.searchQuery, w), ScoresFor(w.rerank, query, r.textPool).value)
      && r.imagePool == Take(ImageFused(r.searchQuery, w), ImagePool)
      && (r.cut == Some(ImageRerankRaised) <==> ScoresFor(w.imageConfidence, query, r.imagePool).None?)
    ensures r.cut.Some? ==> r.finalImages == []
    ensures r.cut.None? ==>
      r.finalImages == SelectImages(ImageFused(r.searchQuery, w), ScoresFor(w.imageConfidence, query, r.imagePool).value)
  {
    var search := Rewrite(query, w.rewriter(RewritePrompt(query, history)));
    Rerank(query, search, TextFused(search, w), ImageFused(search, w), w.rerank, w.imageConfidence)
  }

  /** The reranking half of the retrieval, from the fused candidates of each kind. */
  function Rerank(query: string, search: string, textFused: seq<Fused>, imageFused: seq<Fused>,
                  rerank: (string, seq<string>) -> Option<seq<real>>,
                  imageConfidence: (string, seq<string>) -> Option<seq<real>>): Retrieved
  {
    var textPool := Take(textFused, TextPool);
    var scores := ScoresFor(rerank, query, textPool);
    var imagePool := if scores.None? then [] else Take(imageFused, ImagePool);
    var raws := if scores.None? then None else ScoresFor(imageConfidence, query, imagePool);
    Retrieved(
      search,
      textPool,
      if scores.Some? then SelectText(textFused, scores.value) else [],
      imagePool,
      if raws.Some? then SelectImages(imageFused, raws.value) else [],
      if scores.None? then Some(TextRerankRaised) else if raws.None? then Some(ImageRerankRaised) else None)
  }

  /** Only the stores' answers to the rewritten query matter: two worlds that rewrite the
      same way and answer that query alike retrieve alike, whatever they would answer
      to the original query. */
  lemma RetrieveSearchesRewritten(query: string, history: seq<Message>, w1: World, w2: World)
    requires w1.rewriter(RewritePrompt(query, history)) == w2.rewriter(RewritePrompt(query, history))
    requires var search := Rewrite(query, w1.rewriter(RewritePrompt(query, history)));
      && w1.textVector(search) == w2.textVector(search)
      && w1.textBm25(search) == w2.textBm25(search)
      && w1.imageVector(search) == w2.imageVector(search)
      && w1.imageBm25(search) == w2.imageBm25(search)
    requires w1.rerank == w2.rerank && w1.imageConfidence == w2.imageConfidence
    ensures Retrieve(query, history, w1) == Retrieve(query, history, w2)
  {
    var search := Rewrite(query, w1.rewriter(RewritePrompt(query, history)));
    assert search == Rewrite(query, w2.rewriter(RewritePrompt(query, history)));
    assert TextFused(search, w1) == TextFused(search, w2);
    assert ImageFused(search, w1) == ImageFused(search, w2);
  }

  /** The progress message just before the text reranker is called. */
  function RerankingLog(n: nat): Event {
    Log("Reordenando " + Str(n) + " fragmentos de texto...")
  }

  /** The progress message just before the image scorer is called. */
  function EvaluatingLog(n: nat): Event {
    Log("Evaluando " + Str(n) + " imagenes candidatas...")
  }

  /** The progress messages of the text stage: the query, its rewrite if it changed, the
      text search, and the reranking announcement when the pool is not empty. */
  function TextStageLogs(query: string, r: Retrieved): (evs: seq<Event>)
    ensures |evs| >= 2 && forall i :: 0 <= i < |evs| ==> evs[i].Log?
    ensures |r.textPool| > 0 ==> evs[|evs| - 1] == RerankingLog(|r.textPool|)
  {
    [Log("Analizando consulta: '" + query + "'")]
    + (if r.searchQuery != query then [Log("Reformulado: '" + r.searchQuery + "'")] else [])
    + [Log("Buscando en documentos PDF...")]
    + (if |r.textPool| > 0 then [RerankingLog(|r.textPool|)] else [])
  }

  /** The progress messages of the image stage, which a raising text reranker never
      reaches: the image search, then the scoring announcement and the outcome when the
      pool is not empty. */
  function ImageStageLogs(r: Retrieved): (evs: seq<Event>)
    ensures forall i :: 0 <= i < |evs| ==> evs[i].Log?
    ensures r.cut == Some(TextRerankRaised) <==> evs == []
    ensures r.cut == Some(ImageRerankRaised) && |r.imagePool| > 0 ==> evs[|evs| - 1] == EvaluatingLog(|r.imagePool|)
  {
    if r.cut == Some(TextRerankRaised) then []
    else if |r.imagePool| == 0 then [Log("Buscando en diapositivas e imagenes...")]
    else
      [Log("Buscando en diapositivas e imagenes..."), EvaluatingLog(|r.imagePool|)]
      + (if r.cut.Some? then []
         else if |r.finalImages| > 0
         then [Log("Recuperadas " + Str(|r.finalImages|) + " imagenes (filtrado en Front).")]
         else [Log("Ninguna imagen tiene sentido semantico minimo.")])
  }

  /** The progress messages emitted before the metadata event, or before the raising
      reranker call that ended the request. */
  function RetrievalLogs(query: string, r: Retrieved): (evs: seq<Event>)
    ensures |evs| >= 2 && forall i :: 0 <= i < |evs| ==> evs[i].Log?
    ensures r.cut == Some(TextRerankRaised) && |r.textPool| > 0 ==> evs[|evs| - 1] == RerankingLog(|r.textPool|)
    ensures r.cut == Some(ImageRerankRaised) && |r.imagePool| > 0 ==> evs[|evs| - 1] == EvaluatingLog(|r.imagePool|)
  {
    var t := TextStageLogs(query, r);
    var m := ImageStageLogs(r);
    assert forall i :: 0 <= i < |t| ==> (t + m)[i] == t[i];
    assert forall i :: 0 <= i < |m| ==> (t + m)[|t| + i] == m[i];
    t + m
  }

  function MetadataEvent(r: Retrieved): (e: Event)
    ensures e.Metadata?
  {
    Metadata(TextSources(r.finalText), ImageRefs(r.finalImages), RagasContext(r.finalText, r.finalImages))
  }

  function Prompt(persona: string, r: Retrieved): SystemPrompt {
    var refs := ImageRefs(r.finalImages);
    SystemPrompt(PersonaAsWritten(persona), VisualFor(refs), ContextText(ContextLines(r.finalText, r.finalImages)))
  }

  /** Whatever persona the client names, the live prompt is ArIA's. */
  lemma PromptIsAlwaysArIA(persona: string, r: Retrieved)
    ensures Prompt(persona, r).persona == ArIA
  {
    PersonaAsWrittenIsAlwaysArIA(persona);
  }

  /** The content events: one per chunk that carries text, in the provider's order. */
  function ContentEvents(chunks: seq<string>): (evs: seq<Event>)
    ensures forall i :: 0 <= i < |evs| ==> evs[i].Content? && |evs[i].delta| > 0
  {
    if |chunks| == 0 then []
    else
      var c := chunks[|chunks| - 1];
      ContentEvents(chunks[..|chunks| - 1]) + (if |c| > 0 then [Content(c)] else [])
  }

  /** Exactly one content event per chunk that carries text, in order, each carrying its
      chunk: chunks are neither merged nor split. */
  lemma {:induction false} ContentEventsPerChunk(chunks: seq<string>)
    ensures ContentEvents(chunks) == Map(Filter(chunks, (c: string) => |c| > 0), (c: string) => Content(c))
    decreases |chunks|
  {
    if |chunks| > 0 {
      ContentEventsPerChunk(chunks[..|chunks| - 1]);
    }
  }

  /** The chunks' text run together. */
  function Concat(chunks: seq<string>): string {
    if |chunks| == 0 then "" else Concat(chunks[..|chunks| - 1]) + chunks[|chunks| - 1]
  }

  lemma {:induction false} ContentEventsCarryText(chunks: seq<string>)
    ensures Deltas(Encode(ContentEvents(chunks))) == Concat(chunks)
    decreases |chunks|
  {
    if |chunks| > 0 {
      var p := chunks[..|chunks| - 1];
      var c := chunks[|chunks| - 1];
      var tail: seq<Event> := if |c| > 0 then [Content(c)] else [];
      ContentEventsCarryText(p);
      assert Encode(ContentEvents(p) + tail) == Encode(ContentEvents(p)) + Encode(tail);
      DeltasAppend(Encode(ContentEvents(p)), Encode(tail));
      if |c| > 0 {
        assert Encode(tail) == [] + [Some(Content(c))];
      } else {
        assert Encode(tail) == [];
      }
    }
  }

  const QuotaMessage: string := "⏳"
    + " **Límite de servicio alcanzado:** El modelo está saturado temporalmente. Por favor, espera 30 minutos antes de volver a preguntar."

  /** The terminal event for an exception raised by the answering model. */
  function ErrorEvent(failure: string): (e: Event)
    ensures e.Error?
    ensures e.message == QuotaMessage <==> Contains(failure, "429")
  {
    if Contains(failure, "429") then Error(QuotaMessage)
    else
      assert QuotaMessage[0] != ("Error técnico: " + failure)[0];
      Error("Error técnico: " + failure)
  }

  const Generating: string := "Generando respuesta con IA..."

  /** The stream from its parts: progress logs, the metadata event, the announcement of
      generation, the content events, and the error event if the model raised. */
  function Assemble(logs: seq<Event>, meta: Event, g: Generation): seq<Event> {
    logs + [meta, Log(Generating)] + ContentEvents(g.chunks)
      + (if g.failure.Some? then [ErrorEvent(g.failure.value)] else [])
  }

  /** The events of a request whose retrieval came out as `r`: a raising reranker call
      ends the generator after the progress messages, with neither metadata nor an error
      event. */
  function Respond(query: string, history: seq<Message>, persona: string, r: Retrieved, w: World): seq<Event> {
    var logs := RetrievalLogs(query, r);
    if r.cut.Some? then logs
    else Assemble(logs, MetadataEvent(r), w.llm(LlmMessages(Prompt(persona, r), history, query)))
  }

  /** `generate_rag_stream`. */
  function Stream(query: string, history: seq<Message>, persona: string, w: World): seq<Event> {
    Respond(query, history, persona, Retrieve(query, history, w), w)
  }

  /** The promised order of a stream: only progress logs before the one metadata event,
      content only after it, and an error only as the last event, present exactly when
      `failed`. */
  ghost predicate WellOrdered(evs: seq<Event>, failed: bool) {
    var first := FirstMetadata(Encode(evs));
    && first.Some?
    && (forall i :: 0 <= i < first.value ==> evs[i].Log?)
    && (forall i :: first.value < i < |evs| ==> !evs[i].Metadata?)
    && (forall i :: 0 <= i < |evs| && evs[i].Content? ==> first.value < i)
    && (forall i :: 0 <= i < |evs| && evs[i].Error? ==> i == |evs| - 1)
    && (evs[|evs| - 1].Error? <==> failed)
  }

  lemma FirstMetadataAt(lines: seq<Line>, m: nat)
    requires m < |lines| && lines[m].Some? && lines[m].value.Metadata?
    requires forall i :: 0 <= i < m ==> !(lines[i].Some? && lines[i].value.Metadata?)
    ensures FirstMetadata(lines) == Some(m)
  {
  }

  /** Any assembled stream is well ordered. */
  lemma {:induction false} AssembleOrder(logs: seq<Event>, meta: Event, g: Generation)
    requires forall i :: 0 <= i < |logs| ==> logs[i].Log?
    requires meta.Metadata?
    ensures WellOrdered(Assemble(logs, meta, g), g.failure.Some?)
  {
    var contents := ContentEvents(g.chunks);
    var err: seq<Event> := if g.failure.Some? then [ErrorEvent(g.failure.value)] else [];
    var evs := Assemble(logs, meta, g);
    var m := |logs|;
    assert forall i :: 0 <= i < m ==> evs[i] == logs[i];
    assert evs[m] == meta;
    assert forall i :: m + 2 <= i < m + 2 + |contents| ==> evs[i] == contents[i - m - 2];
    assert forall i :: m + 2 + |contents| <= i < |evs| ==> evs[i] == err[i - m - 2 - |contents|];
    FirstMetadataAt(Encode(evs), m);
  }

  /** Reading back the deltas of any assembled stream gives the model's text. */
  lemma {:induction false} AssembleAnswer(logs: seq<Event>, meta: Event, g: Generation)
    requires forall i :: 0 <= i < |logs| ==> logs[i].Log?
    requires meta.Metadata?
    ensures Deltas(Encode(Assemble(logs, meta, g))) == Concat(g.chunks)
  {
    var head := logs + [meta, Log(Generating)];
    var contents := ContentEvents(g.chunks);
    var err: seq<Event> := if g.failure.Some? then [ErrorEvent(g.failure.value)] else [];
    assert Assemble(logs, meta, g) == head + contents + err;
    assert forall i :: 0 <= i < |head| ==> !head[i].Content?;
    calc {
      Deltas(Encode(head + contents + err));
      { EncodedDeltasAppend(head + contents, err); }
      Deltas(Encode(head + contents)) + Deltas(Encode(err));
      { EncodedDeltasAppend(head, contents); }
      Deltas(Encode(head)) + Deltas(Encode(contents)) + Deltas(Encode(err));
      { NoDeltas(head); NoDeltas(err); }
      Deltas(Encode(contents));
      { ContentEventsCarryText(g.chunks); }
      Concat(g.chunks);
    }
  }

  lemma EncodedDeltasAppend(a: seq<Event>, b: seq<Event>)
    ensures Deltas(Encode(a + b)) == Deltas(Encode(a)) + Deltas(Encode(b))
  {
    EncodeAppend(a, b);
    DeltasAppend(Encode(a), Encode(b));
  }

  /** A request whose reranker calls all answered is well ordered, and ends in an error
      exactly when the model raised. */
  lemma RespondOrder(query: string, history: seq<Message>, persona: string, r: Retrieved, w: World)
    requires r.cut.None?
    ensures WellOrdered(Respond(query, history, persona, r, w),
                        w.llm(LlmMessages(Prompt(persona, r), history, query)).failure.Some?)
  {
    AssembleOrder(RetrievalLogs(query, r), MetadataEvent(r), w.llm(LlmMessages(Prompt(persona, r), history, query)));
  }

  /** When no reranker call raised, the live stream is well ordered and ends in an error
      exactly when the model raised. */
  lemma StreamOrder(query: string, history: seq<Message>, persona: string, w: World)
    ensures var r := Retrieve(query, history, w);
      r.cut.None? ==>
        WellOrdered(Stream(query, history, persona, w), w.llm(LlmMessages(Prompt(persona, r), history, query)).failure.Some?)
  {
    var r := Retrieve(query, history, w);
    if r.cut.None? {
      RespondOrder(query, history, persona, r, w);
    }
  }

  /** A request cut short by a raising reranker call sends progress messages only,
      without the metadata event, ending with the announcement of the call that raised. */
  lemma RespondCut(query: string, history: seq<Message>, persona: string, r: Retrieved, w: World)
    requires r.cut == Some(TextRerankRaised) ==> |r.textPool| > 0
    requires r.cut == Some(ImageRerankRaised) ==> |r.imagePool| > 0
    ensures var evs := Respond(query, history, persona, r, w);
      r.cut.Some? ==>
        && FirstMetadata(Encode(evs)).None?
        && (forall i :: 0 <= i < |evs| ==> evs[i].Log?)
        && evs[|evs| - 1] == (if r.cut == Some(TextRerankRaised) then RerankingLog(|r.textPool|)
                              else EvaluatingLog(|r.imagePool|))
  {
    if r.cut.Some? {
      var logs := RetrievalLogs(query, r);
      assert Respond(query, history, persona, r, w) == logs;
      var e := Encode(logs);
      assert forall i :: 0 <= i < |e| ==> e[i] == Some(logs[i]);
      if r.cut == Some(TextRerankRaised) {
        assert logs[|logs| - 1] == RerankingLog(|r.textPool|);
      } else {
        assert r.cut.value.ImageRerankRaised?;
        assert logs[|logs| - 1] == EvaluatingLog(|r.imagePool|);
      }
    }
  }

  /** The live stream of a request whose reranker call raised: progress messages only,
      ending with the announcement of that call. */
  lemma StreamCut(query: string, history: seq<Message>, persona: string, w: World)
    ensures var r := Retrieve(query, history, w);
      var evs := Stream(query, history, persona, w);
      r.cut.Some? ==>
        && FirstMetadata(Encode(evs)).None?
        && (forall i :: 0 <= i < |evs| ==> evs[i].Log?)
        && evs[|evs| - 1] == (if r.cut == Some(TextRerankRaised) then RerankingLog(|r.textPool|)
                              else EvaluatingLog(|r.imagePool|))
  {
    RespondCut(query, history, persona, Retrieve(query, history, w), w);
  }

  /** The answer read back from a request's events is the model's text exactly, or
      nothing when a reranker call raised. */
  lemma RespondAnswer(query: string, history: seq<Message>, persona: string, r: Retrieved, w: World)
    ensures var g := w.llm(LlmMessages(Prompt(persona, r), history, query));
      Deltas(Encode(Respond(query, history, persona, r, w))) == if r.cut.None? then Concat(g.chunks) else ""
  {
    var logs := RetrievalLogs(query, r);
    if r.cut.None? {
      AssembleAnswer(logs, MetadataEvent(r), w.llm(LlmMessages(Prompt(persona, r), history, query)));
    } else {
      NoDeltas(logs);
    }
  }

  /** The answer read back from the live stream is the model's text exactly, or nothing
      when a reranker call raised. */
  lemma StreamAnswer(query: string, history: seq<Message>, persona: string, w: World)
    ensures var r := Retrieve(query, history, w);
      var g := w.llm(LlmMessages(Prompt(persona, r), history, query));
      Deltas(Encode(Stream(query, history, persona, w))) == if r.cut.None? then Concat(g.chunks) else ""
  {
    RespondAnswer(query, history, persona, Retrieve(query, history, w), w);
  }

  lemma EncodeAppend(a: seq<Event>, b: seq<Event>)
    ensures Encode(a + b) == Encode(a) + Encode(b)
  {
  }

  lemma {:induction false} NoDeltas(evs: seq<Event>)
    requires forall i :: 0 <= i < |evs| ==> !evs[i].Content?
    ensures Deltas(Encode(evs)) == ""
    decreases |evs|
  {
    if |evs| > 0 {
      var p := evs[..|evs| - 1];
      var one := Encode([evs[|evs| - 1]]);
      assert evs == p + [evs[|evs| - 1]];
      EncodedDeltasAppend(p, [evs[|evs| - 1]]);
      NoDeltas(p);
      assert one[..0] == [] && one[0] == Some(evs[|evs| - 1]);
      assert Deltas(one) == Deltas(one[..0]) + DeltaOf(one[0]) == "";
    }
  }

  /** The endpoint's reply. */
  datatype Reply = Unavailable | Streaming(events: seq<Event>)

  /** `ask_question`: 503 while the reranker is not loaded, before any retrieval. */
  function Ask(loaded: bool, query: string, history: seq<Message>, persona: string, w: World): (r: Reply)
    ensures r.Unavailable? <==> !loaded
  {
    if !loaded then Unavailable else Streaming(Stream(query, history, persona, w))
  }

  /** What a client of the loaded server receives for one request: the stream's lines in
      a 200 reply. When a reranker call raised, the exception escapes the generator and
      the body breaks after the progress lines; `clientError` is the text of the
      exception the client's read then raises. */
  function Delivered(query: string, history: seq<Message>, persona: string, w: World, clientError: string)
    : Response
  {
    var r := Retrieve(query, history, w);
    var lines := Encode(Respond(query, history, persona, r, w));
    if r.cut.None? then Http(200, lines) else Broken(lines, clientError)
  }

  /** The body breaks exactly when a reranker call raised, and then before any metadata
      and with no answer text; a whole body reads back as the model's text. */
  lemma DeliveredReads(query: string, history: seq<Message>, persona: string, w: World, clientError: string)
    ensures var r := Retrieve(query, history, w);
      var resp := Delivered(query, history, persona, w, clientError);
      var g := w.llm(LlmMessages(Prompt(persona, r), history, query));
      && (resp.Broken? <==> r.cut.Some?)
      && (resp.Http? ==> resp.status == 200 && Deltas(resp.lines) == Concat(g.chunks))
      && (resp.Broken? ==> FirstMetadata(resp.lines).None? && Deltas(resp.lines) == "")
  {
    var r := Retrieve(query, history, w);
    RespondAnswer(query, history, persona, r, w);
    RespondCut(query, history, persona, r, w);
  }

  /** Without the reranker the reply depends on nothing the outside world would answer. */
  lemma AskUnloadedIgnoresWorld(query: string, history: seq<Message>, persona: string, w1: World, w2: World)
    ensures Ask(false, query, history, persona, w1) == Ask(false, query, history, persona, w2)
  {
  }
}

=== FILE: text.dfy ===
/** String operations with the meaning Python gives them. */
module Text {

  /** Python's `str.isspace()` for one character. */
  predicate IsSpace(c: char) {
    var n := c as int;
    (9 <= n <= 13) || (28 <= n <= 32) || n == 0x85 || n == 0xA0 || n == 0x1680
    || (0x2000 <= n <= 0x200A) || n == 0x2028 || n == 0x2029 || n == 0x202F
    || n == 0x205F || n == 0x3000
  }

  /** First index at or after `i` holding a non-whitespace character, or `|s|`. */
  function SkipSpaces(s: string, i: nat): (j: nat)
    requires i <= |s|
    ensures i <= j <= |s|
    ensures forall k :: i <= k < j ==> IsSpace(s[k])
    ensures j < |s| ==> !IsSpace(s[j])
    decreases |s| - i
  {
    if i < |s| && IsSpace(s[i]) then SkipSpaces(s, i + 1) else i
  }

  /** Smallest end `e` in `lo..j` such that `s[e..j]` is all whitespace. */
  function TrimEnd(s: string, lo: nat, j: nat): (e: nat)
    requires lo <= j <= |s|
    ensures lo <= e <= j
    ensures forall k :: e <= k < j ==> IsSpace(s[k])
    ensures e > lo ==> !IsSpace(s[e - 1])
    decreases j
  {
    if j > lo && IsSpace(s[j - 1]) then TrimEnd(s, lo, j - 1) else j
  }

  /** Number of whitespace characters at the start of `s`. */
  function Leading(s: string): (n: nat)
    ensures n <= |s|
  {
    SkipSpaces(s, 0)
  }

  /** Python's `str.strip()`: the slice of `s` starting after its leading whitespace
      that neither starts nor ends with whitespace, everything cut off on both sides
      being whitespace. */
  function Strip(s: string): (r: string)
    ensures Leading(s) + |r| <= |s| && r == s[Leading(s)..Leading(s) + |r|]
    ensures forall k :: 0 <= k < Leading(s) ==> IsSpace(s[k])
    ensures forall k :: Leading(s) + |r| <= k < |s| ==> IsSpace(s[k])
    ensures |r| > 0 ==> !IsSpace(r[0]) && !IsSpace(r[|r| - 1])
  {
    var i := SkipSpaces(s, 0);
    s[i..TrimEnd(s, i, |s|)]
  }

  /** Stripping twice is stripping once. */
  lemma StripIdempotent(s: string)
    ensures Strip(Strip(s)) == Strip(s)
  {
    var r := Strip(s);
    assert SkipSpaces(r, 0) == 0;
    assert TrimEnd(r, 0, |r|) == |r|;
    assert r[0..|r|] == r;
  }

  /** The capitals `str.lower()` folds within Latin-1: `A`..`Z` and `À`..`Þ` except the
      multiplication sign. Each sits 32 code points above its small letter. */
  predicate IsCapital(c: char) {
    ('A' <= c <= 'Z') || ('À' <= c <= 'Þ' && c != '×')
  }

  function LowerChar(c: char): char {
    if IsCapital(c) then (c as int + 32) as char else c
  }

  /** A lowered character is never a capital, and lowering changes exactly the capitals. */
  lemma LowerCharFolds(c: char)
    ensures !IsCapital(LowerChar(c))
    ensures LowerChar(c) == c <==> !IsCapital(c)
  {
  }

  /** `str.lower()` on the Latin-1 letters; every other character is kept. */
  function Lower(s: string): (r: string)
    ensures |r| == |s|
    ensures forall i :: 0 <= i < |s| ==> r[i] == LowerChar(s[i])
  {
    seq(|s|, i requires 0 <= i < |s| => LowerChar(s[i]))
  }

  /** Lowering twice is lowering once, and a string without capitals is its own
      lower case. */
  lemma LowerIdempotent(s: string)
    ensures Lower(Lower(s)) == Lower(s)
    ensures Lower(s) == s <==> forall i :: 0 <= i < |s| ==> !IsCapital(s[i])
  {
    forall i | 0 <= i < |s|
      ensures LowerChar(LowerChar(s[i])) == LowerChar(s[i])
      ensures LowerChar(s[i]) == s[i] <==> !IsCapital(s[i])
    {
      LowerCharFolds(s[i]);
      LowerCharFolds(LowerChar(s[i]));
    }
    if Lower(s) == s {
      forall i | 0 <= i < |s|
        ensures !IsCapital(s[i])
      {
        assert Lower(s)[i] == LowerChar(s[i]);
      }
    }
  }

  predicate StartsWith(s: string, prefix: string) {
    |prefix| <= |s| && s[..|prefix|] == prefix
  }

  predicate EndsWith(s: string, suffix: string) {
    |suffix| <= |s| && s[|s| - |suffix|..] == suffix
  }

  lemma EndsWithConcat(a: string, b: string)
    ensures EndsWith(a + b, b)
  {
    assert (a + b)[|a|..] == b;
  }

  /** Python's `sub in s`. */
  predicate Contains(s: string, sub: string)
    decreases |s|
  {
    StartsWith(s, sub) || (|s| > 0 && Contains(s[1..], sub))
  }

  /** Python's `sep.join(parts)`. */
  function Join(parts: seq<string>, sep: string): (r: string)
  {
    if |parts| == 0 then ""
    else if |parts| == 1 then parts[0]
    else parts[0] + sep + Join(parts[1..], sep)
  }

  /** A joined non-empty list starts like its first part. */
  lemma {:induction false} JoinStartsWithFirst(parts: seq<string>, sep: string)
    requires |parts| > 0
    ensures StartsWith(Join(parts, sep), parts[0])
  {
    if |parts| > 1 {
      assert Join(parts, sep) == parts[0] + (sep + Join(parts[1..], sep));
    }
  }
}
